=== FILE: README.md ===
# VAI CRM deal pipeline, modelled in Dafny

VAI CRM records the sales ("deals") of a software reseller. The browser app is
TypeScript/React. The back end is Node/Express with PostgreSQL, plus an older
in-memory store. This project models the deal pipeline at the centre of both and
proves properties of it:

- the price calculator (`calcTotal`), the blank deal and `safeNumber`;
- the deal catalogue: pipeline stages, products, roles and the fixed sellers;
- the sales form: its initial state, its field-by-field patches, the browser's constraint validation (`required`, `type="email"`, `min` and `step`) and its submit transform;
- the quality, training and experience cards, and the phone-number formatter they share;
- the payment confirmation panel;
- the app shell: adding, updating and confirming deals, the sales-tab filter, the
  status counters, the work lists and the role permissions;
- the dashboard: the snake_case normaliser, the date filter, seller performance,
  daily sales, the summary cards, the goal input and seller initials;
- the performance charts, the sales report and the training report;
- the back end's deal routes (list, insert, partial update, delete);
- the back end's in-memory deal store (`dealModel`).

Everything is pure functions over immutable values. A deal is the datatype
`Deals.Deal`. Untyped JavaScript objects (request bodies, database rows, wire
objects, store entries) are `Js.Object`, a map from field name to `Js.Value`. A
missing field reads as `undefined`, and JavaScript truthiness, `||`, `??`,
`Number`, `parseFloat` and `===` are written out in `Js` and `Numbers`.

Clocks, date parsing and formatting, database ids and user tables are parameters:

- `new Date(text)` is a `Dates.Parse` function;
- date-fns `parseISO` plus `format` is a `Metrics.DayOf` function;
- the days of the current month are a sequence argument;
- `new Date()` and `toISOString()` are the values the caller passes in.

## Model

| member | source | states |
|---|---|---|
| Types.PipelineShape | vai-crm/src/types/index.ts:12-20 | The pipeline has the seven stage ids in order, no two stages share an id, and every stage is listed. |
| Types.StageOf | vai-crm/src/types/index.ts:12-20 | Looking up a stage id finds the stage with that id, and `None` means no stage has it. |
| Types.StageIdRoundTrip | vai-crm/src/types/index.ts:12-20 | Looking up a stage's own id gives that stage back. |
| Types.RolesShape | vai-crm/src/types/index.ts:2 | There are four roles, all listed, with distinct names. |
| Types.ProdutosDistinct | vai-crm/src/types/index.ts:4-10 | There are five products, all distinct. |
| Types.SellersShape | vai-crm/src/types/index.ts:22-27 | There are four fixed sellers, with ids 1 to 4 in order, the Vendedor role and distinct names. |
| Calculations.PriceTableIsCatalogue | vai-crm/src/utils/calculations.ts:13-26 | A product has a base price exactly when it is in the catalogue; any other product, including the empty one, adds 0. |
| Calculations.BasePricesIncrease | vai-crm/src/utils/calculations.ts:13-19 | Base prices strictly increase along the catalogue order. |
| Calculations.CalcTotal | vai-crm/src/utils/calculations.ts:11-65 | The total is never negative. It is the manual value when that parses above 0, and otherwise max(0, subtotal - discount). |
| Calculations.ManualValue | vai-crm/src/utils/calculations.ts:54-59 | The manual value applies exactly when the text is non-empty and parses to a number above 0, and then it is that number. |
| Calculations.SubtotalIsLineItemSum | vai-crm/src/utils/calculations.ts:21-47 | The subtotal is the sum of the line items: base price, 25 per connection, 25 per user, 100 for the platform, 250 per URA channel, 90 per AI channel, 50 per official API, plus leads. |
| Calculations.UnitPrices | vai-crm/src/utils/calculations.ts:28-44 | One more unit of each quantity raises the subtotal by its unit price, and enabling the platform raises it by 100. |
| Calculations.ManualOverride | vai-crm/src/utils/calculations.ts:54-64 | With a valid manual value, no pricing input or discount changes the total, and the subtotal is still the computed sum. |
| Calculations.DiscountMonotone | vai-crm/src/utils/calculations.ts:50-62 | Without a manual value, a larger discount never raises the total and leaves the subtotal alone. |
| Calculations.CalcTotalReadsPricing | vai-crm/src/utils/calculations.ts:11-65 | Two deals that differ only outside the pricing fields have the same totals. |
| Calculations.PricingExamples | vai-crm/src/utils/calculations.ts:13-62 | "VAI Simples" with 2 connections gives subtotal 200 and total 200; "VAI Simples" with discount 10000 gives subtotal 150 and total 0. |
| Calculations.ManualExample | vai-crm/src/utils/calculations.ts:54-58 | A deal whose manual value is "500" totals 500 whatever its other fields. |
| Calculations.BlankDeal | vai-crm/src/utils/calculations.ts:68-104 | The blank deal has status `novo`, every quantity and amount 0, every flag false and no notes, and takes its owner, owner id and date from the arguments. |
| Calculations.BlankPricesToZero | vai-crm/src/utils/calculations.ts:68-104 | A blank deal prices to subtotal 0 and total 0, and its stored totals agree with the calculator. |
| Calculations.SafeNumber | vai-crm/src/utils/calculations.ts:107-111 | null, undefined, "" and anything that is NaN as a number give 0; anything else gives its numeric value. |
| Calculations.SafeNumberIsNumberOrZero | vai-crm/src/utils/calculations.ts:107-111 | `safeNumber(v)` equals `Number(v) \|\| 0` for every value. |
| Calculations.SafeNumberOfNumeral | vai-crm/src/utils/calculations.ts:107-111 | A decimal numeral converts to the number it writes. |
| Deals.Set | vai-crm/src/components/forms/DealForm.tsx:28 | `{...prev, ...patch}` changes only the patched fields, and each patched field takes the patch's value. |
| WhatsApp.Digits | vai-crm/src/components/cards/QualidadeCard.tsx:15 | Stripping non-digits leaves only digits and never lengthens the text. |
| WhatsApp.DigitsIsFilter | vai-crm/src/components/cards/QualidadeCard.tsx:15 | Stripping non-digits is exactly filtering the text by "is a digit". |
| WhatsApp.DropLeadingZero | vai-crm/src/components/cards/QualidadeCard.tsx:16 | At most one leading zero is dropped, and one always is when present. |
| WhatsApp.Format | vai-crm/src/components/cards/QualidadeCard.tsx:14-22 | The result is all digits. A 10-digit cleaned number gains a '9' after its area code; any other length is left as cleaned. |
| WhatsApp.AtMostOneZeroDropped | vai-crm/src/components/cards/QualidadeCard.tsx:15-16 | The cleaned number is the digit string, minus at most one leading zero. |
| WhatsApp.FormatIdempotent | vai-crm/src/components/cards/QualidadeCard.tsx:14-22 | Formatting an already formatted number that does not start with 0 changes nothing. |
| WhatsApp.Target | vai-crm/src/components/cards/TreinamentoCard.tsx:46-116 | A blank number gives no link target; otherwise the target is "55" followed by the formatted number, all digits. |
| QualidadeCard.Toggle | vai-crm/src/components/cards/QualidadeCard.tsx:53-79 | Each checkbox sets its own flag to the checked value and changes nothing else. |
| QualidadeCard.Pronto | vai-crm/src/components/cards/QualidadeCard.tsx:12 | A deal is ready exactly when each of the card's three boxes is ticked. |
| QualidadeCard.Approve | vai-crm/src/components/cards/QualidadeCard.tsx:12-97 | Approval is possible exactly when quality, payment and schedule are all confirmed, and it only moves the deal to `treinamento_pendente`. |
| QualidadeCard.ChecksEnableApproval | vai-crm/src/components/cards/QualidadeCard.tsx:12-97 | Ticking the three boxes always enables approval; unticking any one of them disables it. |
| QualidadeCard.ApprovalKeepsPronto | vai-crm/src/components/cards/QualidadeCard.tsx:12-97 | An approved deal still has all three checks. |
| QualidadeCard.WhatsAppNumber | vai-crm/src/components/cards/QualidadeCard.tsx:87-88 | The link number is "55" followed by the formatted number, all digits. |
| TreinamentoCard.InitialSchedule | vai-crm/src/components/cards/TreinamentoCard.tsx:19-20 | The schedule inputs start at the deal's training date and time. |
| TreinamentoCard.SaveSchedule | vai-crm/src/components/cards/TreinamentoCard.tsx:130-135 | Saving stores the date and time, and sets `treinamento_agendado` exactly when both are filled in, `treinamento_pendente` otherwise; nothing else changes. |
| TreinamentoCard.SavedScheduleReloads | vai-crm/src/components/cards/TreinamentoCard.tsx:19-135 | Reopening a saved card shows the saved date and time. |
| TreinamentoCard.SaveIdempotent | vai-crm/src/components/cards/TreinamentoCard.tsx:130-135 | Saving the same schedule twice is the same as saving it once. |
| TreinamentoCard.Conclude | vai-crm/src/components/cards/TreinamentoCard.tsx:142-147 | Concluding is offered exactly for scheduled deals and only moves them to `experiencia`. |
| TreinamentoCard.ConcludeAfterSave | vai-crm/src/components/cards/TreinamentoCard.tsx:130-147 | After saving a schedule, concluding is offered exactly when both date and time were filled in. |
| TreinamentoCard.ContactTarget | vai-crm/src/components/cards/TreinamentoCard.tsx:46-116 | The contact button does nothing exactly when the deal has no WhatsApp number; otherwise it opens the formatted number. |
| ExperienciaCard.InitialNote | vai-crm/src/components/cards/ExperienciaCard.tsx:18-22 | The note box starts with the last note's text, or empty when there is none. |
| ExperienciaCard.SaveNote | vai-crm/src/components/cards/ExperienciaCard.tsx:52-55 | Saving sets the notes to the single new note and changes nothing else. |
| ExperienciaCard.Finalize | vai-crm/src/components/cards/ExperienciaCard.tsx:61-65 | Finalizing sets the notes to the single new note and the status to `ativo`, and changes nothing else. |
| ExperienciaCard.FinalizeIsSaveThenActivate | vai-crm/src/components/cards/ExperienciaCard.tsx:52-65 | Finalizing is saving the note and then setting the status to `ativo`. |
| ExperienciaCard.SavedNoteReloads | vai-crm/src/components/cards/ExperienciaCard.tsx:18-65 | Reopening the card after a save or a finalize shows the text just saved. |
| ExperienciaCard.SaveNoteDropsHistory | vai-crm/src/components/cards/ExperienciaCard.tsx:52-55 | A deal with an earlier note loses that note when a new one is saved. |
| ExperienciaCard.AppendNote | vai-crm/src/components/cards/ExperienciaCard.tsx:52-55 | The corrected save keeps every earlier note in order, adds the new note at the end and changes nothing else. |
| ExperienciaCard.AppendKeepsHistory | vai-crm/src/components/cards/ExperienciaCard.tsx:18-55 | The corrected save loses no note, and the card reopens on the text just saved. |
| ExperienciaCard.AppendAgreesOnFirstNote | vai-crm/src/components/cards/ExperienciaCard.tsx:52-55 | On a deal with no notes, the corrected save and the original save agree. |
| DealForm.Init | vai-crm/src/components/forms/DealForm.tsx:17-24 | The form starts from the blank deal for the current user, with status `treinamento_pendente`, sale type `nova` and no receipt. |
| DealForm.Coerce | vai-crm/src/components/forms/DealForm.tsx:180 | A numeric input stores `Number(text) \|\| 0`: the number when the text is numeric, 0 otherwise. |
| DealForm.CoerceExamples | vai-crm/src/components/forms/DealForm.tsx:180 | A blank numeric input stores 0, and a decimal numeral stores its value. |
| DealForm.FindSeller | vai-crm/src/components/forms/DealForm.tsx:31-92 | The seller found has the selected id and is a fixed seller; none found means no fixed seller has that id. |
| DealForm.SelectedId | vai-crm/src/components/forms/DealForm.tsx:91 | The stored owner id is `Number(value)` of the selected option, with "" giving 0. |
| DealForm.PatchOf | vai-crm/src/components/forms/DealForm.tsx:70-423 | Each input's patch is well typed and touches only form fields; the sale-type select and the receipt inputs patch nothing. |
| DealForm.Apply | vai-crm/src/components/forms/DealForm.tsx:23-423 | An edit changes only the fields its patch names and sets each to the patched value; the sale type and receipt change only through their own inputs. |
| DealForm.EditsKeepSystemFields | vai-crm/src/components/forms/DealForm.tsx:28-423 | No input changes the form deal's id, creation date, status, stored totals, training status, sale type, receipt, notes, or agenda and quality checks. The payment checkbox is a form field; the sale type and receipt are separate state that only the submit writes. |
| DealForm.SellerSelectRecordsSeller | vai-crm/src/components/forms/DealForm.tsx:90-96 | Selecting a seller stores the selected id and the matching seller's name, or "" when no fixed seller matches. |
| DealForm.ChooseFixedSeller | vai-crm/src/components/forms/DealForm.tsx:90-105 | Choosing the k-th fixed seller's option stores id k and that seller's name. |
| DealForm.Saved | vai-crm/src/components/forms/DealForm.tsx:48-56 | The saved deal has status `treinamento_pendente`, training status `pendente`, the calculator's totals, and the form's sale type and receipt; nothing else changes. |
| DealForm.OnSubmit | vai-crm/src/components/forms/DealForm.tsx:46-59 | The handler hands over the saved deal and resets the form to a blank deal, sale type `nova` and no receipt. |
| DealForm.Submit | vai-crm/src/components/forms/DealForm.tsx:44-290 | The browser's constraint validation runs before `onSubmit`. Nothing is saved and the form stays as it was when a required text input is empty, a required select shows its "" placeholder, the e-mail is neither empty nor a valid address, a quantity is negative or not whole, leads or discount is negative or not a multiple of 0.01, or the manual value is a number that is not a multiple of 0.01. Otherwise the result is exactly that of the handler. |
| DealForm.BlankFormBlocked | vai-crm/src/components/forms/DealForm.tsx:110-116 | Neither the first form nor the form after a reset can be submitted: its company is empty. Submitting the first form saves nothing and changes nothing. |
| DealForm.ProdutoSets | vai-crm/src/components/forms/DealForm.tsx:70-73 | Among the required fields, the product select sets only the product. |
| DealForm.EmpresaSets | vai-crm/src/components/forms/DealForm.tsx:111-114 | Among the required fields, the company input sets only the company. |
| DealForm.ResponsavelSets | vai-crm/src/components/forms/DealForm.tsx:122-125 | Among the required fields, the contact input sets only the contact. |
| DealForm.WhatsappSets | vai-crm/src/components/forms/DealForm.tsx:133-136 | Among the required fields, the WhatsApp input sets only the number. |
| DealForm.PagamentoSets | vai-crm/src/components/forms/DealForm.tsx:281-284 | Among the required fields, the payment select sets only the payment method. |
| DealForm.FixedSellerFound | vai-crm/src/components/forms/DealForm.tsx:101-105 | The id of each fixed seller's option finds a seller. |
| DealForm.FilledFormSubmits | vai-crm/src/components/forms/DealForm.tsx:70-290 | On a form whose e-mail, quantity, leads, discount and manual-value inputs pass their constraints, choosing a fixed seller, a listed product and a listed payment method, and typing some company, contact and WhatsApp text, makes the form submittable. |
| DealForm.FillingSetsRequired | vai-crm/src/components/forms/DealForm.tsx:70-136 | After choosing the k-th fixed seller, a product, company, contact, WhatsApp and payment, the six required fields hold exactly those choices. |
| DealForm.FillingKeepsValidity | vai-crm/src/components/forms/DealForm.tsx:70-290 | Filling in the six required inputs leaves the validity of the constrained inputs as it was. |
| DealForm.UncheckedEditKeepsValidity | vai-crm/src/components/forms/DealForm.tsx:153-276 | An input that touches none of the constrained fields keeps the form's constraint validity. |
| DealForm.RequiredNotChecked | vai-crm/src/components/forms/DealForm.tsx:70-290 | No required input is one of the e-mail, quantity, leads, discount or manual-value inputs. |
| DealForm.SellerPatchKeys | vai-crm/src/components/forms/DealForm.tsx:90-96 | The seller select patches the owner id and owner name and nothing else. |
| DealForm.EmailStored | vai-crm/src/components/forms/DealForm.tsx:153-159 | The e-mail input stores the text as typed. |
| DealForm.DescontoStored | vai-crm/src/components/forms/DealForm.tsx:255-264 | The discount input stores `Number(text) \|\| 0`. |
| DealForm.ConexoesStored | vai-crm/src/components/forms/DealForm.tsx:175-182 | The connections input stores `Number(text) \|\| 0`. |
| DealForm.BadEmailBlocks | vai-crm/src/components/forms/DealForm.tsx:153-159 | Typing a non-empty e-mail that is not a valid address blocks the submit, whatever else the form holds: nothing is saved and the form is kept. |
| DealForm.NegativeDiscountBlocks | vai-crm/src/components/forms/DealForm.tsx:255-264 | A discount typed as a negative number (`min={0}`) blocks the submit. |
| DealForm.FractionalQuantityBlocks | vai-crm/src/components/forms/DealForm.tsx:175-182 | A fractional number of connections (default step 1) blocks the submit. |
| DealForm.SavedPricesAsTyped | vai-crm/src/components/forms/DealForm.tsx:26-56 | The saved deal prices to the same totals as the form showed. |
| DealForm.SubmittedTotalsCurrent | vai-crm/src/components/forms/DealForm.tsx:48-56 | A deal that is saved carries a stored subtotal and total that agree with the calculator. |
| DealForm.ResetDiffersFromInit | vai-crm/src/components/forms/DealForm.tsx:17-57 | After a submit that goes through, the form's status is `novo`, not the `treinamento_pendente` it started with; otherwise the reset equals the initial state. |
| App.AddDeal | vai-crm/src/App.tsx:40-42 | A new deal goes first and the earlier deals follow unchanged. |
| App.UpdateDeal | vai-crm/src/App.tsx:44-46 | Every deal whose id equals the update's id is replaced by it; the others and the length stay. |
| App.UpdateKeepsIds | vai-crm/src/App.tsx:44-46 | An update keeps the list of ids. |
| App.UpdateIdempotent | vai-crm/src/App.tsx:44-46 | Applying the same update twice is applying it once. |
| App.UpdateChangesOne | vai-crm/src/App.tsx:44-46 | With distinct ids, an update replaces exactly the one deal with that id and keeps the ids distinct. |
| App.SharedIdUpdateClobbers | vai-crm/src/App.tsx:40-46 | Two deals added with id "" (the form's blank id) both become the updated deal, and the other deal is lost. |
| App.AddDealFresh | vai-crm/src/App.tsx:40-42 | The corrected add gives the new deal an unused id and keeps ids distinct. |
| App.FreshIdsIsolateUpdates | vai-crm/src/App.tsx:40-46 | After the corrected add, updating the new deal changes only that deal. |
| App.IndexOfId | vai-crm/src/App.tsx:49 | `find` picks the first deal with the id, and none exactly when no deal has it. |
| App.ConfirmarPagamento | vai-crm/src/App.tsx:48-53 | An unknown id changes nothing; otherwise the first deal with that id is updated with the payment confirmed. |
| App.ConfirmMarksOnlyThatDeal | vai-crm/src/App.tsx:48-53 | With distinct ids, confirming marks exactly that deal as paid and changes nothing else. |
| App.FiltroDeals | vai-crm/src/App.tsx:74-87 | The sales tab keeps, in order, exactly the deals of the owner filter whose date is not before the start or after the end, each as many times as in the list. |
| App.InvalidDatesPassTheFilter | vai-crm/src/App.tsx:76-85 | A deal with an unparseable date passes every date filter, because comparisons with an Invalid Date are false. |
| App.NoFilterKeepsAll | vai-crm/src/App.tsx:74-87 | With no filters set, every deal is kept. |
| App.Estatisticas | vai-crm/src/App.tsx:89-94 | The total is the number of deals, and each counter is the number of deals in its status (`ativo`, `inativo`, `atraso`). |
| App.CountThreeDisjoint | vai-crm/src/App.tsx:91-93 | No deal is counted in two of the three status counters. |
| App.PendingQuality | vai-crm/src/App.tsx:96-98 | The quality list keeps, in order and with their multiplicity, exactly the deals missing a payment, quality or schedule check. |
| App.TrainingList | vai-crm/src/App.tsx:100-102 | The training list keeps, in order and with their multiplicity, exactly the deals pending or scheduled for training. |
| App.ExperienceList | vai-crm/src/App.tsx:104 | The experience list keeps, in order and with their multiplicity, exactly the deals in `experiencia`. |
| App.TrainingAndExperienceDisjoint | vai-crm/src/App.tsx:100-104 | No deal is on both the training and the experience lists. |
| App.ApprovedDealIsInTraining | vai-crm/src/App.tsx:44-102 | An approved deal, once updated, is on the training list and off the quality list. |
| App.PermissionsOf | vai-crm/src/App.tsx:70-72 | Sales is open to sellers and management, quality to support and management, training to trainers and management. |
| App.RolePermissions | vai-crm/src/App.tsx:70-72 | Management gets all three tabs and every other role exactly one. |
| Confirmacao.Pending | vai-crm/src/components/dashboard/ConfirmacaoVendas.tsx:12-15 | The panel keeps, in order and with their multiplicity, exactly the unpaid deals that are not `inativo`. |
| Confirmacao.Initials | vai-crm/src/components/dashboard/ConfirmacaoVendas.tsx:74 | The badge is the company's first two characters (fewer for a shorter name), upper-cased. |
| Confirmacao.InitialsIdempotent | vai-crm/src/components/dashboard/ConfirmacaoVendas.tsx:74 | Taking the initials of the initials changes nothing. |
| Confirmacao.Render | vai-crm/src/components/dashboard/ConfirmacaoVendas.tsx:42-138 | The "all confirmed" view shows exactly when no deal is awaiting payment; otherwise there is one entry per pending deal, confirming that deal's id. |
| Confirmacao.ConfirmShrinksPanel | vai-crm/src/components/dashboard/ConfirmacaoVendas.tsx:129 | With distinct ids, confirming a pending deal removes exactly it from the panel. |
| Normalize.Pick | vai-crm/src/components/reports/Dashboard.tsx:43-60 | A field reads the snake_case spelling when truthy, else the camelCase one when truthy, else the default. |
| Normalize.PickOne | vai-crm/src/components/reports/Dashboard.tsx:51-62 | A single-spelling field reads its value when truthy, else the default. |
| Normalize.SnakeToCamel | vai-crm/src/components/reports/Dashboard.tsx:28-64 | The manual value is always dropped, the date falls back to now, and each flag is set exactly when either spelling is truthy. |
| Normalize.EmptyObjectDefaults | vai-crm/src/components/reports/Dashboard.tsx:28-64 | An object with no fields normalises to all defaults: 0, false, "pendente", "nova", no notes and the current time. |
| Normalize.ReadBack | vai-crm/src/components/reports/Dashboard.tsx:28-64 | A deal sent in camelCase reads back unchanged except for the date, owner id, totals, manual value, training status and sale type, which the fallbacks can rewrite. |
| Normalize.ReadBackDefaults | vai-crm/src/components/reports/Dashboard.tsx:33-57 | An empty date reads back as now, owner id 0 as no owner, and an empty training status or sale type as its default. |
| Dashboard.Filtered | vai-crm/src/components/reports/Dashboard.tsx:86-107 | The dashboard keeps, in order and with their multiplicity, exactly the deals of the owner filter that have a valid date inside the range. |
| Dashboard.FilteredIsSalesTabWithValidDates | vai-crm/src/components/reports/Dashboard.tsx:86-107 | The dashboard filter is the sales-tab filter with the invalid-date deals removed. |
| Dashboard.Vendedores | vai-crm/src/components/reports/Dashboard.tsx:114-120 | The sellers are the distinct non-blank owner names of the filtered deals. |
| Dashboard.Performance | vai-crm/src/components/reports/Dashboard.tsx:123-148 | There is one row per listed seller, every listed seller's uncapped row is there, and the rows are ordered by new sales, highest first. |
| Dashboard.PerformanceRows | vai-crm/src/components/reports/Dashboard.tsx:123-148 | Each performance row belongs to a listed seller and holds that seller's sales, goal share and uncapped percentage. |
| Dashboard.PercentNotCapped | vai-crm/src/components/reports/Dashboard.tsx:136-143 | The dashboard reports 200% where the charts cap the same seller at 100%. |
| Dashboard.CountFourDisjoint | vai-crm/src/components/reports/Dashboard.tsx:198-201 | The active, inactive, overdue and in-training counts add up to at most the number of filtered deals. |
| Dashboard.FaturadoWithinTotal | vai-crm/src/components/reports/Dashboard.tsx:194-203 | With non-negative totals, the invoiced amount is between 0 and the month's total. |
| Dashboard.Summarize | vai-crm/src/components/reports/Dashboard.tsx:194-205 | Invoiced is the sum over paid deals and the month's total the sum over all. Each status card counts the deals in its status, and the pending card the deals waiting for or scheduled for training. The remainder is never negative, is 0 exactly when the goal is met, and otherwise fills the gap. The goal percentage is 0 without a positive goal; with one, it times the goal is 100 times the month's total, so it reaches 100 exactly when the goal is met. |
| Dashboard.PercentualMeta | vai-crm/src/components/reports/Dashboard.tsx:204 | `(totalVendidoMes / metaMensal) * 100` for a positive goal, otherwise 0: the product with the goal is 100 times the total, and it reaches 100 exactly when the goal is met. |
| Dashboard.Words | vai-crm/src/components/reports/Dashboard.tsx:247 | The words are exactly the non-empty parts of the name split at each space, in the order they appear. None is empty or holds a space, and a non-blank name has at least one. |
| Dashboard.GetIniciais | vai-crm/src/components/reports/Dashboard.tsx:244-257 | A blank name gives "SV"; otherwise the initials of the first one or two words, upper-cased. |
| Metrics.SellersOf | vai-crm/src/components/charts/PerformanceCharts.tsx:33 | The sellers are the distinct non-empty owner names. |
| Metrics.Vendas | vai-crm/src/components/reports/Dashboard.tsx:129-132 | A seller's new sales are the totals of that seller's deals outside `ativo`, never negative when no total is. |
| Metrics.Recorrencia | vai-crm/src/components/reports/Dashboard.tsx:129-134 | A seller's recurring sales are the totals of that seller's `ativo` deals, never negative when no total is. |
| Metrics.OwnerNamesMembers | vai-crm/src/components/charts/PerformanceCharts.tsx:33 | A name is among the owner names exactly when some deal has that owner. |
| Metrics.SellerTotalsPartition | vai-crm/src/components/reports/Dashboard.tsx:129-134 | A seller's new sales plus recurring sales are the sum of all that seller's deals. |
| Metrics.IndividualGoal | vai-crm/src/components/reports/Dashboard.tsx:135 | With no sellers, the goal share is the whole monthly goal. |
| Metrics.IndividualGoalsAddUp | vai-crm/src/components/reports/Dashboard.tsx:135 | The sellers' goal shares add up to the monthly goal. |
| Metrics.Percent | vai-crm/src/components/reports/Dashboard.tsx:136 | Without a positive goal the percentage is 0; with one, it reaches 100 exactly when the goal is met, and it is never negative for a non-negative amount. |
| Metrics.PercentOfGoal | vai-crm/src/components/reports/Dashboard.tsx:136 | With a positive goal, the percentage times the goal is 100 times the amount achieved. |
| Metrics.PerfOf | vai-crm/src/components/reports/Dashboard.tsx:128-144 | A row holds the seller, or "Sem Vendedor". Its `vendas` is the total of the seller's deals not in status `ativo` (Metrics.Vendas) and its `recorrencia` the total of those in `ativo` (Metrics.Recorrencia); together they make up the seller's total. It also holds the goal share and the percentage, capped at 100 when asked. |
| Metrics.PerfRows | vai-crm/src/components/reports/Dashboard.tsx:126-145 | There is one row per seller, in seller order. |
| Metrics.Ranking | vai-crm/src/components/reports/Dashboard.tsx:147 | The rows are sorted by sales, highest first, and are a permutation of the per-seller rows; rows with equal sales keep their seller order. |
| Metrics.RankingHasEverySeller | vai-crm/src/components/reports/Dashboard.tsx:123-148 | Every seller's row is in the ranking. |
| Metrics.RankingRowOfSeller | vai-crm/src/components/reports/Dashboard.tsx:123-148 | Every ranking row is some seller's row. |
| Metrics.RankingCoversSellers | vai-crm/src/components/reports/Dashboard.tsx:123-148 | Every listed seller's row is in the ranking. |
| Metrics.Accumulate | vai-crm/src/components/reports/Dashboard.tsx:164-179 | Accumulating the sales map adds, for each day, exactly the sum of the totals of that day's deals. |
| Metrics.DailySeries | vai-crm/src/components/reports/Dashboard.tsx:150-191 | There is one point per day of the month, holding the sum of that day's totals. |
| Metrics.QuietDayIsZero | vai-crm/src/components/reports/Dashboard.tsx:183 | A day without deals shows 0. |
| Metrics.ReplaceFirst | vai-crm/src/components/reports/Dashboard.tsx:227 | Only the first comma becomes a point; the length is unchanged. |
| Metrics.MetaChange | vai-crm/src/components/reports/Dashboard.tsx:225-231 | The goal becomes the parsed value when it is a number of at least 0; otherwise it is kept. The goal never turns negative. |
| Metrics.MetaChangeAcceptsNumerals | vai-crm/src/components/reports/Dashboard.tsx:225-231 | Typing a decimal numeral sets the goal to its value. |
| Charts.PerformanceRows | vai-crm/src/components/charts/PerformanceCharts.tsx:35-58 | Each chart row belongs to a seller and holds that seller's sales, goal share and percentage capped at 100. |
| Charts.Performance | vai-crm/src/components/charts/PerformanceCharts.tsx:35-58 | There is one bar per named owner, every owner's capped row is there, and the bars are ordered by new sales, highest first. |
| Charts.TotalVendidoMes | vai-crm/src/components/charts/PerformanceCharts.tsx:86-88 | The month's total is new plus recurring sales, never negative when no total is. |
| Charts.VendasPorDia | vai-crm/src/components/charts/PerformanceCharts.tsx:60-84 | The daily chart exists exactly when every deal's date parses (format throws otherwise); it has one entry per day, with that day's sum and the daily goal. |
| Charts.DailyGoalsAddUp | vai-crm/src/components/charts/PerformanceCharts.tsx:71-80 | The daily goals add up to the monthly goal. |
| Charts.PercentualMeta | vai-crm/src/components/charts/PerformanceCharts.tsx:86-90 | The percentage is 0 without a positive goal; with one, it times the goal is 100 times the total, and it reaches 100 exactly when the goal is met. |
| Charts.BarWidth | vai-crm/src/components/charts/PerformanceCharts.tsx:176 | The progress bar never exceeds 100%. |
| Charts.MessageMatchesBar | vai-crm/src/components/charts/PerformanceCharts.tsx:176-180 | With a positive goal, "Meta atingida" shows exactly when the bar is full. |
| Charts.ZeroGoalIsMet | vai-crm/src/components/charts/PerformanceCharts.tsx:90-180 | With a zero goal and no sales, the message says the goal is met while the bar is empty. |
| Relatorios.RowOf | vai-crm/src/components/reports/Relatorios.tsx:96-107 | A report row shows the owner or "-", the contact fields as stored, the deal's status upper-cased, "OK" exactly for paid deals and "Pendente" otherwise, and the deal's total. |
| Relatorios.Rows | vai-crm/src/components/reports/Relatorios.tsx:96 | There is one row per filtered deal, in order. |
| Relatorios.Normalizados | vai-crm/src/components/reports/Relatorios.tsx:59-66 | Each received deal is normalised in place, and one sent without a date is dated `now`. |
| Relatorios.Vendedores | vai-crm/src/components/reports/Relatorios.tsx:68-70 | The seller drop-down lists the distinct non-empty owners of the normalised deals. |
| Relatorios.Filtered | vai-crm/src/components/reports/Relatorios.tsx:72-82 | The report keeps, in order and with their multiplicity, exactly the normalised deals of the chosen seller whose date is not before the start or after the end. |
| Relatorios.FilteredIsSalesFilter | vai-crm/src/components/reports/Relatorios.tsx:72-82 | The report's filter is the sales-tab filter (vai-crm/src/App.tsx:74-87) applied to the normalised deals. |
| Relatorios.VendedorSelectsDeals | vai-crm/src/components/reports/Relatorios.tsx:68-82 | Choosing any seller of the drop-down, with no dates, shows at least one deal of that seller. |
| Relatorios.BlankOwnerListedHereOnly | vai-crm/src/components/reports/Relatorios.tsx:68-70 | An owner made of spaces is a seller of the report but not of the dashboard. |
| Relatorios.BlankDateJudgedByNow | vai-crm/src/components/reports/Relatorios.tsx:59-82 | A deal sent without a date, with a start date after `now`, stays on the sales tab but is dropped by the report, which dated it `now`. |
| Relatorios.Tabela | vai-crm/src/components/reports/Relatorios.tsx:72-107 | The table has one row per normalised deal that passes the filter, every such deal has its row, and every row is the row of such a deal. |
| Relatorios.TotalFaturado | vai-crm/src/components/reports/Relatorios.tsx:110-113 | The paid total is the sum of the rows marked "OK", and with non-negative totals it lies between 0 and the sum of all deals. |
| Relatorios.TotalGeral | vai-crm/src/components/reports/Relatorios.tsx:196 | The grand total is the sum of the table's total column and, with non-negative totals, at least the paid total. |
| Relatorios.RowsAddUp | vai-crm/src/components/reports/Relatorios.tsx:96-196 | The rows' totals add up to the deals' totals. |
| Relatorios.PaidRowsAddUp | vai-crm/src/components/reports/Relatorios.tsx:96-113 | The totals of the rows marked "OK" add up to the totals of the paid deals. |
| RelatorioTreinamento.StatusText | vai-crm/src/components/reports/RelatorioTreinamento.tsx:90-98 | Each of the four training statuses shows its own label; any other text shows "Sem status". |
| RelatorioTreinamento.LabelsDistinct | vai-crm/src/components/reports/RelatorioTreinamento.tsx:90-98 | The four labels are distinct, and none is "Sem status". |
| RelatorioTreinamento.SellerList | vai-crm/src/components/reports/RelatorioTreinamento.tsx:21-23 | The seller list starts with the four fixed sellers, then adds the other owners, with no repeats. |
| RelatorioTreinamento.BuscarEmpresas | vai-crm/src/components/reports/RelatorioTreinamento.tsx:25-44 | A blank term hides the results. Otherwise the results are shown, in order and with their multiplicity: exactly the deals whose company or contact contains the term case-insensitively, or whose phone or CNPJ contains it as typed. |
| RelatorioTreinamento.SearchFindsOwnCompany | vai-crm/src/components/reports/RelatorioTreinamento.tsx:25-44 | Searching for a deal's company finds that deal. |
| RelatorioTreinamento.Treinamentos | vai-crm/src/components/reports/RelatorioTreinamento.tsx:46-68 | The list holds exactly the deals passing the status, seller and search filters, newest first; deals of the same instant keep their list order. |
| RelatorioTreinamento.NoFiltersListsAll | vai-crm/src/components/reports/RelatorioTreinamento.tsx:46-68 | With no filters, every deal is listed. |
| RelatorioTreinamento.FiltersNarrow | vai-crm/src/components/reports/RelatorioTreinamento.tsx:48-54 | A deal listed under status and seller filters is also listed without them. |
| RelatorioTreinamento.Estatisticas | vai-crm/src/components/reports/RelatorioTreinamento.tsx:70-78 | The total counts deals with a training status, and each of the four counters counts the deals in its state. |
| RelatorioTreinamento.StateCountsAdd | vai-crm/src/components/reports/RelatorioTreinamento.tsx:72-75 | The four status counters add up to the number of deals in one of the four states. |
| RelatorioTreinamento.CountersAddUpToTotal | vai-crm/src/components/reports/RelatorioTreinamento.tsx:70-78 | When every training status is one of the four known ones, the counters add up exactly to the total. |
| RelatorioTreinamento.Type | vai-crm/src/components/reports/RelatorioTreinamento.tsx:179-184 | Typing stores the term, keeps the filters, and shows results exactly for a non-blank term. |
| RelatorioTreinamento.Select | vai-crm/src/components/reports/RelatorioTreinamento.tsx:195-198 | Picking a result sets the search to its company and hides the results. |
| RelatorioTreinamento.SelectedDealIsListed | vai-crm/src/components/reports/RelatorioTreinamento.tsx:46-198 | A picked deal that passes the status and seller filters is in the list. |
| RelatorioTreinamento.Clear | vai-crm/src/components/reports/RelatorioTreinamento.tsx:218-227 | Clearing resets every filter, so the clear button disappears and no results are shown. |
| RelatorioTreinamento.ClearedListsAll | vai-crm/src/components/reports/RelatorioTreinamento.tsx:218-227 | After clearing, every deal is listed. |
| DealRoutes.InsertParam | vai-crm-backend/deal.js:99-130 | Each column gets the body's value when truthy, else its default. Columns without a default get the value as sent. Nothing is left undefined. |
| DealRoutes.Insert | vai-crm-backend/deal.js:70-136 | The insert answers 201 with a row appended under the next id and the current time, holding each column's parameter. |
| DealRoutes.InsertKeepsValid | vai-crm-backend/deal.js:74-98 | Inserting keeps the ids distinct and below the next id. |
| DealRoutes.InsertedDefaultsListBack | vai-crm-backend/deal.js:19-130 | A deal posted with only its company lists back with status `novo`, no owner, training `pendente`, sale type `nova`, zero counters, no notes and no total. |
| DealRoutes.Coalesce | vai-crm-backend/deal.js:154-184 | `COALESCE(param, column)` keeps the column exactly when the parameter is null or undefined. |
| DealRoutes.UpdateParam | vai-crm-backend/deal.js:154-184 | The UPDATE sends NULL, which keeps the column, exactly for a missing or null field (for the notes, for any falsy one), and otherwise the body's value. |
| DealRoutes.Merge | vai-crm-backend/deal.js:154-186 | A merged row keeps its id and creation time. |
| DealRoutes.MergeColumns | vai-crm-backend/deal.js:154-217 | Each column takes the body's value unless it is null or undefined (for notes, unless it is falsy), and otherwise keeps its value. |
| DealRoutes.MissingFieldKeepsColumn | vai-crm-backend/deal.js:154-217 | A field missing from the body leaves its column alone. |
| DealRoutes.Find | vai-crm-backend/deal.js:185 | The lookup finds the first row with the id, and none exactly when no row has it. |
| DealRoutes.Update | vai-crm-backend/deal.js:148-232 | An unknown id answers 404 and changes nothing; otherwise every row with that id is merged, the rest stay, and the merged row is returned with 200. |
| DealRoutes.UpdateKeepsValid | vai-crm-backend/deal.js:153-186 | An update keeps the ids distinct and below the next id. |
| DealRoutes.AnyStatusAccepted | vai-crm-backend/deal.js:157-190 | Any status text is stored as sent; there is no transition check. |
| DealRoutes.Delete | vai-crm-backend/deal.js:244-264 | An unknown id answers 404 and changes nothing; otherwise the rows with the id are removed, the others stay in order, and the removed row is returned with 200. |
| DealRoutes.DeleteRemovesOne | vai-crm-backend/deal.js:248-264 | With distinct ids, a delete removes exactly one row and keeps the ids distinct. |
| DealRoutes.RowToDeal | vai-crm-backend/deal.js:19-52 | A listed deal shows its stored owner name, or else the joined user's name, or else ""; falsy columns list with their defaults: training `pendente`, sale type `nova`, 0 quantities, unpaid, no notes, and no subtotal or total. |
| DealRoutes.ListedId | vai-crm-backend/deal.js:20 | A listed deal's id is the decimal text of its row id, which reads back as that number. |
| DealRoutes.ListRows | vai-crm-backend/deal.js:9-16 | The rows are listed newest first, and every stored row is listed exactly once. |
| DealRoutes.List | vai-crm-backend/deal.js:19-52 | There is one listed deal per row, in the listing order, each mapped field by field. |
| DealRoutes.EveryRowListed | vai-crm-backend/deal.js:7-57 | Every stored row appears in the listing. |
| DealModel.Create | vai-crm-backend/src/models/dealModel.js:10-19 | A create appends exactly one deal and bumps the counter. The deal's id is the counter unless the caller sent one, the timestamps are always the store's, and the other fields are as sent. |
| DealModel.FindIndex | vai-crm-backend/src/models/dealModel.js:26 | `findIndex` gives the first deal whose id is `===` the key, and -1 exactly when there is none. |
| DealModel.FindById | vai-crm-backend/src/models/dealModel.js:21-23 | `findById` finds nothing exactly when no deal has the id; whatever it finds is a stored deal with that id. |
| DealModel.FindByIdFirst | vai-crm-backend/src/models/dealModel.js:21-23 | When several deals share the id, `findById` returns the first. |
| DealModel.Update | vai-crm-backend/src/models/dealModel.js:25-31 | An unknown id returns null and changes nothing. Otherwise only that deal's slot changes: sent fields take the sent values, `updatedAt` is the store's, and every other field is kept. |
| DealModel.InitialValid | vai-crm-backend/src/models/dealModel.js:2-3 | The store starts empty and valid. |
| DealModel.CreateKeepsValid | vai-crm-backend/src/models/dealModel.js:10-19 | Without a caller id, creating keeps the ids distinct and below the counter. |
| DealModel.CreateThenFind | vai-crm-backend/src/models/dealModel.js:10-23 | A created deal is found by the id the store gave it. |
| DealModel.CallerIdShadowed | vai-crm-backend/src/models/dealModel.js:11-23 | A caller-sent id can repeat a store-given one, and the later deal is then unreachable by `findById`. |
| DealModel.UpdateKeepsValid | vai-crm-backend/src/models/dealModel.js:25-31 | An update that does not send an id keeps the ids distinct and below the counter. |
| DealModel.UpdateThenFind | vai-crm-backend/src/models/dealModel.js:21-31 | After an update that does not send an id, `findById` returns the updated deal. |
| DealModel.UpdateFrame | vai-crm-backend/src/models/dealModel.js:29 | An update leaves every other position, the length and the counter alone. |
| DealModel.CreatesListInOrder | vai-crm-backend/src/models/dealModel.js:6-19 | Creates append in order: `findAll` lists the earlier deals first, then the new ones with the counter's successive ids. |

## Left out

- Rendering is left out: React state plumbing, recharts, icons, `money`/`Intl` currency formatting, `toLocaleDateString` and the WhatsApp message texts. The models stop at the values these would display.
- `window.open` is left out; the link number it would open is modelled.
- `useLocalState` persistence, `console` logging, the CSV export (App.tsx:55-68) and the header's user switch are I/O.
- The network client, the Express wiring, the pg pools, the users route and the spreadsheet import are left out.
- Dates are parameters. `new Date(text)` is `Dates.Parse`, with `None` for an Invalid Date. date-fns `parseISO` plus `format` is `Metrics.DayOf`. `eachDayOfInterval` for the current month is a `days` argument. `new Date()` and `toISOString()` are values passed in.
- Numbers are unbounded reals. Floating-point rounding, `Infinity`, exponent and hex numerals in `parseFloat`/`Number` are not modelled.
- NaN is modelled as `None` wherever a value is tested or defaulted with `|| 0`. NaN flowing through sums is not modelled: a deal's total reads as its value or 0.
- `toUpperCase`/`toLowerCase` map ASCII letters only.
- Normalize.SnakeToCamel: the source copies each `||` result without conversion. The model reads quantities with `Number(...) || 0`, texts as strings and ids as integers. A number stored as text therefore normalises to its value, not to the text.
- Normalize.SnakeToCamel: a null or undefined entry, which the source returns unchanged, is not modelled.
- Relatorios.RowOf: `status.toUpperCase()` throws on a deal with no status; deal status is always a string in the model.
- Charts.VendasPorDia: a date that `format` rejects makes the whole chart throw; the model returns `None` for the chart instead.
- DealRoutes.ListRows: PostgreSQL's order among rows with equal `created_at` is unspecified. The model keeps such rows in their stored order (a stable sort).
- DealRoutes.Update and DealRoutes.Delete: the path id is an integer. A non-numeric id makes PostgreSQL fail (500), and that path is not modelled.
- The insert's 400 path and the 500 paths (database errors) are not modelled. pg returns `numeric` columns as text, which `parseFloat` then reads; the model stores numbers directly.
- DealModel.Create: the two `new Date()` readings are the `createdAt` and `updatedAt` parameters. Dates are stored as opaque values.
- DealModel.FindById: the callers that pass an HTTP path id (a string, never `===` to a numeric id) are not part of this model.
- Metrics.Percent: the product with the goal is stated in Metrics.PercentOfGoal rather than in the function's own contract.
- Calculations.PriceTableIsCatalogue: the source looks the product up in a plain object, so inherited keys such as "constructor", "toString" or "__proto__" are truthy there and `+=` would turn the subtotal into text; the model's table holds only the five products, so such a key prices at 0 here, and the contract's "any other product adds 0" does not hold for those keys in the source.
- RelatorioTreinamento.Treinamentos: when a date does not parse, the source's comparator returns NaN and the engine's order is implementation-defined; the model's order (undated deals keep their place relative to each other) is one possible outcome, and the order claim is proved for the model only.
- Metrics.SellersOf, Dashboard.Vendedores, RelatorioTreinamento.SellerList and Relatorios.Vendedores: the contracts state the members and that there are no repeats, not that each name appears at its first occurrence as `new Set` keeps it.
- DealForm.Submit: the browser checks `step` on floating-point numbers and the e-mail grammar of the HTML Standard; the model checks steps exactly on reals and takes the e-mail test as the `isEmail` parameter. A `badInput` state (text the number box cannot parse) is not modelled, since the form stores `Number(text) || 0` and the box then shows that number.
- Charts.BarWidth: the contract states only the 100% cap; its agreement with the message is Charts.MessageMatchesBar.

## Findings

| source | as written | input that shows it | evidently intended | confidence | as-written member | corrected member |
|---|---|---|---|---|---|---|
| vai-crm/src/App.tsx:40-46 | Deals saved from the form keep the blank id "" of `BLANK_DEAL`, and `updateDeal` replaces every deal whose id matches the update's. | Add two deals from the form, then confirm the payment of one: both entries become that deal, and the other company is lost. | Each added deal gets a fresh id, so an update changes only its own deal. | high (not executed) | App.UpdateDeal | App.AddDealFresh |
| vai-crm/src/components/cards/ExperienciaCard.tsx:52-65 | Saving an observation replaces the whole note list with the one new note. | A deal whose notes hold one earlier note, saved with a new text: the earlier note is gone. | The new note is appended and the history kept; the box pre-fills from the last note, and the notes field is a list. | medium (not executed) | ExperienciaCard.SaveNote | ExperienciaCard.AppendNote |

=== FILE: app.dfy ===
/**
 * The application shell: the deal list and its three mutators, the owner/date filter
 * of the sales tab, the status counts, the lists feeding the quality, training and
 * experience tabs, and the role permissions.
 */
module App {
  import opened Wrappers
  import opened Types
  import opened Deals
  import opened Dates
  import opened Seqs
  import QualidadeCard

  /** `addDeal`: the new deal goes first, the old list follows unchanged. */
  function AddDeal(ds: seq<Deal>, d: Deal): (r: seq<Deal>)
    ensures |r| == |ds| + 1 && r[0] == d && r[1..] == ds
  {
    [d] + ds
  }

  /** `updateDeal`: every deal whose id equals the update's id is replaced by the update. */
  function UpdateDeal(ds: seq<Deal>, u: Deal): (r: seq<Deal>)
    ensures |r| == |ds|
    ensures forall i :: 0 <= i < |ds| && ds[i].id == u.id ==> r[i] == u
    ensures forall i :: 0 <= i < |ds| && ds[i].id != u.id ==> r[i] == ds[i]
  {
    if |ds| == 0 then []
    else [if ds[0].id == u.id then u else ds[0]] + UpdateDeal(ds[1..], u)
  }

  /** Updating keeps the list of ids. */
  lemma UpdateKeepsIds(ds: seq<Deal>, u: Deal)
    ensures Ids(UpdateDeal(ds, u)) == Ids(ds)
  {
  }

  /** Updating twice with the same deal is updating once. */
  lemma UpdateIdempotent(ds: seq<Deal>, u: Deal)
    ensures UpdateDeal(UpdateDeal(ds, u), u) == UpdateDeal(ds, u)
  {
  }

  /** With unique ids, an update of the deal at k changes that deal and no other. */
  lemma UpdateChangesOne(ds: seq<Deal>, k: nat, u: Deal)
    requires UniqueIds(ds) && k < |ds| && ds[k].id == u.id
    ensures UpdateDeal(ds, u) == ds[k := u]
    ensures UniqueIds(UpdateDeal(ds, u))
  {
    var r := UpdateDeal(ds, u);
    forall i | 0 <= i < |ds| ensures r[i] == ds[k := u][i] {
      if i != k {
        assert ds[i].id != ds[k].id;
      }
    }
  }

  /**
   * Every deal saved from the form carries the blank id "", and `addDeal` keeps it.
   * Two such deals share an id, and updating one of them overwrites the other with it.
   */
  lemma SharedIdUpdateClobbers(a: Deal, b: Deal)
    requires a.id == "" && b.id == "" && a.empresa != b.empresa
    ensures var ds := AddDeal(AddDeal([], b), a);
            var u := a.(pagamentoConfirmado := true);
            UpdateDeal(ds, u) == [u, u] && b !in UpdateDeal(ds, u)
  {
    var ds := AddDeal(AddDeal([], b), a);
    var u := a.(pagamentoConfirmado := true);
    assert ds == [a, b];
    assert u.empresa != b.empresa;
  }

  /** Adding a deal under an id the list does not use yet. */
  function AddDealFresh(ds: seq<Deal>, d: Deal, freshId: string): (r: seq<Deal>)
    requires freshId !in Ids(ds)
    ensures r == AddDeal(ds, d.(id := freshId))
    ensures UniqueIds(ds) ==> UniqueIds(r)
  {
    var r := AddDeal(ds, d.(id := freshId));
    assert forall j :: 0 <= j < |ds| ==> ds[j].id == Ids(ds)[j];
    r
  }

  /** With ids kept unique, updating the deal just added changes that deal alone. */
  lemma {:induction false} FreshIdsIsolateUpdates(ds: seq<Deal>, d: Deal, freshId: string, u: Deal)
    requires UniqueIds(ds) && freshId !in Ids(ds) && u.id == freshId
    ensures UpdateDeal(AddDealFresh(ds, d, freshId), u) == [u] + ds
  {
    var r := AddDealFresh(ds, d, freshId);
    UpdateChangesOne(r, 0, u);
    assert r[0 := u] == [u] + ds;
  }

  /** The index of the first deal with this id (`deals.find`). */
  function IndexOfId(ds: seq<Deal>, id: string): (k: Option<nat>)
    ensures k.None? <==> id !in Ids(ds)
    ensures k.Some? ==> k.value < |ds| && ds[k.value].id == id
    ensures k.Some? ==> forall j :: 0 <= j < k.value ==> ds[j].id != id
  {
    if |ds| == 0 then None
    else if ds[0].id == id then Some(0)
    else
      var k := IndexOfId(ds[1..], id);
      assert Ids(ds) == [ds[0].id] + Ids(ds[1..]);
      if k.None? then None else Some(k.value + 1)
  }

  /** `confirmarPagamento`: the found deal, marked paid, is written back through `updateDeal`. */
  function ConfirmarPagamento(ds: seq<Deal>, id: string): (r: seq<Deal>)
    ensures id !in Ids(ds) ==> r == ds
    ensures id in Ids(ds) ==> r == UpdateDeal(ds, ds[IndexOfId(ds, id).value].(pagamentoConfirmado := true))
  {
    var k := IndexOfId(ds, id);
    if k.None? then ds else UpdateDeal(ds, ds[k.value].(pagamentoConfirmado := true))
  }

  /** With unique ids, confirming marks exactly that deal paid and changes nothing else. */
  lemma ConfirmMarksOnlyThatDeal(ds: seq<Deal>, k: nat)
    requires UniqueIds(ds) && k < |ds|
    ensures ConfirmarPagamento(ds, ds[k].id) == ds[k := ds[k].(pagamentoConfirmado := true)]
    ensures ConfirmarPagamento(ds, ds[k].id)[k].pagamentoConfirmado
    ensures SameExcept(ConfirmarPagamento(ds, ds[k].id)[k], ds[k], {PagamentoConfirmado})
  {
    assert Ids(ds)[k] == ds[k].id;
    var i := IndexOfId(ds, ds[k].id).value;
    assert i == k;
    UpdateChangesOne(ds, k, ds[k].(pagamentoConfirmado := true));
  }

  /** The owner and date conditions of `filtroDeals`; an empty filter is off. */
  predicate KeepInSalesTab(d: Deal, ownerFilter: string, dateFrom: string, dateTo: string, parse: Parse) {
    (ownerFilter == "" || d.owner == ownerFilter)
    && (dateFrom == "" || !Lt(parse(d.createdAt), parse(dateFrom)))
    && (dateTo == "" || !Lt(parse(dateTo), parse(d.createdAt)))
  }

  function SalesTab(ownerFilter: string, dateFrom: string, dateTo: string, parse: Parse): Deal -> bool {
    (d: Deal) => KeepInSalesTab(d, ownerFilter, dateFrom, dateTo, parse)
  }

  /** `filtroDeals` */
  function FiltroDeals(ds: seq<Deal>, ownerFilter: string, dateFrom: string, dateTo: string, parse: Parse): (r: seq<Deal>)
    ensures IsSubseq(r, ds)
    ensures forall d :: d in r <==> d in ds && KeepInSalesTab(d, ownerFilter, dateFrom, dateTo, parse)
    ensures forall d :: Occurrences(r, d) == if KeepInSalesTab(d, ownerFilter, dateFrom, dateTo, parse) then Occurrences(ds, d) else 0
  {
    Filter(ds, SalesTab(ownerFilter, dateFrom, dateTo, parse))
  }

  /** There is no validity guard: a deal whose date does not parse survives any date bounds. */
  lemma InvalidDatesPassTheFilter(ds: seq<Deal>, d: Deal, dateFrom: string, dateTo: string, parse: Parse)
    requires d in ds && parse(d.createdAt).None?
    ensures d in FiltroDeals(ds, "", dateFrom, dateTo, parse)
  {
  }

  /** With every filter off, the sales tab shows the whole list. */
  lemma {:induction false} NoFilterKeepsAll(ds: seq<Deal>, parse: Parse)
    ensures FiltroDeals(ds, "", "", "", parse) == ds
  {
    FilterAll(ds, SalesTab("", "", "", parse));
  }

  /** `estatisticas` */
  datatype Stats = Stats(total: nat, ativos: nat, inativos: nat, atraso: nat)

  function HasStatus(s: Stage): Deal -> bool {
    (d: Deal) => d.status == s.Id()
  }

  function Estatisticas(ds: seq<Deal>): (st: Stats)
    ensures st.total == |ds|
    ensures st.ativos == |Filter(ds, HasStatus(Ativo))|
    ensures st.inativos == |Filter(ds, HasStatus(Inativo))|
    ensures st.atraso == |Filter(ds, HasStatus(Atraso))|
    ensures st.ativos + st.inativos + st.atraso <= st.total
  {
    var st := Stats(|ds|, Count(ds, HasStatus(Ativo)), Count(ds, HasStatus(Inativo)), Count(ds, HasStatus(Atraso)));
    CountThreeDisjoint(ds);
    st
  }

  /** Three statuses a deal cannot hold at once count at most the whole list. */
  lemma {:induction false} CountThreeDisjoint(ds: seq<Deal>)
    ensures Count(ds, HasStatus(Ativo)) + Count(ds, HasStatus(Inativo)) + Count(ds, HasStatus(Atraso)) <= |ds|
  {
    var p := HasStatus(Ativo);
    var q := HasStatus(Inativo);
    var t := HasStatus(Atraso);
    var pq: Deal -> bool := d => p(d) || q(d);
    CountDisjoint(ds, pq, t);
    CountUnion(ds, p, q);
  }

  /** The count of a disjunction of two exclusive predicates is the sum of their counts. */
  lemma {:induction false} CountUnion(ds: seq<Deal>, p: Deal -> bool, q: Deal -> bool)
    requires forall d :: !(p(d) && q(d))
    ensures Count(ds, d => p(d) || q(d)) == Count(ds, p) + Count(ds, q)
  {
    if |ds| > 0 {
      CountUnion(ds[1..], p, q);
    }
  }

  /** `vendasPendentesQualidade`: the deals that are not yet `pronto`. */
  function PendingQuality(ds: seq<Deal>): (r: seq<Deal>)
    ensures IsSubseq(r, ds)
    ensures forall d :: d in r <==> d in ds && !QualidadeCard.Pronto(d)
    ensures forall d :: Occurrences(r, d) == if QualidadeCard.Pronto(d) then 0 else Occurrences(ds, d)
  {
    Filter(ds, (d: Deal) => !d.pagamentoConfirmado || !d.qualidadeOK || !d.agendaOk)
  }

  /** Waiting for or scheduled for training. */
  predicate InTrainingTab(d: Deal) {
    d.status == TreinamentoPendente.Id() || d.status == TreinamentoAgendado.Id()
  }

  /** `treinamentosPendentes`: deals waiting for or scheduled for training. */
  function TrainingList(ds: seq<Deal>): (r: seq<Deal>)
    ensures IsSubseq(r, ds)
    ensures forall d :: d in r <==> d in ds && InTrainingTab(d)
    ensures forall d :: Occurrences(r, d) == if InTrainingTab(d) then Occurrences(ds, d) else 0
  {
    Filter(ds, (d: Deal) => d.status == "treinamento_pendente" || d.status == "treinamento_agendado")
  }

  /** `experienciaAtiva`: deals in their experience month. */
  function ExperienceList(ds: seq<Deal>): (r: seq<Deal>)
    ensures IsSubseq(r, ds)
    ensures forall d :: d in r <==> d in ds && d.status == Experiencia.Id()
    ensures forall d :: Occurrences(r, d) == if d.status == Experiencia.Id() then Occurrences(ds, d) else 0
  {
    Filter(ds, HasStatus(Experiencia))
  }

  /** No deal appears in both the training tab and the experience tab. */
  lemma TrainingAndExperienceDisjoint(ds: seq<Deal>)
    ensures forall d :: d in TrainingList(ds) ==> d !in ExperienceList(ds)
  {
  }

  /**
   * Approving a deal's quality, then handing the result to `updateDeal`, moves it from the
   * quality list into the training list. The app shell does not render the quality card
   * itself; this composes the card's `onUpdate` with the shell's update as a host would.
   */
  lemma ApprovedDealIsInTraining(ds: seq<Deal>, k: nat)
    requires UniqueIds(ds) && k < |ds| && QualidadeCard.Approve(ds[k]).Some?
    ensures QualidadeCard.Approve(ds[k]).value in TrainingList(UpdateDeal(ds, QualidadeCard.Approve(ds[k]).value))
    ensures QualidadeCard.Approve(ds[k]).value !in PendingQuality(UpdateDeal(ds, QualidadeCard.Approve(ds[k]).value))
  {
    var u := QualidadeCard.Approve(ds[k]).value;
    UpdateChangesOne(ds, k, u);
    assert UpdateDeal(ds, u)[k] == u;
    assert u in UpdateDeal(ds, u);
    assert InTrainingTab(u);
    QualidadeCard.ApprovalKeepsPronto(ds[k]);
  }

  /** The three tab permissions of a role. */
  datatype Permissions = Permissions(vendas: bool, qualidade: bool, treinamento: bool)

  /** `["Vendedor", "Gerencia"].includes(user.role)` and its two siblings. */
  function PermissionsOf(role: Role): (p: Permissions)
    ensures p.vendas <==> role == Vendedor || role == Gerencia
    ensures p.qualidade <==> role == Suporte || role == Gerencia
    ensures p.treinamento <==> role == Treinamento || role == Gerencia
  {
    Permissions(role.Name() in ["Vendedor", "Gerencia"], role.Name() in ["Suporte", "Gerencia"],
                role.Name() in ["Treinamento", "Gerencia"])
  }

  function Granted(p: Permissions): nat {
    (if p.vendas then 1 else 0) + (if p.qualidade then 1 else 0) + (if p.treinamento then 1 else 0)
  }

  /** Gerencia may use all three tabs; every other role exactly one. */
  lemma RolePermissions(role: Role)
    ensures role == Gerencia ==> PermissionsOf(role) == Permissions(true, true, true)
    ensures role != Gerencia ==> Granted(PermissionsOf(role)) == 1
  {
  }
}

=== FILE: calculations.dfy ===
/**
 * Pricing of a deal (`calcTotal`), the blank deal the intake form starts from
 * (`BLANK_DEAL`) and the defensive number conversion `safeNumber`.
 */
module Calculations {
  import opened Wrappers
  import opened Text
  import opened Numbers
  import opened Seqs
  import opened Types
  import opened Deals
  import Js

  /** `produtoPrecos[produto]`: the monthly base price of a catalogue product. */
  function PriceOf(produto: string): Option<real> {
    if produto == "VAI Simples" then Some(150.0)
    else if produto == "VAI + Canais Sociais" then Some(300.0)
    else if produto == "VAI + Canais + IA" then Some(500.0)
    else if produto == "VAI + Canais + IA + URA" then Some(750.0)
    else if produto == "VAI + Canais + IA + URA + Consultoria" then Some(1200.0)
    else None
  }

  /** The price the subtotal starts from: the product's price, or 0 without a known product. */
  function BasePrice(produto: string): real {
    var p := PriceOf(produto);
    if produto != "" && p.Some? && p.value != 0.0 then p.value else 0.0
  }

  /** The price table is keyed by exactly the catalogue, and the base price is 0 off it. */
  lemma PriceTableIsCatalogue(produto: string)
    ensures PriceOf(produto).Some? <==> produto in PRODUTOS
    ensures BasePrice(produto) > 0.0 <==> produto in PRODUTOS
    ensures produto !in PRODUTOS ==> BasePrice(produto) == 0.0
  {
  }

  /** Each product further along the catalogue costs strictly more. */
  lemma BasePricesIncrease()
    ensures forall i, j :: 0 <= i < j < |PRODUTOS| ==> BasePrice(PRODUTOS[i]) < BasePrice(PRODUTOS[j])
  {
    assert BasePrice(PRODUTOS[0]) == 150.0;
    assert BasePrice(PRODUTOS[1]) == 300.0;
    assert BasePrice(PRODUTOS[2]) == 500.0;
    assert BasePrice(PRODUTOS[3]) == 750.0;
    assert BasePrice(PRODUTOS[4]) == 1200.0;
  }

  const CONEXAO_PRICE: real := 25.0
  const USUARIO_PRICE: real := 25.0
  const PLATAFORMA_PRICE: real := 100.0
  const URA_PRICE: real := 250.0
  const IA_PRICE: real := 90.0
  const API_PRICE: real := 50.0

  /** `Math.max(0, x)` */
  function Max0(x: real): (r: real)
    ensures r >= 0.0 && r >= x
    ensures r == x || r == 0.0
  {
    if x > 0.0 then x else 0.0
  }

  /**
   * The manual value when it overrides the total: `valorManual` is non-empty and
   * `parseFloat` reads a number greater than 0 from it.
   */
  function ManualValue(valorManual: string): (m: Option<real>)
    ensures m.Some? <==> valorManual != "" && ParseFloat(valorManual).Some? && ParseFloat(valorManual).value > 0.0
    ensures m.Some? ==> m == ParseFloat(valorManual)
  {
    if valorManual == "" then None
    else
      var n := ParseFloat(valorManual);
      if n.Some? && n.value > 0.0 then n else None
  }

  datatype Totals = Totals(subtotal: real, total: real)

  /** `calcTotal(deal)`, accumulating the subtotal in the order the source adds it up. */
  function CalcTotal(d: Deal): (r: Totals)
    ensures r.total >= 0.0
    ensures ManualValue(d.valorManual).Some? ==> r.total == ManualValue(d.valorManual).value
    ensures ManualValue(d.valorManual).None? ==> r.total == Max0(r.subtotal - d.desconto)
  {
    var s1 := BasePrice(d.produto);
    var s2 := s1 + d.qtdConexoes * CONEXAO_PRICE;
    var s3 := s2 + d.qtdUsuarios * USUARIO_PRICE;
    var s4 := s3 + (if d.plataformaHabilitada then PLATAFORMA_PRICE else 0.0);
    var s5 := s4 + d.qtdUraCanais * URA_PRICE;
    var s6 := s5 + d.qtdIaCanais * IA_PRICE;
    var s7 := s6 + d.qtdApiOficial * API_PRICE;
    var subtotal := s7 + d.leadsValor;
    var discounted := subtotal - d.desconto;
    var m := ManualValue(d.valorManual);
    var total := if m.Some? then m.value else discounted;
    Totals(subtotal, Max0(total))
  }

  /** The fields `calcTotal` reads. */
  const PRICING_FIELDS: set<Field> :=
    {Produto, QtdConexoes, QtdUsuarios, PlataformaHabilitada, QtdUraCanais,
     QtdIaCanais, QtdApiOficial, LeadsValor, Desconto, ValorManual}

  /** `calcTotal` reads only the pricing fields. */
  lemma CalcTotalReadsPricing(a: Deal, b: Deal, fs: set<Field>)
    requires SameExcept(a, b, fs)
    requires fs !! PRICING_FIELDS
    ensures CalcTotal(a) == CalcTotal(b)
  {
  }

  /** One priced line of a deal: unit price times quantity. */
  datatype LineItem = LineItem(unitPrice: real, quantity: real)

  function Amount(item: LineItem): real {
    item.unitPrice * item.quantity
  }

  /** The deal as a price list: the base product, the per-unit extras and the leads amount. */
  function LineItems(d: Deal): seq<LineItem> {
    [ LineItem(BasePrice(d.produto), 1.0),
      LineItem(CONEXAO_PRICE, d.qtdConexoes),
      LineItem(USUARIO_PRICE, d.qtdUsuarios),
      LineItem(PLATAFORMA_PRICE, if d.plataformaHabilitada then 1.0 else 0.0),
      LineItem(URA_PRICE, d.qtdUraCanais),
      LineItem(IA_PRICE, d.qtdIaCanais),
      LineItem(API_PRICE, d.qtdApiOficial),
      LineItem(1.0, d.leadsValor) ]
  }

  /** The subtotal is the sum of the deal's price list. */
  lemma SubtotalIsLineItemSum(d: Deal)
    ensures CalcTotal(d).subtotal == SumOf(LineItems(d), Amount)
  {
    var items := LineItems(d);
    assert SumOf(items[7..], Amount) == d.leadsValor;
    assert SumOf(items[6..], Amount) == d.qtdApiOficial * API_PRICE + SumOf(items[7..], Amount);
    assert SumOf(items[5..], Amount) == d.qtdIaCanais * IA_PRICE + SumOf(items[6..], Amount);
    assert SumOf(items[4..], Amount) == d.qtdUraCanais * URA_PRICE + SumOf(items[5..], Amount);
    assert SumOf(items[3..], Amount) == (if d.plataformaHabilitada then PLATAFORMA_PRICE else 0.0) + SumOf(items[4..], Amount);
    assert SumOf(items[2..], Amount) == d.qtdUsuarios * USUARIO_PRICE + SumOf(items[3..], Amount);
    assert SumOf(items[1..], Amount) == d.qtdConexoes * CONEXAO_PRICE + SumOf(items[2..], Amount);
    assert items[1..][1..] == items[2..];
  }

  /** One more connection, user, URA, IA or API unit raises the subtotal by exactly its unit price. */
  lemma UnitPrices(d: Deal)
    ensures CalcTotal(d.(qtdConexoes := d.qtdConexoes + 1.0)).subtotal == CalcTotal(d).subtotal + 25.0
    ensures CalcTotal(d.(qtdUsuarios := d.qtdUsuarios + 1.0)).subtotal == CalcTotal(d).subtotal + 25.0
    ensures CalcTotal(d.(qtdUraCanais := d.qtdUraCanais + 1.0)).subtotal == CalcTotal(d).subtotal + 250.0
    ensures CalcTotal(d.(qtdIaCanais := d.qtdIaCanais + 1.0)).subtotal == CalcTotal(d).subtotal + 90.0
    ensures CalcTotal(d.(qtdApiOficial := d.qtdApiOficial + 1.0)).subtotal == CalcTotal(d).subtotal + 50.0
    ensures !d.plataformaHabilitada ==>
      CalcTotal(d.(plataformaHabilitada := true)).subtotal == CalcTotal(d).subtotal + 100.0
  {
  }

  /** A manual override fixes the total whatever the line items and the discount, and leaves the subtotal alone. */
  lemma ManualOverride(d: Deal, e: Deal)
    requires ManualValue(d.valorManual).Some?
    requires e == d.(produto := e.produto, qtdConexoes := e.qtdConexoes, qtdUsuarios := e.qtdUsuarios,
                     plataformaHabilitada := e.plataformaHabilitada, qtdUraCanais := e.qtdUraCanais,
                     qtdIaCanais := e.qtdIaCanais, qtdApiOficial := e.qtdApiOficial,
                     leadsValor := e.leadsValor, desconto := e.desconto)
    ensures CalcTotal(e).total == CalcTotal(d).total
    ensures CalcTotal(d.(valorManual := "")).subtotal == CalcTotal(d).subtotal
  {
  }

  /** Without an override a larger discount never raises the total, and the subtotal ignores the discount. */
  lemma DiscountMonotone(d: Deal, more: real)
    requires ManualValue(d.valorManual).None?
    requires more >= d.desconto
    ensures CalcTotal(d.(desconto := more)).total <= CalcTotal(d).total
    ensures CalcTotal(d.(desconto := more)).subtotal == CalcTotal(d).subtotal
  {
  }

  /** `BLANK_DEAL(ownerName, ownerId)` created on the day `today` (the date part of the ISO timestamp). */
  function BlankDeal(ownerName: string, ownerId: Option<int>, today: string): (d: Deal)
    ensures Blank(d)
    ensures d.owner == ownerName && d.ownerId == ownerId && d.createdAt == today
    ensures d.status == Novo.Id()
  {
    Deal(
      id := "",
      createdAt := today,
      ownerId := ownerId,
      owner := ownerName,
      status := "novo",
      produto := "",
      empresa := "",
      cnpj := "",
      responsavel := "",
      whatsapp := "",
      email := "",
      formaPagamento := "",
      qtdConexoes := 0.0,
      qtdUsuarios := 0.0,
      plataformaHabilitada := false,
      qtdUraCanais := 0.0,
      qtdIaCanais := 0.0,
      qtdApiOficial := 0.0,
      leadsValor := 0.0,
      desconto := 0.0,
      subtotal := Some(0.0),
      valorManual := "",
      total := Some(0.0),
      treinamentoData := "",
      treinamentoHora := "",
      treinamentoStatus := "pendente",
      tipoVenda := "nova",
      comprovante := "",
      pagamentoConfirmado := false,
      agendaOk := false,
      qualidadeOK := false,
      observacoes := [])
  }

  /** Nothing sold and nothing done yet: no product, no quantities or amounts, every flag off, no notes. */
  predicate Blank(d: Deal) {
    d.id == "" && d.produto == "" && d.empresa == "" && d.cnpj == "" && d.responsavel == ""
    && d.whatsapp == "" && d.email == "" && d.formaPagamento == ""
    && d.qtdConexoes == 0.0 && d.qtdUsuarios == 0.0 && !d.plataformaHabilitada
    && d.qtdUraCanais == 0.0 && d.qtdIaCanais == 0.0 && d.qtdApiOficial == 0.0
    && d.leadsValor == 0.0 && d.desconto == 0.0 && d.valorManual == ""
    && d.subtotal == Some(0.0) && d.total == Some(0.0)
    && d.treinamentoData == "" && d.treinamentoHora == ""
    && d.treinamentoStatus == "pendente" && d.tipoVenda == "nova" && d.comprovante == ""
    && !d.pagamentoConfirmado && !d.agendaOk && !d.qualidadeOK && d.observacoes == []
  }

  /** The stored subtotal and total are what `calcTotal` computes from the deal. */
  predicate TotalsCurrent(d: Deal) {
    var t := CalcTotal(d);
    d.subtotal == Some(t.subtotal) && d.total == Some(t.total)
  }

  /** A blank deal prices to zero, so its stored zero totals are current. */
  lemma BlankPricesToZero(d: Deal)
    requires Blank(d)
    ensures CalcTotal(d) == Totals(0.0, 0.0)
    ensures TotalsCurrent(d)
  {
  }

  /** "VAI Simples" with two connections costs 200; a discount of 10000 on it clamps the total to 0. */
  lemma PricingExamples(owner: string, today: string)
    ensures CalcTotal(BlankDeal(owner, None, today).(produto := "VAI Simples", qtdConexoes := 2.0))
         == Totals(200.0, 200.0)
    ensures CalcTotal(BlankDeal(owner, None, today).(produto := "VAI Simples", desconto := 10000.0))
         == Totals(150.0, 0.0)
  {
  }

  /** A manual value of "500" sets the total to 500, whatever the line items and the discount. */
  lemma ManualExample(d: Deal)
    requires d.valorManual == "500"
    ensures CalcTotal(d).total == 500.0
  {
    ManualValue500();
  }

  lemma ManualValue500()
    ensures ManualValue("500") == Some(500.0)
  {
    Numeral500();
    NatRoundTrip(500);
  }

  lemma Numeral500()
    ensures NatToString(500) == "500"
  {
    assert NatToString(5) == "5";
    assert NatToString(50) == NatToString(5) + "0";
    assert NatToString(500) == NatToString(50) + "0";
  }

  /** `safeNumber(value)` */
  function SafeNumber(v: Js.Value): (r: real)
    ensures Js.Nullish(v) || v == Js.Str("") || Js.Number(v).None? ==> r == 0.0
    ensures Js.Number(v).Some? ==> r == Js.Number(v).value
  {
    if v.Null? || v.Undefined? || v == Js.Str("") then 0.0
    else
      var n := Js.Number(v);
      if n.None? then 0.0 else n.value
  }

  /** The early return of `safeNumber` is redundant: it is `Number(value) || 0` everywhere. */
  lemma SafeNumberIsNumberOrZero(v: Js.Value)
    ensures SafeNumber(v) == Js.NumberOrZero(v)
  {
  }

  /** Printed natural numbers convert back to themselves. */
  lemma SafeNumberOfNumeral(n: nat)
    ensures SafeNumber(Js.Str(NatToString(n))) == n as real
  {
    NatRoundTrip(n);
  }
}

=== FILE: charts.dfy ===
/**
 * The performance charts: the sellers ranked by new sales with their percentage of the
 * goal capped at 100, the month's daily sales against an even daily share of the goal,
 * and the month's total against the goal.
 */
module Charts {
  import opened Wrappers
  import opened Deals
  import opened Seqs
  import opened Metrics

  /** `performanceVendedores` of the charts: every named owner among the deals, ranked, capped. */
  function Performance(ds: seq<Deal>, metaMensal: real): (r: seq<SellerPerf>)
    ensures |r| == |SellersOf(ds)|
    ensures forall i, j :: 0 <= i < j < |r| ==> r[i].vendas >= r[j].vendas
    ensures forall s :: s in SellersOf(ds) ==> PerfOf(ds, s, metaMensal, |SellersOf(ds)|, true) in r
  {
    RankingCoversSellers(ds, SellersOf(ds), metaMensal, true);
    Ranking(ds, SellersOf(ds), metaMensal, true)
  }

  /** Each bar is the capped row of a named owner. */
  lemma PerformanceRows(ds: seq<Deal>, metaMensal: real, p: SellerPerf)
    requires p in Performance(ds, metaMensal)
    ensures p.vendedor in SellersOf(ds)
    ensures p == PerfOf(ds, p.vendedor, metaMensal, |SellersOf(ds)|, true)
  {
    var sellers := SellersOf(ds);
    var i := RankingRowOfSeller(ds, sellers, metaMensal, true, p);
    assert sellers[i] in sellers;
  }

  /** One day of the line chart: the day's sales and the daily goal. */
  datatype ChartDay = ChartDay(day: string, total: real, meta: real)

  function DayGoal(c: ChartDay): real {
    c.meta
  }

  /** Every deal's creation date reads as a day; `format` throws on one that does not. */
  predicate AllDated(ds: seq<Deal>, dayOf: DayOf) {
    forall d :: d in ds ==> dayOf(d.createdAt).Some?
  }

  /**
   * `vendasPorDia` of the charts: each day of the month with its sales and the goal
   * shared evenly among the days. `None` stands for the exception a deal with an
   * invalid date raises, which stops the rendering.
   */
  function VendasPorDia(ds: seq<Deal>, dayOf: DayOf, days: seq<string>, metaMensal: real): (r: Option<seq<ChartDay>>)
    ensures r.Some? <==> AllDated(ds, dayOf)
    ensures r.Some? ==> |r.value| == |days|
    ensures r.Some? ==> forall i :: 0 <= i < |days| ==>
      r.value[i] == ChartDay(days[i], DaySum(ds, dayOf, days[i]), metaMensal / |days| as real)
  {
    if AllDated(ds, dayOf) then
      var series := DailySeries(ds, dayOf, days);
      Some(seq(|days|, i requires 0 <= i < |days| => ChartDay(days[i], series[i].total, metaMensal / |days| as real)))
    else None
  }

  /** The daily goals of the month add up to the monthly goal. */
  lemma {:induction false} DailyGoalsAddUp(ds: seq<Deal>, dayOf: DayOf, days: seq<string>, metaMensal: real)
    requires AllDated(ds, dayOf) && |days| > 0
    ensures SumOf(VendasPorDia(ds, dayOf, days, metaMensal).value, DayGoal) == metaMensal
  {
    var r := VendasPorDia(ds, dayOf, days, metaMensal).value;
    var share := metaMensal / |days| as real;
    EvenDailyGoals(ds, dayOf, days, metaMensal);
    SumConst(r, DayGoal, share);
    assert |r| == |days|;
    IndividualGoalsAddUp(metaMensal, |days|);
  }

  lemma EvenDailyGoals(ds: seq<Deal>, dayOf: DayOf, days: seq<string>, metaMensal: real)
    requires AllDated(ds, dayOf)
    ensures forall c :: c in VendasPorDia(ds, dayOf, days, metaMensal).value ==> DayGoal(c) == metaMensal / |days| as real
  {
    var r := VendasPorDia(ds, dayOf, days, metaMensal).value;
    forall c | c in r ensures DayGoal(c) == metaMensal / |days| as real {
      var i :| 0 <= i < |r| && r[i] == c;
    }
  }

  /** `totalVendidoMes`: every deal's total. */
  function TotalVendidoMes(ds: seq<Deal>): (t: real)
    ensures t == SumOf(Filter(ds, NotAtivo), TotalOf) + SumOf(Filter(ds, IsAtivo), TotalOf)
    ensures (forall d :: d in ds ==> TotalOf(d) >= 0.0) ==> t >= 0.0
  {
    SumPartition(ds, TotalOf, NotAtivo, IsAtivo);
    FilteredSumNonNegative(ds, (d: Deal) => true);
    FilterAll(ds, (d: Deal) => true);
    SumOf(ds, TotalOf)
  }

  /** `percentualMeta`: 100 or more exactly when a positive goal is met. */
  function PercentualMeta(ds: seq<Deal>, metaMensal: real): (p: real)
    ensures metaMensal <= 0.0 ==> p == 0.0
    ensures metaMensal > 0.0 ==> (p >= 100.0 <==> TotalVendidoMes(ds) >= metaMensal)
    ensures metaMensal > 0.0 ==> p * metaMensal == TotalVendidoMes(ds) * 100.0
  {
    PercentOfGoal(TotalVendidoMes(ds), metaMensal);
    Percent(TotalVendidoMes(ds), metaMensal)
  }

  /** The progress bar's width, `Math.min(percentualMeta, 100)`. */
  function BarWidth(ds: seq<Deal>, metaMensal: real): (w: real)
    ensures w <= 100.0
  {
    Min(PercentualMeta(ds, metaMensal), 100.0)
  }

  /** "Meta atingida!" rather than "Em andamento". */
  predicate MetaAtingida(ds: seq<Deal>, metaMensal: real) {
    TotalVendidoMes(ds) >= metaMensal
  }

  /** With a positive goal, the message says the goal is met exactly when the bar is full. */
  lemma MessageMatchesBar(ds: seq<Deal>, metaMensal: real)
    requires metaMensal > 0.0
    ensures MetaAtingida(ds, metaMensal) <==> BarWidth(ds, metaMensal) == 100.0
  {
  }

  /** With no goal set, an empty month already reads "Meta atingida!" beside an empty bar. */
  lemma ZeroGoalIsMet()
    ensures MetaAtingida([], 0.0) && BarWidth([], 0.0) == 0.0
  {
  }
}

=== FILE: confirmacao.dfy ===
/**
 * The payment-confirmation panel: the sales still waiting for payment, the "all
 * confirmed" view when there are none, the company initials of each entry and the
 * id its confirm button sends.
 */
module Confirmacao {
  import opened Types
  import opened Deals
  import opened Text
  import opened Seqs
  import App

  /** A sale waits for confirmation while it is unpaid and not inactive. */
  predicate AwaitingPayment(d: Deal) {
    !d.pagamentoConfirmado && d.status != Inativo.Id()
  }

  /** `vendasPendentes` */
  function Pending(ds: seq<Deal>): (r: seq<Deal>)
    ensures IsSubseq(r, ds)
    ensures forall d :: d in r <==> d in ds && AwaitingPayment(d)
    ensures forall d :: Occurrences(r, d) == if AwaitingPayment(d) then Occurrences(ds, d) else 0
  {
    Filter(ds, (d: Deal) => !d.pagamentoConfirmado && d.status != "inativo")
  }

  /** What the panel shows: the "all confirmed" message, or one entry per pending sale. */
  datatype Panel = AllConfirmed | Listing(entries: seq<Entry>)

  /** One entry: the avatar's initials and the id the confirm button sends. */
  datatype Entry = Entry(initials: string, confirmId: string)

  /** `deal.empresa.substring(0, 2).toUpperCase()` */
  function Initials(empresa: string): (r: string)
    ensures |r| <= 2 && |r| == (if |empresa| < 2 then |empresa| else 2)
    ensures forall i :: 0 <= i < |r| ==> r[i] == UpperChar(empresa[i])
  {
    Upper(Take(empresa, 2))
  }

  lemma UpperCharIdempotent(c: char)
    ensures UpperChar(UpperChar(c)) == UpperChar(c)
  {
  }

  /** Initials of initials are the same initials. */
  lemma InitialsIdempotent(empresa: string)
    ensures Initials(Initials(empresa)) == Initials(empresa)
  {
    var r := Initials(empresa);
    forall i | 0 <= i < |r| ensures Initials(r)[i] == r[i] {
      UpperCharIdempotent(empresa[i]);
    }
  }

  function EntryOf(d: Deal): Entry {
    Entry(Initials(d.empresa), d.id)
  }

  function Render(ds: seq<Deal>): (v: Panel)
    ensures v.AllConfirmed? <==> forall d :: d in ds ==> !AwaitingPayment(d)
    ensures v.Listing? ==> |v.entries| == |Pending(ds)|
    ensures v.Listing? ==> forall i :: 0 <= i < |v.entries| ==> v.entries[i].confirmId == Pending(ds)[i].id
  {
    var p := Pending(ds);
    if |p| == 0 then AllConfirmed
    else
      assert p[0] in p;
      Listing(seq(|p|, i requires 0 <= i < |p| => EntryOf(p[i])))
  }

  /** Confirming a listed sale (ids unique) removes exactly that sale from the panel. */
  lemma ConfirmShrinksPanel(ds: seq<Deal>, k: nat)
    requires UniqueIds(ds) && k < |ds| && AwaitingPayment(ds[k])
    ensures |Pending(App.ConfirmarPagamento(ds, ds[k].id))| == |Pending(ds)| - 1
    ensures App.ConfirmarPagamento(ds, ds[k].id)[k] !in Pending(App.ConfirmarPagamento(ds, ds[k].id))
  {
    var u := ds[k].(pagamentoConfirmado := true);
    App.ConfirmMarksOnlyThatDeal(ds, k);
    CountUpdate(ds, k, u, (d: Deal) => !d.pagamentoConfirmado && d.status != "inativo");
  }
}

=== FILE: dashboard.dfy ===
/**
 * The sales dashboard: the deals of the chosen seller and period (only those with a
 * valid creation date), the sellers among them, their ranking with percentages that are
 * not capped, the month's daily sales, the goal progress and the avatar initials.
 * Its input is the deal list after `snakeToCamel` (module Normalize).
 */
module Dashboard {
  import opened Wrappers
  import opened Text
  import opened Types
  import opened Deals
  import opened Seqs
  import opened Dates
  import opened Metrics
  import App

  /** `d.createdAt` is set and `new Date(d.createdAt)` is a valid date. */
  predicate HasValidDate(d: Deal, parse: Parse) {
    d.createdAt != "" && parse(d.createdAt).Some?
  }

  /** The conditions of the dashboard's `filtered`; an empty filter is off. */
  predicate KeepInDashboard(d: Deal, owner: string, dateFrom: string, dateTo: string, parse: Parse) {
    (owner == "" || d.owner == owner)
    && HasValidDate(d, parse)
    && (dateFrom == "" || !Lt(parse(d.createdAt), parse(dateFrom)))
    && (dateTo == "" || !Lt(parse(dateTo), parse(d.createdAt)))
  }

  function Keeps(owner: string, dateFrom: string, dateTo: string, parse: Parse): Deal -> bool {
    (d: Deal) => KeepInDashboard(d, owner, dateFrom, dateTo, parse)
  }

  function ValidDate(parse: Parse): Deal -> bool {
    (d: Deal) => HasValidDate(d, parse)
  }

  /** `filtered`: the deals of the seller and period, in list order, all with a valid date. */
  function Filtered(ds: seq<Deal>, owner: string, dateFrom: string, dateTo: string, parse: Parse): (r: seq<Deal>)
    ensures IsSubseq(r, ds)
    ensures forall d :: d in r <==> d in ds && KeepInDashboard(d, owner, dateFrom, dateTo, parse)
    ensures forall d :: d in r ==> HasValidDate(d, parse)
    ensures forall d :: Occurrences(r, d) == if KeepInDashboard(d, owner, dateFrom, dateTo, parse) then Occurrences(ds, d) else 0
  {
    Filter(ds, Keeps(owner, dateFrom, dateTo, parse))
  }

  /** The dashboard keeps what the sales tab keeps, less the deals whose date is missing or invalid. */
  lemma {:induction false} FilteredIsSalesTabWithValidDates(ds: seq<Deal>, owner: string, dateFrom: string, dateTo: string, parse: Parse)
    ensures Filtered(ds, owner, dateFrom, dateTo, parse) == Filter(App.FiltroDeals(ds, owner, dateFrom, dateTo, parse), ValidDate(parse))
  {
    FilterAnd(ds, App.SalesTab(owner, dateFrom, dateTo, parse), ValidDate(parse), Keeps(owner, dateFrom, dateTo, parse));
  }

  /** A seller the dashboard lists: `owner && owner.trim() !== ""`. */
  predicate IsSellerName(s: string) {
    !IsBlank(s)
  }

  /** `vendedores`: each owner of the filtered deals that is not blank, once. */
  function Vendedores(filtered: seq<Deal>): (r: seq<string>)
    ensures forall s :: s in r <==> !IsBlank(s) && exists d :: d in filtered && d.owner == s
    ensures forall i, j :: 0 <= i < j < |r| ==> r[i] != r[j]
  {
    OwnerNamesMembers(filtered);
    Dedup(Filter(OwnerNames(filtered), IsSellerName))
  }

  /** `performanceVendedores`: one row per listed seller, ranked by new sales, percentages uncapped. */
  function Performance(filtered: seq<Deal>, metaMensal: real): (r: seq<SellerPerf>)
    ensures |r| == |Vendedores(filtered)|
    ensures forall i, j :: 0 <= i < j < |r| ==> r[i].vendas >= r[j].vendas
    ensures forall s :: s in Vendedores(filtered) ==> PerfOf(filtered, s, metaMensal, |Vendedores(filtered)|, false) in r
  {
    RankingCoversSellers(filtered, Vendedores(filtered), metaMensal, false);
    Ranking(filtered, Vendedores(filtered), metaMensal, false)
  }

  /** The listed sellers are never the empty name. */
  lemma VendedoresNonEmpty(filtered: seq<Deal>)
    ensures forall s :: s in Vendedores(filtered) ==> s != ""
  {
    assert IsBlank("");
  }

  /** Each row is the uncapped row of a listed seller, under the seller's own name. */
  lemma PerformanceRows(filtered: seq<Deal>, metaMensal: real, p: SellerPerf)
    requires p in Performance(filtered, metaMensal)
    ensures p.vendedor in Vendedores(filtered)
    ensures p == PerfOf(filtered, p.vendedor, metaMensal, |Vendedores(filtered)|, false)
  {
    var sellers := Vendedores(filtered);
    var i := RankingRowOfSeller(filtered, sellers, metaMensal, false, p);
    assert sellers[i] in sellers;
    VendedoresNonEmpty(filtered);
  }

  /** A seller can pass 100% here: 200 sold against a goal of 100 shows 200%, where the charts show 100%. */
  lemma PercentNotCapped(d: Deal)
    requires d.owner == "Ana" && d.status == "novo" && d.total == Some(200.0)
    ensures PerfOf([d], "Ana", 100.0, 1, false).percentual == 200.0
    ensures PerfOf([d], "Ana", 100.0, 1, true).percentual == 100.0
  {
    assert Filter([d], OwnedBy("Ana")) == [d];
    assert Filter([d], NotAtivo) == [d];
    assert Filter([d], IsAtivo) == [];
  }

  /** The payment and status figures of the dashboard header. */
  datatype Summary = Summary(
    faturado: real, ativos: nat, inativos: nat, atraso: nat, pendentes: nat,
    totalVendidoMes: real, percentualMeta: real, valorRestante: real)

  predicate Confirmed(d: Deal) {
    d.pagamentoConfirmado
  }

  /** Waiting for or scheduled for training. */
  function InTraining(): Deal -> bool {
    (d: Deal) => App.InTrainingTab(d)
  }

  /** The three closing statuses and the training statuses never overlap. */
  lemma {:induction false} CountFourDisjoint(ds: seq<Deal>)
    ensures Count(ds, App.HasStatus(Ativo)) + Count(ds, App.HasStatus(Inativo))
          + Count(ds, App.HasStatus(Atraso)) + Count(ds, InTraining()) <= |ds|
  {
    var p := App.HasStatus(Ativo);
    var q := App.HasStatus(Inativo);
    var t := App.HasStatus(Atraso);
    var pq: Deal -> bool := d => p(d) || q(d);
    var pqt: Deal -> bool := d => pq(d) || t(d);
    App.CountUnion(ds, p, q);
    App.CountUnion(ds, pq, t);
    CountDisjoint(ds, pqt, InTraining());
  }

  /** With no negative totals, the confirmed deals' sum lies between 0 and the whole sum. */
  lemma FaturadoWithinTotal(ds: seq<Deal>)
    ensures (forall d :: d in ds ==> TotalOf(d) >= 0.0) ==>
      0.0 <= SumOf(Filter(ds, Confirmed), TotalOf) <= SumOf(ds, TotalOf)
  {
    if forall d :: d in ds ==> TotalOf(d) >= 0.0 {
      SumFilterBound(ds, TotalOf, Confirmed);
      SumNonNegative(Filter(ds, Confirmed), TotalOf);
    }
  }

  /** `(totalVendidoMes / metaMensal) * 100`, or 0 without a positive goal. */
  function PercentualMeta(total: real, metaMensal: real): (p: real)
    ensures metaMensal <= 0.0 ==> p == 0.0
    ensures metaMensal > 0.0 ==> (p >= 100.0 <==> total >= metaMensal)
    ensures IsPercentOf(p, total, metaMensal)
  {
    PercentOfGoal(total, metaMensal);
    Percent(total, metaMensal)
  }

  /** `faturado`, the status counts, `totalVendidoMes`, `percentualMeta` and `valorRestante`. */
  function Summarize(filtered: seq<Deal>, metaMensal: real): (s: Summary)
    ensures s.totalVendidoMes == SumOf(filtered, TotalOf)
    ensures s.faturado == SumOf(Filter(filtered, Confirmed), TotalOf)
    ensures (forall d :: d in filtered ==> TotalOf(d) >= 0.0) ==> 0.0 <= s.faturado <= s.totalVendidoMes
    ensures s.ativos == |Filter(filtered, App.HasStatus(Ativo))|
    ensures s.inativos == |Filter(filtered, App.HasStatus(Inativo))|
    ensures s.atraso == |Filter(filtered, App.HasStatus(Atraso))|
    ensures s.pendentes == |Filter(filtered, InTraining())|
    ensures s.ativos + s.inativos + s.atraso + s.pendentes <= |filtered|
    ensures s.valorRestante >= 0.0
    ensures s.valorRestante == 0.0 <==> s.totalVendidoMes >= metaMensal
    ensures s.valorRestante > 0.0 ==> s.totalVendidoMes + s.valorRestante == metaMensal
    ensures metaMensal <= 0.0 ==> s.percentualMeta == 0.0
    ensures metaMensal > 0.0 ==> (s.percentualMeta >= 100.0 <==> s.totalVendidoMes >= metaMensal)
    ensures IsPercentOf(s.percentualMeta, s.totalVendidoMes, metaMensal)
  {
    var total := SumOf(filtered, TotalOf);
    var faturado := SumOf(Filter(filtered, Confirmed), TotalOf);
    FaturadoWithinTotal(filtered);
    CountFourDisjoint(filtered);
    var percentual := PercentualMeta(total, metaMensal);
    Summary(
      faturado,
      Count(filtered, App.HasStatus(Ativo)), Count(filtered, App.HasStatus(Inativo)),
      Count(filtered, App.HasStatus(Atraso)), Count(filtered, InTraining()),
      total, percentual,
      if metaMensal - total > 0.0 then metaMensal - total else 0.0)
  }

  /** `nome.split(' ').filter(n => n && n.length > 0)`: the words of a name, none empty, none holding a space. */
  function Words(nome: string): (ws: seq<string>)
    ensures forall i :: 0 <= i < |ws| ==> ws[i] != "" && ' ' !in ws[i]
    ensures forall w :: w in ws <==> w in Split(nome, ' ') && w != ""
    ensures IsSubseq(ws, Split(nome, ' '))
    ensures !IsBlank(nome) ==> |ws| > 0
  {
    var ws := Filter(Split(nome, ' '), NonEmpty);
    assert forall i :: 0 <= i < |ws| ==> ws[i] in ws;
    NonBlankHasWords(nome);
    ws
  }

  /** The first letter of each word, in order. */
  function Heads(ws: seq<string>): (r: string)
    requires forall i :: 0 <= i < |ws| ==> ws[i] != ""
    ensures |r| == |ws|
    ensures forall i :: 0 <= i < |ws| ==> r[i] == ws[i][0]
  {
    if |ws| == 0 then "" else [ws[0][0]] + Heads(ws[1..])
  }

  /** `getIniciais`: "SV" for a blank or missing name, else the upper-cased first letters of the first two words. */
  function GetIniciais(nome: string): (r: string)
    ensures IsBlank(nome) ==> r == "SV"
    ensures !IsBlank(nome) ==> 1 <= |r| <= 2 && |r| == (if |Words(nome)| < 2 then |Words(nome)| else 2)
    ensures !IsBlank(nome) ==> forall i :: 0 <= i < |r| ==> r[i] == UpperChar(Words(nome)[i][0])
  {
    var partes := Words(nome);
    if IsBlank(nome) || |partes| == 0 then "SV"
    else Take(Upper(Heads(partes)), 2)
  }

  /** A name that is not blank has a word, so the second "SV" branch of `getIniciais` is dead. */
  lemma NonBlankHasWords(nome: string)
    ensures !IsBlank(nome) ==> |Filter(Split(nome, ' '), NonEmpty)| > 0
  {
    if !IsBlank(nome) {
      BlankIffAllSpace(nome);
      var i :| 0 <= i < |nome| && !IsSpace(nome[i]);
      SplitHasWord(nome, ' ', i);
      var w :| w in Split(nome, ' ') && w != "";
      assert w in Filter(Split(nome, ' '), NonEmpty);
    }
  }
}

=== FILE: dates.dfy ===
/**
 * Dates as the front end compares them. `new Date(text)` is a parameter of the model:
 * it maps a date text to a timestamp, or to `None` for an Invalid Date, whose
 * comparisons with anything are all false.
 */
module Dates {
  import opened Wrappers

  /** `new Date(text).getTime()`, with `None` for an Invalid Date (NaN). */
  type Parse = string -> Option<int>

  /** `a < b` on two dates: false as soon as either is invalid. */
  predicate Lt(a: Option<int>, b: Option<int>) {
    a.Some? && b.Some? && a.value < b.value
  }
}

=== FILE: deal_form.dfy ===
/**
 * The intake form: its state, the edits its inputs make, and the submit that hands
 * a priced, training-pending deal to the list and resets the form.
 */
module DealForm {
  import opened Wrappers
  import opened Text
  import opened Numbers
  import opened Types
  import opened Deals
  import opened Calculations

  /** The deal being typed, plus the sale type and the receipt kept beside it. */
  datatype FormState = FormState(deal: Deal, tipoVenda: string, comprovante: string)

  /** The form as first shown: a blank deal of the current user, already pending training. */
  function Init(user: User, today: string): (s: FormState)
    ensures s.deal.status == TreinamentoPendente.Id()
    ensures SameExcept(s.deal, BlankDeal(user.name, user.id, today), {Status})
    ensures s.tipoVenda == "nova" && s.comprovante == ""
  {
    FormState(BlankDeal(user.name, user.id, today).(status := "treinamento_pendente"), "nova", "")
  }

  /** `Number(text) || 0`: empty and non-numeric input counts as 0. */
  function Coerce(text: string): (n: real)
    ensures ToNumber(text).None? ==> n == 0.0
    ensures ToNumber(text).Some? ==> n == ToNumber(text).value
  {
    match ToNumber(text)
    case Some(v) => v
    case None => 0.0
  }

  /** Blank input is 0, a numeral is its value. */
  lemma CoerceExamples(text: string, n: nat)
    ensures IsBlank(text) ==> Coerce(text) == 0.0
    ensures Coerce(NatToString(n)) == n as real
  {
    NatRoundTrip(n);
  }

  /** One `onChange` of the form, named after its input. */
  datatype Edit =
    | ProdutoSelect(text: string)
    | SellerSelect(text: string)
    | EmpresaInput(text: string)
    | ResponsavelInput(text: string)
    | WhatsappInput(text: string)
    | CnpjInput(text: string)
    | EmailInput(text: string)
    | ConexoesInput(text: string)
    | UsuariosInput(text: string)
    | PlataformaSelect(text: string)
    | UraInput(text: string)
    | IaInput(text: string)
    | ApiInput(text: string)
    | LeadsInput(text: string)
    | DescontoInput(text: string)
    | ValorManualInput(text: string)
    | PagamentoSelect(text: string)
    | TipoVendaSelect(text: string)
    | PagamentoCheckbox(checked: bool)
    | ReceiptLoaded(dataUrl: string)
    | ReceiptRemoved
    | TreinamentoDataInput(text: string)
    | TreinamentoHoraInput(text: string)

  /** `VENDEDORES_FIXOS.find(v => v.id === id)` */
  function FindSeller(id: Option<int>): (v: Option<Seller>)
    ensures v.Some? ==> v.value in VENDEDORES_FIXOS && id == Some(v.value.id)
    ensures v.None? ==> forall s :: s in VENDEDORES_FIXOS ==> id != Some(s.id)
  {
    FindSellerIn(VENDEDORES_FIXOS, id)
  }

  function FindSellerIn(sellers: seq<Seller>, id: Option<int>): (v: Option<Seller>)
    ensures v.Some? ==> v.value in sellers && id == Some(v.value.id)
    ensures v.None? ==> forall s :: s in sellers ==> id != Some(s.id)
  {
    if |sellers| == 0 then None
    else if id == Some(sellers[0].id) then Some(sellers[0])
    else FindSellerIn(sellers[1..], id)
  }

  /** `Number(value)` of the seller select, as an id; the placeholder "" gives 0. */
  function SelectedId(value: string): (id: Option<int>)
    ensures ToNumber(value) == Some(0.0) ==> id == Some(0)
    ensures id.Some? ==> ToNumber(value) == Some(id.value as real)
  {
    var n := ToNumber(value);
    if n.Some? && n.value == n.value.Floor as real then Some(n.value.Floor) else None
  }

  /** A one-field patch `{ [f]: v }`. */
  function One(f: Field, v: FieldValue): (p: Patch)
    requires Fits(f, v)
    ensures WellTypedPatch(p) && p.Keys == {f} && p[f] == v
  {
    map[f := v]
  }

  /** The seller select's patch `{ owner_id, owner }`. */
  function SellerPatch(id: Option<int>, name: string): (p: Patch)
    ensures WellTypedPatch(p) && p.Keys == {OwnerId, Owner}
    ensures p[OwnerId] == OptId(id) && p[Owner] == Text(name)
  {
    map[OwnerId := OptId(id), Owner := Text(name)]
  }

  function NoPatch(): (p: Patch)
    ensures WellTypedPatch(p) && p.Keys == {}
  {
    map[]
  }

  /** The patch `set(...)` receives from an input; the sale type and the receipt live outside the deal. */
  function PatchOf(e: Edit): (p: Patch)
    ensures WellTypedPatch(p)
    ensures e.TipoVendaSelect? || e.ReceiptLoaded? || e.ReceiptRemoved? <==> p.Keys == {}
    ensures p.Keys <= FORM_FIELDS
  {
    match e
    case ProdutoSelect(t) => One(Produto, Text(t))
    case SellerSelect(t) =>
      var v := FindSeller(SelectedId(t));
      SellerPatch(SelectedId(t), if v.Some? then v.value.name else "")
    case EmpresaInput(t) => One(Empresa, Text(t))
    case ResponsavelInput(t) => One(Responsavel, Text(t))
    case WhatsappInput(t) => One(Whatsapp, Text(t))
    case CnpjInput(t) => One(Cnpj, Text(t))
    case EmailInput(t) => One(Email, Text(t))
    case ConexoesInput(t) => One(QtdConexoes, Number(Coerce(t)))
    case UsuariosInput(t) => One(QtdUsuarios, Number(Coerce(t)))
    case PlataformaSelect(t) => One(PlataformaHabilitada, Flag(t == "sim"))
    case UraInput(t) => One(QtdUraCanais, Number(Coerce(t)))
    case IaInput(t) => One(QtdIaCanais, Number(Coerce(t)))
    case ApiInput(t) => One(QtdApiOficial, Number(Coerce(t)))
    case LeadsInput(t) => One(LeadsValor, Number(Coerce(t)))
    case DescontoInput(t) => One(Desconto, Number(Coerce(t)))
    case ValorManualInput(t) => One(ValorManual, Text(t))
    case PagamentoSelect(t) => One(FormaPagamento, Text(t))
    case TipoVendaSelect(_) => NoPatch()
    case PagamentoCheckbox(c) => One(PagamentoConfirmado, Flag(c))
    case ReceiptLoaded(_) => NoPatch()
    case ReceiptRemoved => NoPatch()
    case TreinamentoDataInput(t) => One(TreinamentoData, Text(t))
    case TreinamentoHoraInput(t) => One(TreinamentoHora, Text(t))
  }

  /** Apply one edit: the deal takes the edit's patch; the sale type and receipt take their own values. */
  function Apply(s: FormState, e: Edit): (r: FormState)
    ensures SameExcept(r.deal, s.deal, PatchOf(e).Keys)
    ensures forall f :: f in PatchOf(e) ==> Get(r.deal, f) == PatchOf(e)[f]
    ensures r.tipoVenda == (if e.TipoVendaSelect? then e.text else s.tipoVenda)
    ensures r.comprovante == (if e.ReceiptLoaded? then e.dataUrl else if e.ReceiptRemoved? then "" else s.comprovante)
  {
    var s' := s.(deal := Set(s.deal, PatchOf(e)));
    match e
    case TipoVendaSelect(t) => s'.(tipoVenda := t)
    case ReceiptLoaded(url) => s'.(comprovante := url)
    case ReceiptRemoved => s'.(comprovante := "")
    case _ => s'
  }

  /** The fields the form has an input for. */
  const FORM_FIELDS: set<Field> :=
    {OwnerId, Owner, Produto, Empresa, Cnpj, Responsavel, Whatsapp, Email, FormaPagamento,
     QtdConexoes, QtdUsuarios, PlataformaHabilitada, QtdUraCanais, QtdIaCanais, QtdApiOficial,
     LeadsValor, Desconto, ValorManual, TreinamentoData, TreinamentoHora, PagamentoConfirmado}

  /** The fields the form leaves to the system. */
  const SYSTEM_FIELDS: set<Field> :=
    {Id, CreatedAt, Status, Subtotal, Total, TreinamentoStatus, TipoVenda, Comprovante,
     AgendaOk, QualidadeOK, Observacoes}

  /** No input touches the id, the creation date, the status, the stored totals, the training status, the sale type, the receipt, the agenda and quality checks or the notes. */
  lemma EditsKeepSystemFields(s: FormState, e: Edit)
    ensures PatchOf(e).Keys !! SYSTEM_FIELDS
    ensures SameExcept(Apply(s, e).deal, s.deal, FORM_FIELDS)
    ensures forall f :: f in SYSTEM_FIELDS ==> Get(Apply(s, e).deal, f) == Get(s.deal, f)
  {
    FormAndSystemDisjoint();
    SameExceptWiden(Apply(s, e).deal, s.deal, PatchOf(e).Keys, FORM_FIELDS);
    SameExceptAgrees(Apply(s, e).deal, s.deal, FORM_FIELDS);
  }

  lemma FormAndSystemDisjoint()
    ensures FORM_FIELDS !! SYSTEM_FIELDS
  {
  }

  /** The seller select records the chosen id and, for a fixed seller, that seller's name, else "". */
  lemma SellerSelectRecordsSeller(s: FormState, value: string)
    ensures Apply(s, SellerSelect(value)).deal.ownerId == SelectedId(value)
    ensures FindSeller(SelectedId(value)).Some? ==>
      Apply(s, SellerSelect(value)).deal.owner == FindSeller(SelectedId(value)).value.name
    ensures FindSeller(SelectedId(value)).None? ==> Apply(s, SellerSelect(value)).deal.owner == ""
  {
    var p := PatchOf(SellerSelect(value));
    assert OwnerId in p && Owner in p;
  }

  /** Choosing seller k of the fixed list records k and that seller's name. */
  lemma ChooseFixedSeller(s: FormState, k: nat)
    requires 1 <= k <= |VENDEDORES_FIXOS|
    ensures Apply(s, SellerSelect(NatToString(k))).deal.ownerId == Some(k)
    ensures Apply(s, SellerSelect(NatToString(k))).deal.owner == VENDEDORES_FIXOS[k - 1].name
  {
    NatRoundTrip(k);
    SellersShape();
    assert SelectedId(NatToString(k)) == Some(k);
    assert VENDEDORES_FIXOS[k - 1] in VENDEDORES_FIXOS;
    SellerSelectRecordsSeller(s, NatToString(k));
  }

  /** The fields submit fills in. */
  const SUBMIT_FIELDS: set<Field> := {Subtotal, Total, Status, TipoVenda, Comprovante, TreinamentoStatus}

  /** The deal handed to `onSave`: the typed deal with its totals, the sale type, the receipt and the pending statuses. */
  function Saved(s: FormState): (d: Deal)
    ensures d.status == TreinamentoPendente.Id() && d.treinamentoStatus == "pendente"
    ensures d.subtotal == Some(CalcTotal(s.deal).subtotal) && d.total == Some(CalcTotal(s.deal).total)
    ensures d.tipoVenda == s.tipoVenda && d.comprovante == s.comprovante
    ensures SameExcept(d, s.deal, SUBMIT_FIELDS)
  {
    var t := CalcTotal(s.deal);
    s.deal.(subtotal := Some(t.subtotal), total := Some(t.total), status := "treinamento_pendente",
            tipoVenda := s.tipoVenda, comprovante := s.comprovante, treinamentoStatus := "pendente")
  }

  /**
   * The browser's `required` check. Each required text input must hold some text. A select
   * whose value matches no option shows its first option, the "" placeholder, so the product,
   * seller and payment selects pass only on one of their listed options. The sale-type select
   * has no "" option and always passes.
   */
  predicate RequiredFilled(s: FormState) {
    s.deal.produto in PRODUTOS &&
    FindSeller(s.deal.ownerId).Some? &&
    s.deal.empresa != "" && s.deal.responsavel != "" && s.deal.whatsapp != "" &&
    s.deal.formaPagamento in PAYMENT_METHODS
  }

  /** A whole number: the default `step` of 1 from the base 0. */
  predicate Whole(x: real) {
    x == x.Floor as real
  }

  /** A multiple of `step="0.01"` from the base 0. */
  predicate Cents(x: real) {
    Whole(x * 100.0)
  }

  /** The fields whose inputs carry a type, `min` or `step` constraint. */
  const CHECKED_FIELDS: set<Field> :=
    {Email, QtdConexoes, QtdUsuarios, QtdUraCanais, QtdIaCanais, QtdApiOficial, LeadsValor, Desconto, ValorManual}

  /**
   * The rest of the browser's constraint validation, which also runs before `onSubmit`.
   * `isEmail` is the HTML Standard's valid e-mail address test of `type="email"`; an empty
   * e-mail box is allowed. The five quantity inputs have `min={0}` and the default step 1;
   * leads and discount have `min={0}` and `step="0.01"`; the manual value has `step="0.01"`
   * and no minimum.
   */
  predicate InputsValid(d: Deal, isEmail: string -> bool) {
    (d.email == "" || isEmail(d.email)) &&
    0.0 <= d.qtdConexoes && Whole(d.qtdConexoes) &&
    0.0 <= d.qtdUsuarios && Whole(d.qtdUsuarios) &&
    0.0 <= d.qtdUraCanais && Whole(d.qtdUraCanais) &&
    0.0 <= d.qtdIaCanais && Whole(d.qtdIaCanais) &&
    0.0 <= d.qtdApiOficial && Whole(d.qtdApiOficial) &&
    0.0 <= d.leadsValor && Cents(d.leadsValor) &&
    0.0 <= d.desconto && Cents(d.desconto) &&
    (ToNumber(d.valorManual).Some? ==> Cents(ToNumber(d.valorManual).value))
  }

  /** The form passes the browser's validation, so `onSubmit` runs. */
  predicate CanSubmit(s: FormState, isEmail: string -> bool) {
    RequiredFilled(s) && InputsValid(s.deal, isEmail)
  }

  /** The `onSubmit` handler: the deal handed to `onSave`, and the form after the reset. */
  function OnSubmit(s: FormState, user: User, today: string): (r: (Deal, FormState))
    ensures r.0 == Saved(s)
    ensures r.1 == FormState(BlankDeal(user.name, user.id, today), "nova", "")
  {
    (Saved(s), FormState(BlankDeal(user.name, user.id, today), "nova", ""))
  }

  /**
   * Submitting the form: the browser runs `onSubmit` only when every input passes its
   * constraints; otherwise nothing is saved and the form is left as it was.
   */
  function Submit(s: FormState, user: User, today: string, isEmail: string -> bool): (r: (Option<Deal>, FormState))
    ensures r.0.Some? <==> CanSubmit(s, isEmail)
    ensures !CanSubmit(s, isEmail) ==> r.1 == s
    ensures CanSubmit(s, isEmail) ==> r == (Some(OnSubmit(s, user, today).0), OnSubmit(s, user, today).1)
  {
    if CanSubmit(s, isEmail) then
      var (saved, reset) := OnSubmit(s, user, today);
      (Some(saved), reset)
    else (None, s)
  }

  /** Neither the first form nor the reset one can be submitted until the company is typed in. */
  lemma BlankFormBlocked(s: FormState, user: User, today: string, isEmail: string -> bool)
    ensures !CanSubmit(Init(user, today), isEmail)
    ensures CanSubmit(s, isEmail) ==> !CanSubmit(Submit(s, user, today, isEmail).1, isEmail)
    ensures Submit(Init(user, today), user, today, isEmail) == (None, Init(user, today))
  {
  }

  /** The six fields the browser requires, as the form holds them. */
  datatype Required = Required(produto: string, ownerId: Option<int>, empresa: string, responsavel: string, whatsapp: string, formaPagamento: string)

  function RequiredOf(d: Deal): Required {
    Required(d.produto, d.ownerId, d.empresa, d.responsavel, d.whatsapp, d.formaPagamento)
  }

  /** The product select sets only the product among the required fields. */
  lemma ProdutoSets(s: FormState, t: string)
    ensures RequiredOf(Apply(s, ProdutoSelect(t)).deal) == RequiredOf(s.deal).(produto := t)
    ensures PatchOf(ProdutoSelect(t)).Keys == {Produto}
  {
    assert PatchOf(ProdutoSelect(t)) == One(Produto, Text(t));
    var d := Apply(s, ProdutoSelect(t)).deal;
    assert SameExcept(d, s.deal, {Produto});
    assert Get(d, Produto) == Text(t);
  }

  /** The company input sets only the company among the required fields. */
  lemma EmpresaSets(s: FormState, t: string)
    ensures RequiredOf(Apply(s, EmpresaInput(t)).deal) == RequiredOf(s.deal).(empresa := t)
    ensures PatchOf(EmpresaInput(t)).Keys == {Empresa}
  {
    assert PatchOf(EmpresaInput(t)) == One(Empresa, Text(t));
    var d := Apply(s, EmpresaInput(t)).deal;
    assert SameExcept(d, s.deal, {Empresa});
    assert Get(d, Empresa) == Text(t);
  }

  /** The contact input sets only the contact among the required fields. */
  lemma ResponsavelSets(s: FormState, t: string)
    ensures RequiredOf(Apply(s, ResponsavelInput(t)).deal) == RequiredOf(s.deal).(responsavel := t)
    ensures PatchOf(ResponsavelInput(t)).Keys == {Responsavel}
  {
    assert PatchOf(ResponsavelInput(t)) == One(Responsavel, Text(t));
    var d := Apply(s, ResponsavelInput(t)).deal;
    assert SameExcept(d, s.deal, {Responsavel});
    assert Get(d, Responsavel) == Text(t);
  }

  /** The WhatsApp input sets only the number among the required fields. */
  lemma WhatsappSets(s: FormState, t: string)
    ensures RequiredOf(Apply(s, WhatsappInput(t)).deal) == RequiredOf(s.deal).(whatsapp := t)
    ensures PatchOf(WhatsappInput(t)).Keys == {Whatsapp}
  {
    assert PatchOf(WhatsappInput(t)) == One(Whatsapp, Text(t));
    var d := Apply(s, WhatsappInput(t)).deal;
    assert SameExcept(d, s.deal, {Whatsapp});
    assert Get(d, Whatsapp) == Text(t);
  }

  /** The payment select sets only the payment method among the required fields. */
  lemma PagamentoSets(s: FormState, t: string)
    ensures RequiredOf(Apply(s, PagamentoSelect(t)).deal) == RequiredOf(s.deal).(formaPagamento := t)
    ensures PatchOf(PagamentoSelect(t)).Keys == {FormaPagamento}
  {
    assert PatchOf(PagamentoSelect(t)) == One(FormaPagamento, Text(t));
    var d := Apply(s, PagamentoSelect(t)).deal;
    assert SameExcept(d, s.deal, {FormaPagamento});
    assert Get(d, FormaPagamento) == Text(t);
  }

  /** Each fixed seller's id finds a seller. */
  lemma FixedSellerFound(k: nat)
    requires 1 <= k <= |VENDEDORES_FIXOS|
    ensures FindSeller(Some(k)).Some?
  {
    SellersShape();
    assert VENDEDORES_FIXOS[k - 1] in VENDEDORES_FIXOS;
  }

  /** The seller select patches the owner id and name only. */
  lemma SellerPatchKeys(t: string)
    ensures PatchOf(SellerSelect(t)).Keys == {OwnerId, Owner}
  {
  }

  /** The fields of the required inputs. */
  const REQUIRED_FIELDS: set<Field> := {OwnerId, Owner, Produto, Empresa, Responsavel, Whatsapp, FormaPagamento}

  /** No required input carries a type, `min` or `step` constraint. */
  lemma RequiredNotChecked()
    ensures REQUIRED_FIELDS !! CHECKED_FIELDS
  {
  }

  /** An input that patches none of the constrained fields leaves their validity as it was. */
  lemma UncheckedEditKeepsValidity(s: FormState, e: Edit, isEmail: string -> bool)
    requires PatchOf(e).Keys <= REQUIRED_FIELDS
    ensures InputsValid(Apply(s, e).deal, isEmail) == InputsValid(s.deal, isEmail)
  {
    RequiredNotChecked();
    var d := Apply(s, e).deal;
    assert SameExcept(d, s.deal, PatchOf(e).Keys);
    assert d.email == s.deal.email && d.valorManual == s.deal.valorManual;
    assert d.qtdConexoes == s.deal.qtdConexoes && d.qtdUsuarios == s.deal.qtdUsuarios;
    assert d.qtdUraCanais == s.deal.qtdUraCanais && d.qtdIaCanais == s.deal.qtdIaCanais;
    assert d.qtdApiOficial == s.deal.qtdApiOficial && d.leadsValor == s.deal.leadsValor && d.desconto == s.deal.desconto;
  }

  /** The six required inputs leave the constrained inputs as they were. */
  lemma FillingKeepsValidity(s: FormState, isEmail: string -> bool, k: string, p: string, empresa: string, responsavel: string, whatsapp: string, pay: string)
    ensures InputsValid(Fill(s, k, p, empresa, responsavel, whatsapp, pay).deal, isEmail) == InputsValid(s.deal, isEmail)
  {
    var s1 := Apply(s, SellerSelect(k));
    SellerPatchKeys(k);
    UncheckedEditKeepsValidity(s, SellerSelect(k), isEmail);
    var s2 := Apply(s1, ProdutoSelect(p));
    ProdutoSets(s1, p);
    UncheckedEditKeepsValidity(s1, ProdutoSelect(p), isEmail);
    var s3 := Apply(s2, EmpresaInput(empresa));
    EmpresaSets(s2, empresa);
    UncheckedEditKeepsValidity(s2, EmpresaInput(empresa), isEmail);
    var s4 := Apply(s3, ResponsavelInput(responsavel));
    ResponsavelSets(s3, responsavel);
    UncheckedEditKeepsValidity(s3, ResponsavelInput(responsavel), isEmail);
    var s5 := Apply(s4, WhatsappInput(whatsapp));
    WhatsappSets(s4, whatsapp);
    UncheckedEditKeepsValidity(s4, WhatsappInput(whatsapp), isEmail);
    PagamentoSets(s5, pay);
    UncheckedEditKeepsValidity(s5, PagamentoSelect(pay), isEmail);
  }

  /** Choosing the seller, then the product, company, contact, WhatsApp and payment inputs in turn. */
  function Fill(s: FormState, k: string, p: string, empresa: string, responsavel: string, whatsapp: string, pay: string): FormState {
    Apply(Apply(Apply(Apply(Apply(Apply(s, SellerSelect(k)), ProdutoSelect(p)), EmpresaInput(empresa)),
      ResponsavelInput(responsavel)), WhatsappInput(whatsapp)), PagamentoSelect(pay))
  }

  /** The six required inputs hold what was chosen and typed. */
  lemma FillingSetsRequired(s: FormState, k: nat, p: string, empresa: string, responsavel: string, whatsapp: string, pay: string)
    requires 1 <= k <= |VENDEDORES_FIXOS|
    ensures RequiredOf(Fill(s, NatToString(k), p, empresa, responsavel, whatsapp, pay).deal) == Required(p, Some(k), empresa, responsavel, whatsapp, pay)
  {
    var s1 := Apply(s, SellerSelect(NatToString(k)));
    ChooseFixedSeller(s, k);
    var s2 := Apply(s1, ProdutoSelect(p));
    ProdutoSets(s1, p);
    var s3 := Apply(s2, EmpresaInput(empresa));
    EmpresaSets(s2, empresa);
    var s4 := Apply(s3, ResponsavelInput(responsavel));
    ResponsavelSets(s3, responsavel);
    var s5 := Apply(s4, WhatsappInput(whatsapp));
    WhatsappSets(s4, whatsapp);
    PagamentoSets(s5, pay);
  }

  /**
   * On a form whose constrained inputs are valid, choosing a fixed seller, a listed product and
   * a listed payment method, and typing some company, contact and WhatsApp text, makes the
   * form submittable.
   */
  lemma FilledFormSubmits(s: FormState, isEmail: string -> bool, i: nat, k: nat, empresa: string, responsavel: string, whatsapp: string, j: nat)
    requires InputsValid(s.deal, isEmail)
    requires i < |PRODUTOS| && 1 <= k <= |VENDEDORES_FIXOS| && j < |PAYMENT_METHODS|
    requires empresa != "" && responsavel != "" && whatsapp != ""
    ensures CanSubmit(Fill(s, NatToString(k), PRODUTOS[i], empresa, responsavel, whatsapp, PAYMENT_METHODS[j]), isEmail)
  {
    FillingSetsRequired(s, k, PRODUTOS[i], empresa, responsavel, whatsapp, PAYMENT_METHODS[j]);
    FillingKeepsValidity(s, isEmail, NatToString(k), PRODUTOS[i], empresa, responsavel, whatsapp, PAYMENT_METHODS[j]);
    FixedSellerFound(k);
    assert PRODUTOS[i] in PRODUTOS && PAYMENT_METHODS[j] in PAYMENT_METHODS;
  }

  /** The e-mail input stores the text as typed. */
  lemma EmailStored(s: FormState, t: string)
    ensures Apply(s, EmailInput(t)).deal.email == t
  {
    EmailPatch(t);
  }

  /** The input patches its own field only. */
  lemma EmailPatch(t: string)
    ensures PatchOf(EmailInput(t)) == One(Email, Text(t))
  {
  }

  /** The discount input stores `Number(text) || 0`. */
  lemma DescontoStored(s: FormState, t: string)
    ensures Apply(s, DescontoInput(t)).deal.desconto == Coerce(t)
  {
    DescontoPatch(t);
  }

  /** The input patches its own field only. */
  lemma DescontoPatch(t: string)
    ensures PatchOf(DescontoInput(t)) == One(Desconto, Number(Coerce(t)))
  {
  }

  /** The connections input stores `Number(text) || 0`. */
  lemma ConexoesStored(s: FormState, t: string)
    ensures Apply(s, ConexoesInput(t)).deal.qtdConexoes == Coerce(t)
  {
    ConexoesPatch(t);
  }

  /** The input patches its own field only. */
  lemma ConexoesPatch(t: string)
    ensures PatchOf(ConexoesInput(t)) == One(QtdConexoes, Number(Coerce(t)))
  {
  }

  /** An e-mail the browser rejects blocks the submit, whatever else the form holds. */
  lemma BadEmailBlocks(s: FormState, t: string, isEmail: string -> bool, user: User, today: string)
    requires t != "" && !isEmail(t)
    ensures Submit(Apply(s, EmailInput(t)), user, today, isEmail) == (None, Apply(s, EmailInput(t)))
  {
    EmailStored(s, t);
  }

  /** A negative discount, as the discount input stores it, blocks the submit. */
  lemma NegativeDiscountBlocks(s: FormState, t: string, isEmail: string -> bool, user: User, today: string)
    requires Coerce(t) < 0.0
    ensures Submit(Apply(s, DescontoInput(t)), user, today, isEmail) == (None, Apply(s, DescontoInput(t)))
  {
    DescontoStored(s, t);
  }

  /** A fractional number of connections blocks the submit. */
  lemma FractionalQuantityBlocks(s: FormState, t: string, isEmail: string -> bool, user: User, today: string)
    requires !Whole(Coerce(t))
    ensures Submit(Apply(s, ConexoesInput(t)), user, today, isEmail) == (None, Apply(s, ConexoesInput(t)))
  {
    ConexoesStored(s, t);
  }

  /** Submit fills in no field that pricing reads. */
  lemma SubmitLeavesPricing()
    ensures SUBMIT_FIELDS !! PRICING_FIELDS
  {
  }

  /** The saved deal prices exactly as the form showed it. */
  lemma SavedPricesAsTyped(s: FormState)
    ensures CalcTotal(Saved(s)) == CalcTotal(s.deal)
  {
    SubmitLeavesPricing();
    CalcTotalReadsPricing(Saved(s), s.deal, SUBMIT_FIELDS);
  }

  /** A submitted deal carries the totals of its own line items. */
  lemma SubmittedTotalsCurrent(s: FormState, user: User, today: string, isEmail: string -> bool)
    ensures Submit(s, user, today, isEmail).0.Some? ==> TotalsCurrent(Submit(s, user, today, isEmail).0.value)
  {
    SavedPricesAsTyped(s);
  }

  /** The reset form differs from the first one: it shows status `novo`, not `treinamento_pendente`. */
  lemma ResetDiffersFromInit(s: FormState, user: User, today: string, isEmail: string -> bool)
    ensures CanSubmit(s, isEmail) ==> Submit(s, user, today, isEmail).1.deal.status == Novo.Id()
    ensures Init(user, today).deal.status == TreinamentoPendente.Id()
    ensures CanSubmit(s, isEmail) ==> Submit(s, user, today, isEmail).1 == Init(user, today).(deal := Init(user, today).deal.(status := Novo.Id()))
  {
  }
}

=== FILE: deal_model.dfy ===
/**
 * The back end's in-memory deal store: a list of plain objects and an id counter that
 * starts at 1. `create` stamps the next id and both timestamps, `findById` and
 * `update` look a deal up with `===` on its `id` field. The clock is a parameter:
 * each `new Date()` is the value the caller passes for it.
 */
module DealModel {
  import opened Wrappers
  import opened Js

  datatype Store = Store(deals: seq<Object>, currentId: int)

  /** The store as the module loads: no deals, the counter at 1. */
  const Initial := Store([], 1)

  /** `d.id` */
  function IdOf(o: Object): Value {
    Get(o, "id")
  }

  /**
   * The ids the store assigned itself: every deal's id is a number below the counter,
   * and no two deals share one.
   */
  ghost predicate Valid(s: Store) {
    (forall i :: 0 <= i < |s.deals| ==> IdOf(s.deals[i]).Num? && IdOf(s.deals[i]).n < s.currentId as real)
    && (forall i, j :: 0 <= i < j < |s.deals| ==> IdOf(s.deals[i]) != IdOf(s.deals[j]))
  }

  /** `findAll()`: the array itself, in insertion order. */
  function FindAll(s: Store): seq<Object> {
    s.deals
  }

  /**
   * `create(data)`: `{ id: currentId++, ...data, createdAt: new Date(), updatedAt: new Date() }`
   * appended to the store. A caller's `id` overrides the counter; the timestamps
   * override whatever the caller sent.
   */
  function Create(s: Store, data: Object, createdAt: Value, updatedAt: Value): (res: (Store, Object))
    ensures res.0.deals == s.deals + [res.1] && res.0.currentId == s.currentId + 1
    ensures "id" !in data ==> IdOf(res.1) == Num(s.currentId as real)
    ensures "id" in data ==> IdOf(res.1) == data["id"]
    ensures Get(res.1, "createdAt") == createdAt && Get(res.1, "updatedAt") == updatedAt
    ensures forall k :: k in data && k != "createdAt" && k != "updatedAt" ==> Get(res.1, k) == data[k]
    ensures res.1.Keys == data.Keys + {"id", "createdAt", "updatedAt"}
  {
    assert "createdAt"[0] != "updatedAt"[0];
    var deal := map["id" := Num(s.currentId as real)] + data + map["createdAt" := createdAt, "updatedAt" := updatedAt];
    (Store(s.deals + [deal], s.currentId + 1), deal)
  }

  /** `deals.findIndex(d => d.id === id)`, with `None` for -1. */
  function FindIndex(ds: seq<Object>, id: Value): (r: Option<nat>)
    ensures r.Some? ==> r.value < |ds| && StrictEquals(IdOf(ds[r.value]), id)
    ensures r.Some? ==> forall j :: 0 <= j < r.value ==> !StrictEquals(IdOf(ds[j]), id)
    ensures r.None? <==> forall j :: 0 <= j < |ds| ==> !StrictEquals(IdOf(ds[j]), id)
  {
    if |ds| == 0 then None
    else if StrictEquals(IdOf(ds[0]), id) then Some(0)
    else
      match FindIndex(ds[1..], id)
      case None => None
      case Some(i) => Some(i + 1)
  }

  /** `findById(id)`: the first deal whose id is `=== id`, `None` for undefined. */
  function FindById(s: Store, id: Value): (r: Option<Object>)
    ensures r.None? <==> forall j :: 0 <= j < |s.deals| ==> !StrictEquals(IdOf(s.deals[j]), id)
    ensures r.Some? ==> r.value in s.deals && StrictEquals(IdOf(r.value), id)
  {
    match FindIndex(s.deals, id)
    case None => None
    case Some(i) => Some(s.deals[i])
  }

  /** `{ ...old, ...updates, updatedAt }` field by field. */
  ghost predicate MergedFrom(before: Object, updates: Object, updatedAt: Value, r: Object) {
    Get(r, "updatedAt") == updatedAt
    && (forall k :: k in updates && k != "updatedAt" ==> Get(r, k) == updates[k])
    && (forall k :: k !in updates && k != "updatedAt" ==> Get(r, k) == Get(before, k))
    && r.Keys == before.Keys + updates.Keys + {"updatedAt"}
  }

  /**
   * `update(id, updates)`: `null` and no change when no deal has that id; otherwise the
   * first such deal is replaced in place by its merge with the updates and a new
   * `updatedAt`, and the merged deal is returned.
   */
  function Update(s: Store, id: Value, updates: Object, updatedAt: Value): (res: (Store, Option<Object>))
    ensures res.1.None? <==> forall j :: 0 <= j < |s.deals| ==> !StrictEquals(IdOf(s.deals[j]), id)
    ensures res.1.None? ==> res.0 == s
    ensures res.1.Some? ==>
      var i := FindIndex(s.deals, id).value;
      res.0 == Store(s.deals[i := res.1.value], s.currentId)
      && MergedFrom(s.deals[i], updates, updatedAt, res.1.value)
  {
    match FindIndex(s.deals, id)
    case None => (s, None)
    case Some(i) =>
      var merged := s.deals[i] + updates + map["updatedAt" := updatedAt];
      (Store(s.deals[i := merged], s.currentId), Some(merged))
  }

  /** `findById` picks the first deal with the id: any match with no earlier match is it. */
  lemma {:induction false} FindByIdFirst(s: Store, id: Value, i: nat)
    requires i < |s.deals| && StrictEquals(IdOf(s.deals[i]), id)
    requires forall j :: 0 <= j < i ==> !StrictEquals(IdOf(s.deals[j]), id)
    ensures FindById(s, id) == Some(s.deals[i])
  {
    FindIndexFirst(s.deals, id, i);
  }

  lemma {:induction false} FindIndexFirst(ds: seq<Object>, id: Value, i: nat)
    requires i < |ds| && StrictEquals(IdOf(ds[i]), id)
    requires forall j :: 0 <= j < i ==> !StrictEquals(IdOf(ds[j]), id)
    ensures FindIndex(ds, id) == Some(i)
  {
    if i > 0 {
      assert !StrictEquals(IdOf(ds[0]), id);
      FindIndexFirst(ds[1..], id, i - 1);
    }
  }

  /** The store starts out valid. */
  lemma InitialValid()
    ensures Valid(Initial) && FindAll(Initial) == []
  {
  }

  /** A create without a caller id keeps the ids distinct and below the counter. */
  lemma CreateKeepsValid(s: Store, data: Object, createdAt: Value, updatedAt: Value)
    requires Valid(s) && "id" !in data
    ensures Valid(Create(s, data, createdAt, updatedAt).0)
  {
    var (s', deal) := Create(s, data, createdAt, updatedAt);
    forall i | 0 <= i < |s.deals|
      ensures IdOf(s'.deals[i]) != IdOf(deal)
    {
      assert s'.deals[i] == s.deals[i];
    }
  }

  /** Read your writes: the new deal is found by the id the store gave it. */
  lemma CreateThenFind(s: Store, data: Object, createdAt: Value, updatedAt: Value)
    requires Valid(s) && "id" !in data
    ensures var (s', deal) := Create(s, data, createdAt, updatedAt);
      FindById(s', Num(s.currentId as real)) == Some(deal)
  {
    var (s', deal) := Create(s, data, createdAt, updatedAt);
    var id := Num(s.currentId as real);
    forall j | 0 <= j < |s.deals|
      ensures !StrictEquals(IdOf(s'.deals[j]), id)
    {
      assert s'.deals[j] == s.deals[j];
    }
    FindByIdFirst(s', id, |s.deals|);
  }

  /**
   * A caller-supplied id can repeat one the store gave out; the later deal is then
   * unreachable by `findById`, which returns the earlier one.
   */
  lemma CallerIdShadowed(c: Value, u: Value)
    ensures var (s1, first) := Create(Initial, map[], c, u);
      var (s2, second) := Create(s1, map["id" := Num(1.0), "empresa" := Str("")], c, u);
      IdOf(first) == IdOf(second) && first != second && FindById(s2, Num(1.0)) == Some(first)
  {
    var (s1, first) := Create(Initial, map[], c, u);
    var (s2, second) := Create(s1, map["id" := Num(1.0), "empresa" := Str("")], c, u);
    assert "empresa" in second && "empresa" !in first;
    FindByIdFirst(s2, Num(1.0), 0);
  }

  /** An update that leaves the id alone keeps the ids distinct and below the counter. */
  lemma UpdateKeepsValid(s: Store, id: Value, updates: Object, updatedAt: Value)
    requires Valid(s) && "id" !in updates
    ensures Valid(Update(s, id, updates, updatedAt).0)
  {
    var (s', r) := Update(s, id, updates, updatedAt);
    if r.Some? {
      var i := FindIndex(s.deals, id).value;
      assert IdOf(s'.deals[i]) == IdOf(s.deals[i]);
      forall j | 0 <= j < |s'.deals|
        ensures IdOf(s'.deals[j]) == IdOf(s.deals[j])
      {
      }
    }
  }

  /** Read your writes: after an update that leaves the id alone, `findById` returns the merged deal. */
  lemma UpdateThenFind(s: Store, id: Value, updates: Object, updatedAt: Value)
    requires "id" !in updates
    ensures var (s', r) := Update(s, id, updates, updatedAt);
      FindById(s', id) == r
  {
    var (s', r) := Update(s, id, updates, updatedAt);
    if r.Some? {
      var i := FindIndex(s.deals, id).value;
      assert IdOf(s'.deals[i]) == IdOf(s.deals[i]);
      forall j | 0 <= j < i
        ensures !StrictEquals(IdOf(s'.deals[j]), id)
      {
        assert s'.deals[j] == s.deals[j];
      }
      FindByIdFirst(s', id, i);
    }
  }

  /** An update touches only its deal: every other position and the counter stay. */
  lemma UpdateFrame(s: Store, id: Value, updates: Object, updatedAt: Value, j: nat)
    requires j < |s.deals|
    requires FindIndex(s.deals, id) != Some(j)
    ensures var s' := Update(s, id, updates, updatedAt).0;
      |s'.deals| == |s.deals| && s'.deals[j] == s.deals[j] && s'.currentId == s.currentId
  {
  }

  /** Several creates in a row, with the same clock readings. */
  function CreateAll(s: Store, datas: seq<Object>, createdAt: Value, updatedAt: Value): Store
    decreases |datas|
  {
    if |datas| == 0 then s
    else CreateAll(Create(s, datas[0], createdAt, updatedAt).0, datas[1..], createdAt, updatedAt)
  }

  /**
   * Creates append in order: the earlier deals stay in front, and the new ones carry the
   * counter's successive values, so store-given ids increase along the list.
   */
  lemma {:induction false} CreatesListInOrder(s: Store, datas: seq<Object>, createdAt: Value, updatedAt: Value)
    requires forall k :: 0 <= k < |datas| ==> "id" !in datas[k]
    ensures var s' := CreateAll(s, datas, createdAt, updatedAt);
      |FindAll(s')| == |s.deals| + |datas| && FindAll(s')[..|s.deals|] == s.deals
      && s'.currentId == s.currentId + |datas|
      && forall i :: |s.deals| <= i < |FindAll(s')| ==> IdOf(FindAll(s')[i]) == Num((s.currentId + i - |s.deals|) as real)
    decreases |datas|
  {
    if |datas| > 0 {
      var s1 := Create(s, datas[0], createdAt, updatedAt).0;
      assert "id" !in datas[0];
      CreatesListInOrder(s1, datas[1..], createdAt, updatedAt);
      var s' := CreateAll(s, datas, createdAt, updatedAt);
      assert s'.deals[..|s1.deals|] == s1.deals;
      assert s'.deals[..|s.deals|] == s1.deals[..|s.deals|];
      assert s'.deals[|s.deals|] == s1.deals[|s.deals|];
    }
  }
}

=== FILE: deal_routes.dfy ===
/**
 * The backend's deal routes over the `deals` table: listing (with the owner's name
 * joined from `users`), inserting with defaults, the partial update that keeps every
 * column the request leaves null, and deleting. A row holds its serial id, its creation
 * time and one value per column; SQL NULL is `Null`.
 */
module DealRoutes {
  import opened Wrappers
  import opened Text
  import opened Js
  import opened Types
  import opened Seqs
  import Deals

  /** The columns the routes write, in the order of the INSERT. */
  datatype Column =
    | OwnerIdCol | OwnerCol | StatusCol | ProdutoCol | EmpresaCol | CnpjCol | ResponsavelCol
    | WhatsappCol | EmailCol | FormaPagamentoCol | QtdConexoesCol | QtdUsuariosCol
    | PlataformaHabilitadaCol | QtdUraCanaisCol | QtdIaCanaisCol | QtdApiOficialCol
    | LeadsValorCol | DescontoCol | SubtotalCol | ValorManualCol | TotalCol
    | TreinamentoDataCol | TreinamentoHoraCol | TreinamentoStatusCol | TipoVendaCol
    | ComprovanteCol | PagamentoConfirmadoCol | AgendaOkCol | QualidadeOkCol | ObservacoesCol
  {
    /** The request-body field the column is read from: `owner_id` in snake_case, the rest in camelCase. */
    function BodyKey(): string {
      match this
      case OwnerIdCol => "owner_id"
      case OwnerCol => "owner"
      case StatusCol => "status"
      case ProdutoCol => "produto"
      case EmpresaCol => "empresa"
      case CnpjCol => "cnpj"
      case ResponsavelCol => "responsavel"
      case WhatsappCol => "whatsapp"
      case EmailCol => "email"
      case FormaPagamentoCol => "formaPagamento"
      case QtdConexoesCol => "qtdConexoes"
      case QtdUsuariosCol => "qtdUsuarios"
      case PlataformaHabilitadaCol => "plataformaHabilitada"
      case QtdUraCanaisCol => "qtdUraCanais"
      case QtdIaCanaisCol => "qtdIaCanais"
      case QtdApiOficialCol => "qtdApiOficial"
      case LeadsValorCol => "leadsValor"
      case DescontoCol => "desconto"
      case SubtotalCol => "subtotal"
      case ValorManualCol => "valorManual"
      case TotalCol => "total"
      case TreinamentoDataCol => "treinamentoData"
      case TreinamentoHoraCol => "treinamentoHora"
      case TreinamentoStatusCol => "treinamentoStatus"
      case TipoVendaCol => "tipoVenda"
      case ComprovanteCol => "comprovante"
      case PagamentoConfirmadoCol => "pagamentoConfirmado"
      case AgendaOkCol => "agendaOk"
      case QualidadeOkCol => "qualidadeOK"
      case ObservacoesCol => "observacoes"
    }

    /** What the INSERT writes when the body's value is falsy. */
    function InsertDefault(): Default {
      match this
      case StatusCol => OrValue(Str("novo"))
      case ProdutoCol => OrValue(Str(""))
      case FormaPagamentoCol => OrValue(Str(""))
      case QtdConexoesCol => OrValue(Num(0.0))
      case QtdUsuariosCol => OrValue(Num(0.0))
      case PlataformaHabilitadaCol => OrValue(Bool(false))
      case QtdUraCanaisCol => OrValue(Num(0.0))
      case QtdIaCanaisCol => OrValue(Num(0.0))
      case QtdApiOficialCol => OrValue(Num(0.0))
      case LeadsValorCol => OrValue(Num(0.0))
      case DescontoCol => OrValue(Num(0.0))
      case TreinamentoStatusCol => OrValue(Str("pendente"))
      case TipoVendaCol => OrValue(Str("nova"))
      case PagamentoConfirmadoCol => OrValue(Bool(false))
      case AgendaOkCol => OrValue(Bool(false))
      case QualidadeOkCol => OrValue(Bool(false))
      case ObservacoesCol => OrValue(Notes([]))
      case EmpresaCol => AsSent
      case _ => OrValue(Null)
    }
  }

  /** `body.x || fallback`, or the value as sent. */
  datatype Default = OrValue(fallback: Value) | AsSent

  const AllColumns: seq<Column> := [
    OwnerIdCol, OwnerCol, StatusCol, ProdutoCol, EmpresaCol, CnpjCol, ResponsavelCol,
    WhatsappCol, EmailCol, FormaPagamentoCol, QtdConexoesCol, QtdUsuariosCol,
    PlataformaHabilitadaCol, QtdUraCanaisCol, QtdIaCanaisCol, QtdApiOficialCol,
    LeadsValorCol, DescontoCol, SubtotalCol, ValorManualCol, TotalCol,
    TreinamentoDataCol, TreinamentoHoraCol, TreinamentoStatusCol, TipoVendaCol,
    ComprovanteCol, PagamentoConfirmadoCol, AgendaOkCol, QualidadeOkCol, ObservacoesCol]

  /** A row of `deals`: the serial id, `created_at` as a timestamp, and the written columns. */
  datatype Row = Row(id: nat, createdAt: int, cols: map<Column, Value>)

  /** A column's value; a column the row lacks is NULL. */
  function Col(r: Row, c: Column): Value {
    if c in r.cols then r.cols[c] else Null
  }

  /** The table and the next value of its id sequence. */
  datatype Table = Table(rows: seq<Row>, nextId: nat)

  /** Ids are distinct and below the sequence's next value. */
  ghost predicate Valid(t: Table) {
    (forall i :: 0 <= i < |t.rows| ==> t.rows[i].id < t.nextId)
    && (forall i, j :: 0 <= i < j < |t.rows| ==> t.rows[i].id != t.rows[j].id)
  }

  /** The answer of a route: the HTTP status and the row it returns, if any. */
  datatype Reply = Reply(code: int, data: Option<Row>)

  /** The driver sends `undefined` as NULL. */
  function Param(v: Value): Value {
    if v.Undefined? then Null else v
  }

  /** The value the INSERT writes for a column. */
  function InsertParam(c: Column, body: Object): (v: Value)
    ensures c.InsertDefault().OrValue? && Truthy(Get(body, c.BodyKey())) ==> v == Get(body, c.BodyKey())
    ensures c.InsertDefault().OrValue? && !Truthy(Get(body, c.BodyKey())) ==> v == c.InsertDefault().fallback
    ensures !v.Undefined?
  {
    match c.InsertDefault()
    case OrValue(fallback) => Param(Or(Get(body, c.BodyKey()), fallback))
    case AsSent => Param(Get(body, c.BodyKey()))
  }

  /** POST /: a new row with the next id and `now` as its creation time; 201 with the row. */
  function Insert(t: Table, body: Object, now: int): (res: (Table, Reply))
    ensures res.1.code == 201 && res.1.data.Some?
    ensures res.0.rows == t.rows + [res.1.data.value] && res.0.nextId == t.nextId + 1
    ensures res.1.data.value.id == t.nextId && res.1.data.value.createdAt == now
    ensures forall c :: c in AllColumns ==> Col(res.1.data.value, c) == InsertParam(c, body)
  {
    var row := Row(t.nextId, now, map c | c in AllColumns :: InsertParam(c, body));
    (Table(t.rows + [row], t.nextId + 1), Reply(201, Some(row)))
  }

  /** Inserting keeps the ids distinct: the new id is above every stored one. */
  lemma InsertKeepsValid(t: Table, body: Object, now: int)
    requires Valid(t)
    ensures Valid(Insert(t, body, now).0)
  {
  }

  /**
   * The parameter the UPDATE passes for a column: the body's value, the notes only when
   * truthy. SQL NULL, which leaves the column as it is, comes from a missing or null
   * field, and for the notes from any falsy one.
   */
  function UpdateParam(c: Column, body: Object): (v: Value)
    ensures !v.Undefined?
    ensures c != ObservacoesCol ==> (Nullish(v) <==> Nullish(Get(body, c.BodyKey())))
    ensures c != ObservacoesCol && !Nullish(Get(body, c.BodyKey())) ==> v == Get(body, c.BodyKey())
    ensures c == ObservacoesCol ==> (Nullish(v) <==> !Truthy(Get(body, c.BodyKey())))
    ensures c == ObservacoesCol && Truthy(Get(body, c.BodyKey())) ==> v == Get(body, c.BodyKey())
  {
    if c == ObservacoesCol then
      (if Truthy(Get(body, c.BodyKey())) then Get(body, c.BodyKey()) else Null)
    else Param(Get(body, c.BodyKey()))
  }

  /** `COALESCE(param, column)` */
  function Coalesce(param: Value, current: Value): (v: Value)
    ensures !Nullish(param) ==> v == param
    ensures Nullish(param) ==> v == current
  {
    if Nullish(param) then current else param
  }

  /** The row after the UPDATE: every column the body sends a non-null value for takes it. */
  function Merge(r: Row, body: Object): (m: Row)
    ensures m.id == r.id && m.createdAt == r.createdAt
  {
    r.(cols := map c | c in AllColumns :: Coalesce(UpdateParam(c, body), Col(r, c)))
  }

  function NotId(id: int): Row -> bool {
    (r: Row) => r.id != id
  }

  /** The first row with that id, if any. */
  function Find(rows: seq<Row>, id: int): (r: Option<nat>)
    ensures r.Some? ==> r.value < |rows| && rows[r.value].id == id
    ensures r.Some? ==> forall i :: 0 <= i < r.value ==> rows[i].id != id
    ensures r.None? <==> forall i :: 0 <= i < |rows| ==> rows[i].id != id
  {
    if |rows| == 0 then None
    else if rows[0].id == id then Some(0)
    else match Find(rows[1..], id)
      case Some(k) => Some(k + 1)
      case None => None
  }

  /** PUT /:id: every row with that id merged with the body; 404 and no change when there is none. */
  function Update(t: Table, id: int, body: Object): (res: (Table, Reply))
    ensures Find(t.rows, id).None? ==> res == (t, Reply(404, None))
    ensures Find(t.rows, id).Some? ==> res.1 == Reply(200, Some(Merge(t.rows[Find(t.rows, id).value], body)))
    ensures res.0.nextId == t.nextId && |res.0.rows| == |t.rows|
    ensures forall i :: 0 <= i < |t.rows| ==>
      res.0.rows[i] == if t.rows[i].id == id then Merge(t.rows[i], body) else t.rows[i]
  {
    match Find(t.rows, id)
    case None => (t, Reply(404, None))
    case Some(k) =>
      var rows := seq(|t.rows|, i requires 0 <= i < |t.rows| =>
        if t.rows[i].id == id then Merge(t.rows[i], body) else t.rows[i]);
      (Table(rows, t.nextId), Reply(200, Some(rows[k])))
  }

  /** An update keeps the ids, so it keeps them distinct. */
  lemma UpdateKeepsValid(t: Table, id: int, body: Object)
    requires Valid(t)
    ensures Valid(Update(t, id, body).0)
  {
  }

  /** Each column of the updated row is the body's non-null value, or else the stored one. */
  lemma MergeColumns(r: Row, body: Object, c: Column)
    requires c in AllColumns
    ensures !Nullish(UpdateParam(c, body)) ==> Col(Merge(r, body), c) == UpdateParam(c, body)
    ensures Nullish(UpdateParam(c, body)) ==> Col(Merge(r, body), c) == Col(r, c)
  {
  }

  /** A body without the field leaves the column as it was. */
  lemma MissingFieldKeepsColumn(r: Row, body: Object, c: Column)
    requires c in AllColumns && c.BodyKey() !in body
    ensures Col(Merge(r, body), c) == Col(r, c)
  {
  }

  /** Any status text is accepted: there is no check of the pipeline's transitions. */
  lemma AnyStatusAccepted(t: Table, id: int, status: string)
    requires Find(t.rows, id).Some?
    ensures var res := Update(t, id, map["status" := Str(status)]);
      res.1.code == 200 && Col(res.1.data.value, StatusCol) == Str(status)
  {
    assert StatusCol.BodyKey() == "status";
  }

  /** DELETE /:id: the rows with that id are removed and the first is returned; 404 and no change when there is none. */
  function Delete(t: Table, id: int): (res: (Table, Reply))
    ensures Find(t.rows, id).None? ==> res == (t, Reply(404, None))
    ensures Find(t.rows, id).Some? ==> res.1 == Reply(200, Some(t.rows[Find(t.rows, id).value]))
    ensures res.0.nextId == t.nextId
    ensures forall r :: r in res.0.rows <==> r in t.rows && r.id != id
    ensures IsSubseq(res.0.rows, t.rows)
  {
    match Find(t.rows, id)
    case None =>
      AbsentId(t.rows, id);
      SubseqRefl(t.rows);
      (t, Reply(404, None))
    case Some(k) => (Table(Filter(t.rows, NotId(id)), t.nextId), Reply(200, Some(t.rows[k])))
  }

  lemma AbsentId(rows: seq<Row>, id: int)
    requires forall i :: 0 <= i < |rows| ==> rows[i].id != id
    ensures forall r :: r in rows ==> r.id != id
  {
  }

  /** Filtering out the only row with an id leaves the rows before and after it. */
  lemma FilterOutOnly(rows: seq<Row>, k: nat, id: int)
    requires k < |rows| && rows[k].id == id
    requires forall i :: 0 <= i < |rows| && i != k ==> rows[i].id != id
    ensures Filter(rows, NotId(id)) == rows[..k] + rows[k + 1..]
  {
    FilterOutOne(rows, k, NotId(id));
  }

  /** With distinct ids, deleting an existing id removes exactly that row, and the ids stay distinct. */
  lemma DeleteRemovesOne(t: Table, id: int)
    requires Valid(t) && Find(t.rows, id).Some?
    ensures var k := Find(t.rows, id).value;
      Delete(t, id).0.rows == t.rows[..k] + t.rows[k + 1..]
    ensures |Delete(t, id).0.rows| == |t.rows| - 1
    ensures Valid(Delete(t, id).0)
  {
    var k := Find(t.rows, id).value;
    forall i | 0 <= i < |t.rows| && i != k ensures t.rows[i].id != id {
      if i < k {
        assert t.rows[i].id != t.rows[k].id;
      } else {
        assert t.rows[k].id != t.rows[i].id;
      }
    }
    FilterOutOnly(t.rows, k, id);
    RemoveAtKeepsValid(t, k);
  }

  /** Removing one row keeps the ids distinct and below the sequence. */
  lemma RemoveAtKeepsValid(t: Table, k: nat)
    requires Valid(t) && k < |t.rows|
    ensures Valid(Table(t.rows[..k] + t.rows[k + 1..], t.nextId))
  {
    var after := t.rows[..k] + t.rows[k + 1..];
    assert forall i :: 0 <= i < |after| ==> after[i] == t.rows[if i < k then i else i + 1];
  }

  /** The joined `owner_name`: the name of the user `owner_id` points to, NULL when there is none. */
  function OwnerName(r: Row, users: map<int, string>): Value {
    var oid := AsId(Col(r, OwnerIdCol));
    if oid.Some? && oid.value in users then Str(users[oid.value]) else Null
  }

  /** `parseFloat(x) || 0` */
  function ParseOrZero(v: Value): real {
    ParseFloatOf(v).GetOr(0.0)
  }

  /** `x ? parseFloat(x) : undefined` */
  function ParseIfTruthy(v: Value): Option<real> {
    if Truthy(v) then ParseFloatOf(v) else None
  }

  /**
   * GET /: a row as the list sends it; `iso` renders a timestamp. Text columns default
   * to "", counters to 0, flags to false, the training status to "pendente", the sale
   * type to "nova" and the notes to []; the owner falls back to the joined user's name.
   */
  function RowToDeal(r: Row, users: map<int, string>, iso: int -> string): (d: Deals.Deal)
    ensures Truthy(Col(r, OwnerCol)) && Col(r, OwnerCol).Str? ==> d.owner == Col(r, OwnerCol).s
    ensures !Truthy(Col(r, OwnerCol)) && AsId(Col(r, OwnerIdCol)).Some? && AsId(Col(r, OwnerIdCol)).value in users ==>
      d.owner == users[AsId(Col(r, OwnerIdCol)).value]
    ensures !Truthy(Col(r, OwnerCol)) && (AsId(Col(r, OwnerIdCol)).None? || AsId(Col(r, OwnerIdCol)).value !in users) ==> d.owner == ""
    ensures !Truthy(Col(r, TreinamentoStatusCol)) ==> d.treinamentoStatus == "pendente"
    ensures !Truthy(Col(r, TipoVendaCol)) ==> d.tipoVenda == "nova"
    ensures !Truthy(Col(r, QtdConexoesCol)) ==> d.qtdConexoes == 0.0
    ensures !Truthy(Col(r, QtdUsuariosCol)) ==> d.qtdUsuarios == 0.0
    ensures !Truthy(Col(r, PagamentoConfirmadoCol)) ==> !d.pagamentoConfirmado
    ensures !Truthy(Col(r, ObservacoesCol)) ==> d.observacoes == []
    ensures !Truthy(Col(r, SubtotalCol)) ==> d.subtotal.None?
    ensures !Truthy(Col(r, TotalCol)) ==> d.total.None?
  {
    Deals.Deal(
      NatToString(r.id),
      iso(r.createdAt),
      AsId(Col(r, OwnerIdCol)),
      AsText(Or(Col(r, OwnerCol), OwnerName(r, users))),
      AsText(Col(r, StatusCol)),
      AsText(Or(Col(r, ProdutoCol), Str(""))),
      AsText(Col(r, EmpresaCol)),
      AsText(Or(Col(r, CnpjCol), Str(""))),
      AsText(Or(Col(r, ResponsavelCol), Str(""))),
      AsText(Or(Col(r, WhatsappCol), Str(""))),
      AsText(Or(Col(r, EmailCol), Str(""))),
      AsText(Or(Col(r, FormaPagamentoCol), Str(""))),
      NumberOrZero(Or(Col(r, QtdConexoesCol), Num(0.0))),
      NumberOrZero(Or(Col(r, QtdUsuariosCol), Num(0.0))),
      Truthy(Or(Col(r, PlataformaHabilitadaCol), Bool(false))),
      NumberOrZero(Or(Col(r, QtdUraCanaisCol), Num(0.0))),
      NumberOrZero(Or(Col(r, QtdIaCanaisCol), Num(0.0))),
      NumberOrZero(Or(Col(r, QtdApiOficialCol), Num(0.0))),
      ParseOrZero(Col(r, LeadsValorCol)),
      ParseOrZero(Col(r, DescontoCol)),
      ParseIfTruthy(Col(r, SubtotalCol)),
      AsText(Col(r, ValorManualCol)),
      ParseIfTruthy(Col(r, TotalCol)),
      AsText(Or(Col(r, TreinamentoDataCol), Str(""))),
      AsText(Or(Col(r, TreinamentoHoraCol), Str(""))),
      AsText(Or(Col(r, TreinamentoStatusCol), Str("pendente"))),
      AsText(Or(Col(r, TipoVendaCol), Str("nova"))),
      AsText(Col(r, ComprovanteCol)),
      Truthy(Or(Col(r, PagamentoConfirmadoCol), Bool(false))),
      Truthy(Or(Col(r, AgendaOkCol), Bool(false))),
      Truthy(Or(Col(r, QualidadeOkCol), Bool(false))),
      AsNotes(Or(Col(r, ObservacoesCol), Notes([]))))
  }

  /** The listed id is the row's serial id in decimal, which reads back as that number. */
  lemma ListedId(r: Row, users: map<int, string>, iso: int -> string)
    ensures var d := RowToDeal(r, users, iso);
      AllDigits(d.id) && Numbers.ToNumber(d.id) == Some(r.id as real)
  {
    Numbers.NatRoundTrip(r.id);
  }

  /** Every column is one of the INSERT's columns. */
  lemma AllColumnsComplete(c: Column)
    ensures c in AllColumns
  {
  }

  /** A body with only the company: the columns the insert writes for it. */
  lemma InsertedCompanyOnly(t: Table, empresa: string, now: int)
    ensures var row := Insert(t, map["empresa" := Str(empresa)], now).1.data.value;
      Col(row, EmpresaCol) == Str(empresa) && Col(row, StatusCol) == Str("novo")
      && Col(row, OwnerCol) == Null && Col(row, OwnerIdCol) == Null && Col(row, ProdutoCol) == Str("")
      && Col(row, TreinamentoStatusCol) == Str("pendente") && Col(row, TipoVendaCol) == Str("nova")
      && Col(row, QtdConexoesCol) == Num(0.0) && Col(row, PagamentoConfirmadoCol) == Bool(false)
      && Col(row, ObservacoesCol) == Notes([]) && Col(row, TotalCol) == Null
  {
    var body := map["empresa" := Str(empresa)];
    CompanyOnlyParams(empresa);
    InsertedCol(t, body, now, EmpresaCol);
    InsertedCol(t, body, now, StatusCol);
    InsertedCol(t, body, now, OwnerCol);
    InsertedCol(t, body, now, OwnerIdCol);
    InsertedCol(t, body, now, ProdutoCol);
    InsertedCol(t, body, now, TreinamentoStatusCol);
    InsertedCol(t, body, now, TipoVendaCol);
    InsertedCol(t, body, now, QtdConexoesCol);
    InsertedCol(t, body, now, PagamentoConfirmadoCol);
    InsertedCol(t, body, now, ObservacoesCol);
    InsertedCol(t, body, now, TotalCol);
  }

  /** The values the INSERT passes for a body holding only the company. */
  lemma CompanyOnlyParams(empresa: string)
    ensures var body := map["empresa" := Str(empresa)];
      InsertParam(EmpresaCol, body) == Str(empresa) && InsertParam(StatusCol, body) == Str("novo")
      && InsertParam(OwnerCol, body) == Null && InsertParam(OwnerIdCol, body) == Null
      && InsertParam(ProdutoCol, body) == Str("")
      && InsertParam(TreinamentoStatusCol, body) == Str("pendente") && InsertParam(TipoVendaCol, body) == Str("nova")
      && InsertParam(QtdConexoesCol, body) == Num(0.0) && InsertParam(PagamentoConfirmadoCol, body) == Bool(false)
      && InsertParam(ObservacoesCol, body) == Notes([]) && InsertParam(TotalCol, body) == Null
  {
    assert "produto"[0] != "empresa"[0];
  }

  /** The inserted row holds, in each column, the value the INSERT passes for it. */
  lemma InsertedCol(t: Table, body: Object, now: int, c: Column)
    ensures Col(Insert(t, body, now).1.data.value, c) == InsertParam(c, body)
  {
    AllColumnsComplete(c);
  }

  /** A row holding those columns lists with the defaults. */
  lemma ListedCompanyOnly(row: Row, empresa: string, users: map<int, string>, iso: int -> string)
    requires Col(row, EmpresaCol) == Str(empresa) && Col(row, StatusCol) == Str("novo")
    requires Col(row, OwnerCol) == Null && Col(row, OwnerIdCol) == Null && Col(row, ProdutoCol) == Str("")
    requires Col(row, TreinamentoStatusCol) == Str("pendente") && Col(row, TipoVendaCol) == Str("nova")
    requires Col(row, QtdConexoesCol) == Num(0.0) && Col(row, PagamentoConfirmadoCol) == Bool(false)
    requires Col(row, ObservacoesCol) == Notes([]) && Col(row, TotalCol) == Null
    ensures var d := RowToDeal(row, users, iso);
      d.empresa == empresa && d.status == "novo" && d.owner == "" && d.ownerId.None? && d.produto == ""
      && d.treinamentoStatus == "pendente" && d.tipoVenda == "nova"
      && d.qtdConexoes == 0.0 && !d.pagamentoConfirmado && d.observacoes == [] && d.total.None?
  {
  }

  /** A deal posted with only its company lists back with the insert's defaults. */
  lemma InsertedDefaultsListBack(t: Table, empresa: string, now: int, users: map<int, string>, iso: int -> string)
    ensures var row := Insert(t, map["empresa" := Str(empresa)], now).1.data.value;
      var d := RowToDeal(row, users, iso);
      d.id == NatToString(t.nextId) && d.createdAt == iso(now) && d.empresa == empresa
      && d.status == "novo" && d.owner == "" && d.ownerId.None? && d.produto == ""
      && d.treinamentoStatus == "pendente" && d.tipoVenda == "nova"
      && d.qtdConexoes == 0.0 && !d.pagamentoConfirmado && d.observacoes == [] && d.total.None?
  {
    var row := Insert(t, map["empresa" := Str(empresa)], now).1.data.value;
    InsertedCompanyOnly(t, empresa, now);
    ListedCompanyOnly(row, empresa, users, iso);
  }

  /** A row's created time as the sort key. */
  function CreatedKey(r: Row): Option<real> {
    Some(r.createdAt as real)
  }

  /** `ORDER BY d.created_at DESC`: every row, newest first. */
  function ListRows(t: Table): (rows: seq<Row>)
    ensures forall i, j :: 0 <= i < j < |rows| ==> rows[i].createdAt >= rows[j].createdAt
    ensures multiset(rows) == multiset(t.rows)
    ensures |rows| == |t.rows|
  {
    var rows := SortDesc(t.rows, CreatedKey);
    NewestFirst(rows);
    rows
  }

  /** Sorted by the key means sorted by creation time, newest first. */
  lemma NewestFirst(rows: seq<Row>)
    requires SortedDesc(rows, CreatedKey)
    ensures forall i, j :: 0 <= i < j < |rows| ==> rows[i].createdAt >= rows[j].createdAt
  {
    forall i, j | 0 <= i < j < |rows| ensures rows[i].createdAt >= rows[j].createdAt {
      assert CreatedKey(rows[i]).Some? && CreatedKey(rows[j]).Some?;
    }
  }

  /** GET /: the listed deals, `count` of them, one per row, newest first. */
  function List(t: Table, users: map<int, string>, iso: int -> string): (ds: seq<Deals.Deal>)
    ensures |ds| == |t.rows|
    ensures forall i :: 0 <= i < |ds| ==> ds[i] == RowToDeal(ListRows(t)[i], users, iso)
  {
    var rows := ListRows(t);
    seq(|rows|, i requires 0 <= i < |rows| => RowToDeal(rows[i], users, iso))
  }

  /** Every stored row is listed. */
  lemma EveryRowListed(t: Table, users: map<int, string>, iso: int -> string, r: Row)
    requires r in t.rows
    ensures RowToDeal(r, users, iso) in List(t, users, iso)
  {
    var rows := ListRows(t);
    assert r in multiset(rows);
    var i :| 0 <= i < |rows| && rows[i] == r;
    assert List(t, users, iso)[i] == RowToDeal(r, users, iso);
  }
}

=== FILE: deals.dfy ===
/** The deal record that moves through the pipeline. */
module Deals {
  import opened Wrappers
  import opened Types

  /**
   * A deal. `status`, `produto`, `formaPagamento`, `treinamentoStatus` and `tipoVenda`
   * hold catalogue ids as text, since stored and imported deals may carry any text.
   * `owner`, `valorManual` and `comprovante` are "" when absent; `subtotal` and `total`
   * are optional numbers, `None` standing for both undefined and NaN.
   */
  datatype Deal = Deal(
    id: string,
    createdAt: string,
    ownerId: Option<int>,
    owner: string,
    status: string,
    produto: string,
    empresa: string,
    cnpj: string,
    responsavel: string,
    whatsapp: string,
    email: string,
    formaPagamento: string,
    qtdConexoes: real,
    qtdUsuarios: real,
    plataformaHabilitada: bool,
    qtdUraCanais: real,
    qtdIaCanais: real,
    qtdApiOficial: real,
    leadsValor: real,
    desconto: real,
    subtotal: Option<real>,
    valorManual: string,
    total: Option<real>,
    treinamentoData: string,
    treinamentoHora: string,
    treinamentoStatus: string,
    tipoVenda: string,
    comprovante: string,
    pagamentoConfirmado: bool,
    agendaOk: bool,
    qualidadeOK: bool,
    observacoes: seq<Note>)

  /** The fields of a deal, for stating which of them an operation may change. */
  datatype Field =
    | Id
    | CreatedAt
    | OwnerId
    | Owner
    | Status
    | Produto
    | Empresa
    | Cnpj
    | Responsavel
    | Whatsapp
    | Email
    | FormaPagamento
    | QtdConexoes
    | QtdUsuarios
    | PlataformaHabilitada
    | QtdUraCanais
    | QtdIaCanais
    | QtdApiOficial
    | LeadsValor
    | Desconto
    | Subtotal
    | ValorManual
    | Total
    | TreinamentoData
    | TreinamentoHora
    | TreinamentoStatus
    | TipoVenda
    | Comprovante
    | PagamentoConfirmado
    | AgendaOk
    | QualidadeOK
    | Observacoes

  /** The value of one field. */
  datatype FieldValue =
    | Text(text: string)
    | Number(number: real)
    | Flag(flag: bool)
    | OptNumber(optNumber: Option<real>)
    | OptId(optId: Option<int>)
    | NoteList(notes: seq<Note>)

  function Get(d: Deal, f: Field): FieldValue {
    match f
    case Id => Text(d.id)
    case CreatedAt => Text(d.createdAt)
    case OwnerId => OptId(d.ownerId)
    case Owner => Text(d.owner)
    case Status => Text(d.status)
    case Produto => Text(d.produto)
    case Empresa => Text(d.empresa)
    case Cnpj => Text(d.cnpj)
    case Responsavel => Text(d.responsavel)
    case Whatsapp => Text(d.whatsapp)
    case Email => Text(d.email)
    case FormaPagamento => Text(d.formaPagamento)
    case QtdConexoes => Number(d.qtdConexoes)
    case QtdUsuarios => Number(d.qtdUsuarios)
    case PlataformaHabilitada => Flag(d.plataformaHabilitada)
    case QtdUraCanais => Number(d.qtdUraCanais)
    case QtdIaCanais => Number(d.qtdIaCanais)
    case QtdApiOficial => Number(d.qtdApiOficial)
    case LeadsValor => Number(d.leadsValor)
    case Desconto => Number(d.desconto)
    case Subtotal => OptNumber(d.subtotal)
    case ValorManual => Text(d.valorManual)
    case Total => OptNumber(d.total)
    case TreinamentoData => Text(d.treinamentoData)
    case TreinamentoHora => Text(d.treinamentoHora)
    case TreinamentoStatus => Text(d.treinamentoStatus)
    case TipoVenda => Text(d.tipoVenda)
    case Comprovante => Text(d.comprovante)
    case PagamentoConfirmado => Flag(d.pagamentoConfirmado)
    case AgendaOk => Flag(d.agendaOk)
    case QualidadeOK => Flag(d.qualidadeOK)
    case Observacoes => NoteList(d.observacoes)
  }

  /** a differs from b at most in the fields fs. */
  predicate SameExcept(a: Deal, b: Deal, fs: set<Field>) {
    (Id in fs || a.id == b.id) &&
    (CreatedAt in fs || a.createdAt == b.createdAt) &&
    (OwnerId in fs || a.ownerId == b.ownerId) &&
    (Owner in fs || a.owner == b.owner) &&
    (Status in fs || a.status == b.status) &&
    (Produto in fs || a.produto == b.produto) &&
    (Empresa in fs || a.empresa == b.empresa) &&
    (Cnpj in fs || a.cnpj == b.cnpj) &&
    (Responsavel in fs || a.responsavel == b.responsavel) &&
    (Whatsapp in fs || a.whatsapp == b.whatsapp) &&
    (Email in fs || a.email == b.email) &&
    (FormaPagamento in fs || a.formaPagamento == b.formaPagamento) &&
    (QtdConexoes in fs || a.qtdConexoes == b.qtdConexoes) &&
    (QtdUsuarios in fs || a.qtdUsuarios == b.qtdUsuarios) &&
    (PlataformaHabilitada in fs || a.plataformaHabilitada == b.plataformaHabilitada) &&
    (QtdUraCanais in fs || a.qtdUraCanais == b.qtdUraCanais) &&
    (QtdIaCanais in fs || a.qtdIaCanais == b.qtdIaCanais) &&
    (QtdApiOficial in fs || a.qtdApiOficial == b.qtdApiOficial) &&
    (LeadsValor in fs || a.leadsValor == b.leadsValor) &&
    (Desconto in fs || a.desconto == b.desconto) &&
    (Subtotal in fs || a.subtotal == b.subtotal) &&
    (ValorManual in fs || a.valorManual == b.valorManual) &&
    (Total in fs || a.total == b.total) &&
    (TreinamentoData in fs || a.treinamentoData == b.treinamentoData) &&
    (TreinamentoHora in fs || a.treinamentoHora == b.treinamentoHora) &&
    (TreinamentoStatus in fs || a.treinamentoStatus == b.treinamentoStatus) &&
    (TipoVenda in fs || a.tipoVenda == b.tipoVenda) &&
    (Comprovante in fs || a.comprovante == b.comprovante) &&
    (PagamentoConfirmado in fs || a.pagamentoConfirmado == b.pagamentoConfirmado) &&
    (AgendaOk in fs || a.agendaOk == b.agendaOk) &&
    (QualidadeOK in fs || a.qualidadeOK == b.qualidadeOK) &&
    (Observacoes in fs || a.observacoes == b.observacoes)
  }

  /** `SameExcept` means what it says: a and b agree on every field outside fs. */
  lemma SameExceptAgrees(a: Deal, b: Deal, fs: set<Field>)
    requires SameExcept(a, b, fs)
    ensures forall f: Field :: f !in fs ==> Get(a, f) == Get(b, f)
  {
    forall f: Field | f !in fs
      ensures Get(a, f) == Get(b, f)
    {
      match f
      case Id =>
      case CreatedAt =>
      case OwnerId =>
      case Owner =>
      case Status =>
      case Produto =>
      case Empresa =>
      case Cnpj =>
      case Responsavel =>
      case Whatsapp =>
      case Email =>
      case FormaPagamento =>
      case QtdConexoes =>
      case QtdUsuarios =>
      case PlataformaHabilitada =>
      case QtdUraCanais =>
      case QtdIaCanais =>
      case QtdApiOficial =>
      case LeadsValor =>
      case Desconto =>
      case Subtotal =>
      case ValorManual =>
      case Total =>
      case TreinamentoData =>
      case TreinamentoHora =>
      case TreinamentoStatus =>
      case TipoVenda =>
      case Comprovante =>
      case PagamentoConfirmado =>
      case AgendaOk =>
      case QualidadeOK =>
      case Observacoes =>
    }
  }

  /** Agreeing outside no field at all is equality. */
  lemma Extensionality(a: Deal, b: Deal)
    requires SameExcept(a, b, {})
    ensures a == b
  {
  }

  /** A frame can always be widened. */
  lemma SameExceptWiden(a: Deal, b: Deal, fs: set<Field>, gs: set<Field>)
    requires SameExcept(a, b, fs) && fs <= gs
    ensures SameExcept(a, b, gs)
  {
  }

  /** Frames compose: changing fs and then gs changes at most fs + gs. */
  lemma SameExceptTrans(a: Deal, b: Deal, c: Deal, fs: set<Field>, gs: set<Field>)
    requires SameExcept(a, b, fs) && SameExcept(b, c, gs)
    ensures SameExcept(a, c, fs + gs)
  {
  }

  /** v is a value of the kind field f holds. */
  predicate Fits(f: Field, v: FieldValue) {
    match f
    case Id => v.Text?
    case CreatedAt => v.Text?
    case OwnerId => v.OptId?
    case Owner => v.Text?
    case Status => v.Text?
    case Produto => v.Text?
    case Empresa => v.Text?
    case Cnpj => v.Text?
    case Responsavel => v.Text?
    case Whatsapp => v.Text?
    case Email => v.Text?
    case FormaPagamento => v.Text?
    case QtdConexoes => v.Number?
    case QtdUsuarios => v.Number?
    case PlataformaHabilitada => v.Flag?
    case QtdUraCanais => v.Number?
    case QtdIaCanais => v.Number?
    case QtdApiOficial => v.Number?
    case LeadsValor => v.Number?
    case Desconto => v.Number?
    case Subtotal => v.OptNumber?
    case ValorManual => v.Text?
    case Total => v.OptNumber?
    case TreinamentoData => v.Text?
    case TreinamentoHora => v.Text?
    case TreinamentoStatus => v.Text?
    case TipoVenda => v.Text?
    case Comprovante => v.Text?
    case PagamentoConfirmado => v.Flag?
    case AgendaOk => v.Flag?
    case QualidadeOK => v.Flag?
    case Observacoes => v.NoteList?
  }

  /** A `Partial<Deal>`: new values for some fields. */
  type Patch = map<Field, FieldValue>

  predicate WellTypedPatch(patch: Patch) {
    forall f :: f in patch ==> Fits(f, patch[f])
  }

  /** The value field f takes under a patch, for each kind of field. */
  function PickText(patch: Patch, f: Field, current: string): (v: string)
    ensures f !in patch ==> v == current
    ensures f in patch && patch[f].Text? ==> v == patch[f].text
  {
    if f in patch && patch[f].Text? then patch[f].text else current
  }

  function PickNumber(patch: Patch, f: Field, current: real): (v: real)
    ensures f !in patch ==> v == current
    ensures f in patch && patch[f].Number? ==> v == patch[f].number
  {
    if f in patch && patch[f].Number? then patch[f].number else current
  }

  function PickFlag(patch: Patch, f: Field, current: bool): (v: bool)
    ensures f !in patch ==> v == current
    ensures f in patch && patch[f].Flag? ==> v == patch[f].flag
  {
    if f in patch && patch[f].Flag? then patch[f].flag else current
  }

  function PickOptNumber(patch: Patch, f: Field, current: Option<real>): (v: Option<real>)
    ensures f !in patch ==> v == current
    ensures f in patch && patch[f].OptNumber? ==> v == patch[f].optNumber
  {
    if f in patch && patch[f].OptNumber? then patch[f].optNumber else current
  }

  function PickOptId(patch: Patch, f: Field, current: Option<int>): (v: Option<int>)
    ensures f !in patch ==> v == current
    ensures f in patch && patch[f].OptId? ==> v == patch[f].optId
  {
    if f in patch && patch[f].OptId? then patch[f].optId else current
  }

  function PickNoteList(patch: Patch, f: Field, current: seq<Note>): (v: seq<Note>)
    ensures f !in patch ==> v == current
    ensures f in patch && patch[f].NoteList? ==> v == patch[f].notes
  {
    if f in patch && patch[f].NoteList? then patch[f].notes else current
  }

  /** `{...d, ...patch}`: the patched fields take the patch's values, the others keep d's. */
  function Set(d: Deal, patch: Patch): (r: Deal)
    ensures SameExcept(r, d, patch.Keys)
    ensures WellTypedPatch(patch) ==> forall f :: f in patch ==> Get(r, f) == patch[f]
  {
    var r := Deal(
      id := PickText(patch, Id, d.id),
      createdAt := PickText(patch, CreatedAt, d.createdAt),
      ownerId := PickOptId(patch, OwnerId, d.ownerId),
      owner := PickText(patch, Owner, d.owner),
      status := PickText(patch, Status, d.status),
      produto := PickText(patch, Produto, d.produto),
      empresa := PickText(patch, Empresa, d.empresa),
      cnpj := PickText(patch, Cnpj, d.cnpj),
      responsavel := PickText(patch, Responsavel, d.responsavel),
      whatsapp := PickText(patch, Whatsapp, d.whatsapp),
      email := PickText(patch, Email, d.email),
      formaPagamento := PickText(patch, FormaPagamento, d.formaPagamento),
      qtdConexoes := PickNumber(patch, QtdConexoes, d.qtdConexoes),
      qtdUsuarios := PickNumber(patch, QtdUsuarios, d.qtdUsuarios),
      plataformaHabilitada := PickFlag(patch, PlataformaHabilitada, d.plataformaHabilitada),
      qtdUraCanais := PickNumber(patch, QtdUraCanais, d.qtdUraCanais),
      qtdIaCanais := PickNumber(patch, QtdIaCanais, d.qtdIaCanais),
      qtdApiOficial := PickNumber(patch, QtdApiOficial, d.qtdApiOficial),
      leadsValor := PickNumber(patch, LeadsValor, d.leadsValor),
      desconto := PickNumber(patch, Desconto, d.desconto),
      subtotal := PickOptNumber(patch, Subtotal, d.subtotal),
      valorManual := PickText(patch, ValorManual, d.valorManual),
      total := PickOptNumber(patch, Total, d.total),
      treinamentoData := PickText(patch, TreinamentoData, d.treinamentoData),
      treinamentoHora := PickText(patch, TreinamentoHora, d.treinamentoHora),
      treinamentoStatus := PickText(patch, TreinamentoStatus, d.treinamentoStatus),
      tipoVenda := PickText(patch, TipoVenda, d.tipoVenda),
      comprovante := PickText(patch, Comprovante, d.comprovante),
      pagamentoConfirmado := PickFlag(patch, PagamentoConfirmado, d.pagamentoConfirmado),
      agendaOk := PickFlag(patch, AgendaOk, d.agendaOk),
      qualidadeOK := PickFlag(patch, QualidadeOK, d.qualidadeOK),
      observacoes := PickNoteList(patch, Observacoes, d.observacoes));
    SetReadsPatch(d, patch, r);
    r
  }

  lemma SetReadsPatch(d: Deal, patch: Patch, r: Deal)
    requires r == Deal(
      id := PickText(patch, Id, d.id),
      createdAt := PickText(patch, CreatedAt, d.createdAt),
      ownerId := PickOptId(patch, OwnerId, d.ownerId),
      owner := PickText(patch, Owner, d.owner),
      status := PickText(patch, Status, d.status),
      produto := PickText(patch, Produto, d.produto),
      empresa := PickText(patch, Empresa, d.empresa),
      cnpj := PickText(patch, Cnpj, d.cnpj),
      responsavel := PickText(patch, Responsavel, d.responsavel),
      whatsapp := PickText(patch, Whatsapp, d.whatsapp),
      email := PickText(patch, Email, d.email),
      formaPagamento := PickText(patch, FormaPagamento, d.formaPagamento),
      qtdConexoes := PickNumber(patch, QtdConexoes, d.qtdConexoes),
      qtdUsuarios := PickNumber(patch, QtdUsuarios, d.qtdUsuarios),
      plataformaHabilitada := PickFlag(patch, PlataformaHabilitada, d.plataformaHabilitada),
      qtdUraCanais := PickNumber(patch, QtdUraCanais, d.qtdUraCanais),
      qtdIaCanais := PickNumber(patch, QtdIaCanais, d.qtdIaCanais),
      qtdApiOficial := PickNumber(patch, QtdApiOficial, d.qtdApiOficial),
      leadsValor := PickNumber(patch, LeadsValor, d.leadsValor),
      desconto := PickNumber(patch, Desconto, d.desconto),
      subtotal := PickOptNumber(patch, Subtotal, d.subtotal),
      valorManual := PickText(patch, ValorManual, d.valorManual),
      total := PickOptNumber(patch, Total, d.total),
      treinamentoData := PickText(patch, TreinamentoData, d.treinamentoData),
      treinamentoHora := PickText(patch, TreinamentoHora, d.treinamentoHora),
      treinamentoStatus := PickText(patch, TreinamentoStatus, d.treinamentoStatus),
      tipoVenda := PickText(patch, TipoVenda, d.tipoVenda),
      comprovante := PickText(patch, Comprovante, d.comprovante),
      pagamentoConfirmado := PickFlag(patch, PagamentoConfirmado, d.pagamentoConfirmado),
      agendaOk := PickFlag(patch, AgendaOk, d.agendaOk),
      qualidadeOK := PickFlag(patch, QualidadeOK, d.qualidadeOK),
      observacoes := PickNoteList(patch, Observacoes, d.observacoes))
    ensures WellTypedPatch(patch) ==> forall f :: f in patch ==> Get(r, f) == patch[f]
  {
    if WellTypedPatch(patch) {
      forall f | f in patch
        ensures Get(r, f) == patch[f]
      {
        assert Fits(f, patch[f]);
      }
    }
  }

  /** `Number(d.total) || 0`: the amount every report adds up; an absent total counts 0. */
  function TotalOf(d: Deal): real {
    match d.total
    case Some(t) => t
    case None => 0.0
  }

  /** The status is one of the seven pipeline ids. */
  predicate KnownStatus(d: Deal) {
    StageOf(d.status).Some?
  }

  /** The fields with a declared finite range hold one of their declared values. */
  predicate WellTyped(d: Deal) {
    KnownStatus(d)
    && (d.produto == "" || d.produto in PRODUTOS)
    && (d.formaPagamento == "" || d.formaPagamento in PAYMENT_METHODS)
    && d.treinamentoStatus in TRAINING_STATUSES
    && d.tipoVenda in SALE_TYPES
  }

  /** The ids of a deal list. */
  function Ids(ds: seq<Deal>): (ids: seq<string>)
    ensures |ids| == |ds|
    ensures forall i :: 0 <= i < |ds| ==> ids[i] == ds[i].id
  {
    if |ds| == 0 then [] else [ds[0].id] + Ids(ds[1..])
  }

  /** No two deals of the list share an id. */
  ghost predicate UniqueIds(ds: seq<Deal>) {
    forall i, j :: 0 <= i < j < |ds| ==> ds[i].id != ds[j].id
  }
}

=== FILE: experiencia_card.dfy ===
/**
 * The 30-day experience card: the note text it opens with, saving the note and
 * finalising the experience, which activates the customer.
 */
module ExperienciaCard {
  import opened Types
  import opened Deals

  /** The text area starts with the text of the last note, or "" when there is none. */
  function InitialNote(d: Deal): (t: string)
    ensures |d.observacoes| == 0 ==> t == ""
    ensures |d.observacoes| > 0 ==> t == d.observacoes[|d.observacoes| - 1].nota
  {
    if |d.observacoes| > 0 then d.observacoes[|d.observacoes| - 1].nota else ""
  }

  /**
   * "Salvar Observação" as written: the note list becomes the single entry
   * {today, text}, discarding earlier notes.
   */
  function SaveNote(d: Deal, today: string, text: string): (r: Deal)
    ensures r.observacoes == [Note(today, text)]
    ensures SameExcept(r, d, {Observacoes})
  {
    d.(observacoes := [Note(today, text)])
  }

  /** "Finalizar Experiência": the same single-entry note list, and the status becomes `ativo`. */
  function Finalize(d: Deal, today: string, text: string): (r: Deal)
    ensures r.status == Ativo.Id()
    ensures r.observacoes == [Note(today, text)]
    ensures SameExcept(r, d, {Observacoes, Status})
  {
    d.(observacoes := [Note(today, text)], status := "ativo")
  }

  /** Finalising is saving the note and then activating. */
  lemma FinalizeIsSaveThenActivate(d: Deal, today: string, text: string)
    ensures Finalize(d, today, text) == SaveNote(d, today, text).(status := Ativo.Id())
  {
  }

  /** Reopening the card after a save shows the saved text. */
  lemma SavedNoteReloads(d: Deal, today: string, text: string)
    ensures InitialNote(SaveNote(d, today, text)) == text
    ensures InitialNote(Finalize(d, today, text)) == text
  {
  }

  /** Saving loses the history: a deal with an earlier note keeps only the new one. */
  lemma SaveNoteDropsHistory(d: Deal)
    requires d.observacoes == [Note("2024-01-10", "cliente satisfeito")]
    ensures Note("2024-01-10", "cliente satisfeito") !in SaveNote(d, "2024-01-20", "ajustar URA").observacoes
  {
  }

  /** Saving a note by appending it to the history. */
  function AppendNote(d: Deal, today: string, text: string): (r: Deal)
    ensures |r.observacoes| == |d.observacoes| + 1
    ensures r.observacoes[..|d.observacoes|] == d.observacoes
    ensures r.observacoes[|d.observacoes|] == Note(today, text)
    ensures SameExcept(r, d, {Observacoes})
  {
    d.(observacoes := d.observacoes + [Note(today, text)])
  }

  /** Appending keeps every earlier note and still reopens with the saved text. */
  lemma AppendKeepsHistory(d: Deal, today: string, text: string)
    ensures forall n :: n in d.observacoes ==> n in AppendNote(d, today, text).observacoes
    ensures InitialNote(AppendNote(d, today, text)) == text
  {
    var r := AppendNote(d, today, text);
    forall n | n in d.observacoes ensures n in r.observacoes {
      var i :| 0 <= i < |d.observacoes| && d.observacoes[i] == n;
      assert r.observacoes[i] == n;
    }
  }

  /** On a deal without notes the two ways of saving agree. */
  lemma AppendAgreesOnFirstNote(d: Deal, today: string, text: string)
    requires d.observacoes == []
    ensures AppendNote(d, today, text) == SaveNote(d, today, text)
  {
  }
}

=== FILE: js.dfy ===
/**
 * The JavaScript values that reach the untyped parts of the system: request bodies,
 * database rows and wire objects read field by field. An object is a map from field
 * name to value; a missing field reads as `undefined`.
 */
module Js {
  import opened Wrappers
  import opened Text
  import opened Numbers
  import opened Types

  /** The values a deal field can hold; the only arrays the system stores are note lists. */
  datatype Value =
    | Undefined
    | Null
    | Bool(b: bool)
    | Num(n: real)
    | NaN
    | Str(s: string)
    | Notes(items: seq<Note>)

  type Object = map<string, Value>

  /** `o[k]`: `undefined` when the field is missing. */
  function Get(o: Object, k: string): Value {
    if k in o then o[k] else Undefined
  }

  /** JavaScript truthiness: false, 0, NaN, "", null and undefined are falsy. */
  predicate Truthy(v: Value) {
    match v
    case Undefined => false
    case Null => false
    case Bool(b) => b
    case Num(n) => n != 0.0
    case NaN => false
    case Str(s) => s != ""
    case Notes(_) => true
  }

  /** `a || b` */
  function Or(a: Value, b: Value): Value {
    if Truthy(a) then a else b
  }

  /** `v == null`: the values SQL `COALESCE` and `??` skip. */
  predicate Nullish(v: Value) {
    v.Undefined? || v.Null?
  }

  /** `Number(v)`; `None` stands for NaN. */
  function Number(v: Value): Option<real> {
    match v
    case Undefined => None
    case Null => Some(0.0)
    case Bool(b) => Some(if b then 1.0 else 0.0)
    case Num(n) => Some(n)
    case NaN => None
    case Str(s) => ToNumber(s)
    case Notes(items) => if |items| == 0 then Some(0.0) else None
  }

  /** `Number(v) || 0` */
  function NumberOrZero(v: Value): real {
    Number(v).GetOr(0.0)
  }

  /** `parseFloat(v)`, which first converts v to text; `None` stands for NaN. */
  function ParseFloatOf(v: Value): Option<real> {
    match v
    case Num(n) => Some(n)
    case Str(s) => ParseFloat(s)
    case _ => None
  }

  /** A field the typed code reads as text; anything but a string reads as absent (""). */
  function AsText(v: Value): string {
    if v.Str? then v.s else ""
  }

  /** A field the typed code reads as a note list; anything else reads as empty. */
  function AsNotes(v: Value): seq<Note> {
    if v.Notes? then v.items else []
  }

  /** A field the typed code reads as an optional integer id. */
  function AsId(v: Value): Option<int> {
    if v.Num? && v.n == v.n.Floor as real then Some(v.n.Floor) else None
  }

  /** The JSON value of an optional integer. */
  function FromId(id: Option<int>): Value {
    if id.Some? then Num(id.value as real) else Undefined
  }

  /** `a === b`; arrays compare by identity, so two note lists are never the same value here. */
  predicate StrictEquals(a: Value, b: Value) {
    match (a, b)
    case (Undefined, Undefined) => true
    case (Null, Null) => true
    case (Bool(x), Bool(y)) => x == y
    case (Num(x), Num(y)) => x == y
    case (Str(x), Str(y)) => x == y
    case _ => false
  }

  /** `===` is not reflexive: NaN and arrays are never equal to themselves. */
  lemma StrictEqualsReflexiveExceptNaN(v: Value)
    ensures StrictEquals(v, v) <==> !(v.NaN? || v.Notes?)
  {
  }
}

=== FILE: metrics.dfy ===
/**
 * The sales metrics the dashboard and the performance charts share: per-seller sums
 * split by the `ativo` status, the goal share of a seller, the ranking by sales, the
 * per-day sums of the month and the goal text input.
 */
module Metrics {
  import opened Wrappers
  import opened Text
  import opened Numbers
  import opened Types
  import opened Deals
  import opened Seqs

  /** The deals a seller owns. */
  function OwnedBy(seller: string): Deal -> bool {
    (d: Deal) => d.owner == seller
  }

  /** `deals.map(d => d.owner)` */
  function OwnerNames(ds: seq<Deal>): (r: seq<string>)
    ensures |r| == |ds|
    ensures forall i :: 0 <= i < |ds| ==> r[i] == ds[i].owner
  {
    seq(|ds|, i requires 0 <= i < |ds| => ds[i].owner)
  }

  /** `Boolean(s)` on a text. */
  predicate NonEmpty(s: string) {
    s != ""
  }

  /** A name is among the owners exactly when some deal carries it. */
  lemma OwnerNamesMembers(ds: seq<Deal>)
    ensures forall s :: s in OwnerNames(ds) <==> exists d :: d in ds && d.owner == s
  {
    var names := OwnerNames(ds);
    forall s | s in names ensures exists d :: d in ds && d.owner == s {
      var i :| 0 <= i < |names| && names[i] == s;
      assert ds[i] in ds;
    }
    forall s | exists d :: d in ds && d.owner == s ensures s in names {
      var d :| d in ds && d.owner == s;
      var i :| 0 <= i < |ds| && ds[i] == d;
      assert names[i] == s;
    }
  }

  /** `Array.from(new Set(deals.map(d => d.owner).filter(Boolean)))`: each non-empty owner once. */
  function SellersOf(ds: seq<Deal>): (r: seq<string>)
    ensures forall s :: s in r <==> s != "" && exists d :: d in ds && d.owner == s
    ensures forall i, j :: 0 <= i < j < |r| ==> r[i] != r[j]
  {
    OwnerNamesMembers(ds);
    Dedup(Filter(OwnerNames(ds), NonEmpty))
  }

  /** Recurring revenue: deals of active customers. */
  predicate IsAtivo(d: Deal) {
    d.status == Ativo.Id()
  }

  /** New sales: every other status. */
  predicate NotAtivo(d: Deal) {
    d.status != "ativo"
  }

  /** Without negative totals, any selection of the deals sums to at least 0. */
  lemma FilteredSumNonNegative(ds: seq<Deal>, p: Deal -> bool)
    ensures (forall d :: d in ds ==> TotalOf(d) >= 0.0) ==> SumOf(Filter(ds, p), TotalOf) >= 0.0
  {
    if forall d :: d in ds ==> TotalOf(d) >= 0.0 {
      SumNonNegative(Filter(ds, p), TotalOf);
    }
  }

  /** A new sale of the seller, tested in one step. */
  function NewSaleOf(seller: string): Deal -> bool {
    (d: Deal) => d.owner == seller && d.status != "ativo"
  }

  /** A recurring sale of the seller, tested in one step. */
  function RecurringOf(seller: string): Deal -> bool {
    (d: Deal) => d.owner == seller && d.status == Ativo.Id()
  }

  /** `vendasNormais.reduce(...)`: the seller's totals outside status `ativo`. */
  function Vendas(ds: seq<Deal>, seller: string): (v: real)
    ensures v == SumOf(Filter(ds, NewSaleOf(seller)), TotalOf)
    ensures (forall d :: d in ds ==> TotalOf(d) >= 0.0) ==> v >= 0.0
  {
    FilterAnd(ds, OwnedBy(seller), NotAtivo, NewSaleOf(seller));
    FilteredSumNonNegative(ds, NewSaleOf(seller));
    SumOf(Filter(Filter(ds, OwnedBy(seller)), NotAtivo), TotalOf)
  }

  /** `vendasRecorrencia.reduce(...)`: the seller's totals in status `ativo`. */
  function Recorrencia(ds: seq<Deal>, seller: string): (v: real)
    ensures v == SumOf(Filter(ds, RecurringOf(seller)), TotalOf)
    ensures (forall d :: d in ds ==> TotalOf(d) >= 0.0) ==> v >= 0.0
  {
    FilterAnd(ds, OwnedBy(seller), IsAtivo, RecurringOf(seller));
    FilteredSumNonNegative(ds, RecurringOf(seller));
    SumOf(Filter(Filter(ds, OwnedBy(seller)), IsAtivo), TotalOf)
  }

  /** New and recurring sales split the seller's whole total. */
  lemma {:induction false} SellerTotalsPartition(ds: seq<Deal>, seller: string)
    ensures Vendas(ds, seller) + Recorrencia(ds, seller) == SumOf(Filter(ds, OwnedBy(seller)), TotalOf)
  {
    SumPartition(Filter(ds, OwnedBy(seller)), TotalOf, NotAtivo, IsAtivo);
  }

  /** `metaMensal / (vendedores.length || 1)` */
  function IndividualGoal(metaMensal: real, sellers: nat): (g: real)
    ensures sellers == 0 ==> g == metaMensal
  {
    metaMensal / (if sellers == 0 then 1 else sellers) as real
  }

  /** The sellers' goals add up to the monthly goal. */
  lemma IndividualGoalsAddUp(metaMensal: real, sellers: nat)
    requires sellers > 0
    ensures IndividualGoal(metaMensal, sellers) * sellers as real == metaMensal
  {
  }

  /** `Math.min(a, b)` */
  function Min(a: real, b: real): (m: real)
    ensures m <= a && m <= b && (m == a || m == b)
  {
    if a < b then a else b
  }

  /** `p` is `achieved` as a percentage of `goal`, whenever the goal is positive. */
  predicate IsPercentOf(p: real, achieved: real, goal: real) {
    goal > 0.0 ==> p * goal == achieved * 100.0
  }

  /** `goal > 0 ? achieved / goal * 100 : 0` */
  function Percent(achieved: real, goal: real): (p: real)
    ensures goal <= 0.0 ==> p == 0.0
    ensures goal > 0.0 ==> (p >= 100.0 <==> achieved >= goal)
    ensures goal > 0.0 && achieved >= 0.0 ==> p >= 0.0
  {
    if goal > 0.0 then
      ShareOfGoal(achieved, goal);
      achieved / goal * 100.0
    else 0.0
  }

  /** The percentage of a positive goal reaches 100 exactly when the goal is met. */
  lemma ShareOfGoal(achieved: real, goal: real)
    requires goal > 0.0
    ensures achieved / goal * 100.0 >= 100.0 <==> achieved >= goal
    ensures achieved >= 0.0 ==> achieved / goal * 100.0 >= 0.0
  {
    var p := achieved / goal * 100.0;
    assert p * goal == achieved * 100.0;
    if achieved >= goal {
      CancelPositive(p, 100.0, goal);
    } else if p >= 100.0 {
      MultiplyPositive(p, 100.0, goal);
    }
  }

  /** With a positive goal, the percentage times the goal is 100 times the amount achieved. */
  lemma PercentOfGoal(achieved: real, goal: real)
    ensures goal > 0.0 ==> Percent(achieved, goal) * goal == achieved * 100.0
  {
    if goal > 0.0 {
      assert Percent(achieved, goal) == achieved / goal * 100.0;
    }
  }

  /** Dividing out a positive factor keeps an inequality. */
  lemma CancelPositive(a: real, b: real, c: real)
    requires c > 0.0 && a * c >= b * c
    ensures a >= b
  {
  }

  /** Multiplying by a positive factor keeps an inequality. */
  lemma MultiplyPositive(a: real, b: real, c: real)
    requires c > 0.0 && a >= b
    ensures a * c >= b * c
  {
  }

  /** One bar of the seller chart. */
  datatype SellerPerf = SellerPerf(vendedor: string, vendas: real, recorrencia: real, meta: real, percentual: real)

  /** A seller's figures; `capped` applies `Math.min(percentual, 100)`. */
  function PerfOf(ds: seq<Deal>, seller: string, metaMensal: real, sellers: nat, capped: bool): (p: SellerPerf)
    ensures p.vendedor == (if seller == "" then "Sem Vendedor" else seller)
    ensures p.vendas == Vendas(ds, seller) && p.recorrencia == Recorrencia(ds, seller)
    ensures p.vendas + p.recorrencia == SumOf(Filter(ds, OwnedBy(seller)), TotalOf)
    ensures p.meta == IndividualGoal(metaMensal, sellers)
    ensures capped ==> p.percentual <= 100.0
    ensures capped ==> p.percentual == Min(Percent(p.vendas + p.recorrencia, p.meta), 100.0)
    ensures !capped ==> p.percentual == Percent(p.vendas + p.recorrencia, p.meta)
  {
    var vendas := Vendas(ds, seller);
    var recorrencia := Recorrencia(ds, seller);
    var meta := IndividualGoal(metaMensal, sellers);
    var percentual := Percent(vendas + recorrencia, meta);
    SellerTotalsPartition(ds, seller);
    SellerPerf(if seller == "" then "Sem Vendedor" else seller, vendas, recorrencia, meta,
               if capped then Min(percentual, 100.0) else percentual)
  }

  function VendasKey(p: SellerPerf): Option<real> {
    Some(p.vendas)
  }

  /** The chart rows in seller order, before sorting. */
  function PerfRows(ds: seq<Deal>, sellers: seq<string>, metaMensal: real, capped: bool): (r: seq<SellerPerf>)
    ensures |r| == |sellers|
    ensures forall i :: 0 <= i < |sellers| ==> r[i] == PerfOf(ds, sellers[i], metaMensal, |sellers|, capped)
  {
    seq(|sellers|, i requires 0 <= i < |sellers| => PerfOf(ds, sellers[i], metaMensal, |sellers|, capped))
  }

  /**
   * `performance.sort((a, b) => b.vendas - a.vendas)`: the rows ranked by new sales, highest
   * first; sellers with equal sales keep their order in the seller list.
   */
  function Ranking(ds: seq<Deal>, sellers: seq<string>, metaMensal: real, capped: bool): (r: seq<SellerPerf>)
    ensures |r| == |sellers|
    ensures forall i, j :: 0 <= i < j < |r| ==> r[i].vendas >= r[j].vendas
    ensures multiset(r) == multiset(PerfRows(ds, sellers, metaMensal, capped))
    ensures forall v :: Filter(r, KeyIs(VendasKey, v)) == Filter(PerfRows(ds, sellers, metaMensal, capped), KeyIs(VendasKey, v))
  {
    var r := SortDesc(PerfRows(ds, sellers, metaMensal, capped), VendasKey);
    assert forall i, j :: 0 <= i < j < |r| ==> VendasKey(r[i]).Some? && VendasKey(r[j]).Some?;
    r
  }

  /** Every seller has a row in the ranking. */
  lemma RankingHasEverySeller(ds: seq<Deal>, sellers: seq<string>, metaMensal: real, capped: bool, i: nat)
    requires i < |sellers|
    ensures PerfOf(ds, sellers[i], metaMensal, |sellers|, capped) in Ranking(ds, sellers, metaMensal, capped)
  {
    var rows := PerfRows(ds, sellers, metaMensal, capped);
    assert rows[i] in multiset(rows);
  }

  /** Every seller in the list has its row in the ranking. */
  lemma RankingCoversSellers(ds: seq<Deal>, sellers: seq<string>, metaMensal: real, capped: bool)
    ensures forall s :: s in sellers ==> PerfOf(ds, s, metaMensal, |sellers|, capped) in Ranking(ds, sellers, metaMensal, capped)
  {
    forall s | s in sellers ensures PerfOf(ds, s, metaMensal, |sellers|, capped) in Ranking(ds, sellers, metaMensal, capped) {
      var i :| 0 <= i < |sellers| && sellers[i] == s;
      RankingHasEverySeller(ds, sellers, metaMensal, capped, i);
    }
  }

  /** Every row of the ranking is the row of one of the sellers. */
  lemma RankingRowOfSeller(ds: seq<Deal>, sellers: seq<string>, metaMensal: real, capped: bool, p: SellerPerf)
    returns (i: nat)
    requires p in Ranking(ds, sellers, metaMensal, capped)
    ensures i < |sellers| && p == PerfOf(ds, sellers[i], metaMensal, |sellers|, capped)
  {
    var rows := PerfRows(ds, sellers, metaMensal, capped);
    assert p in multiset(rows);
    i :| 0 <= i < |rows| && rows[i] == p;
  }

  /** `vendasPorData.get(key) || 0` */
  function Lookup(m: map<string, real>, key: string): real {
    if key in m then m[key] else 0.0
  }

  /** `format(parseISO(createdAt), "yyyy-MM-dd")`, the deal's day; `None` when `parseISO` gives an invalid date. */
  type DayOf = string -> Option<string>

  function OnDay(dayOf: DayOf, day: string): Deal -> bool {
    (d: Deal) => dayOf(d.createdAt) == Some(day)
  }

  /** The reference: the sum of the totals of the deals created on that day. */
  function DaySum(ds: seq<Deal>, dayOf: DayOf, day: string): real {
    SumOf(Filter(ds, OnDay(dayOf, day)), TotalOf)
  }

  /**
   * The `forEach` that adds each deal's total to its day; deals without a valid day are
   * skipped. What the map holds for a day grows by exactly that day's sum.
   */
  function Accumulate(ds: seq<Deal>, dayOf: DayOf, m: map<string, real>): (r: map<string, real>)
    ensures forall day :: Lookup(r, day) == Lookup(m, day) + DaySum(ds, dayOf, day)
  {
    if |ds| == 0 then m
    else
      var day := dayOf(ds[0].createdAt);
      var m' := if day.Some? then m[day.value := Lookup(m, day.value) + TotalOf(ds[0])] else m;
      Accumulate(ds[1..], dayOf, m')
  }

  /** One point of a daily series. */
  datatype DayPoint = DayPoint(day: string, total: real)

  /** The month's days mapped to their sums. */
  function DailySeries(ds: seq<Deal>, dayOf: DayOf, days: seq<string>): (r: seq<DayPoint>)
    ensures |r| == |days|
    ensures forall i :: 0 <= i < |days| ==> r[i] == DayPoint(days[i], DaySum(ds, dayOf, days[i]))
  {
    var m := Accumulate(ds, dayOf, map[]);
    seq(|days|, i requires 0 <= i < |days| => DayPoint(days[i], Lookup(m, days[i])))
  }

  /** A day without sales shows 0. */
  lemma {:induction false} QuietDayIsZero(ds: seq<Deal>, dayOf: DayOf, day: string)
    requires forall d :: d in ds ==> dayOf(d.createdAt) != Some(day)
    ensures DaySum(ds, dayOf, day) == 0.0
  {
    assert Filter(ds, OnDay(dayOf, day)) == [] by {
      if Filter(ds, OnDay(dayOf, day)) != [] {
        assert Filter(ds, OnDay(dayOf, day))[0] in Filter(ds, OnDay(dayOf, day));
      }
    }
  }

  /** `value.replace(',', '.')`: only the first comma becomes a point. */
  function ReplaceFirst(s: string, from: char, to: char): (r: string)
    ensures |r| == |s|
    ensures FirstIndex(s, from) == |s| ==> r == s
    ensures FirstIndex(s, from) < |s| ==>
      var k := FirstIndex(s, from);
      r == s[..k] + [to] + s[k + 1..]
  {
    if |s| == 0 then s
    else if s[0] == from then [to] + s[1..]
    else
      var rest := ReplaceFirst(s[1..], from, to);
      var k := FirstIndex(s[1..], from);
      assert k < |s[1..]| ==> [s[0]] + (s[1..][..k] + [to] + s[1..][k + 1..]) == s[..k + 1] + [to] + s[k + 2..];
      [s[0]] + rest
  }

  /** `handleMetaChange`: the goal becomes the parsed input when that is a number >= 0; otherwise it stays. */
  function MetaChange(value: string, current: real): (meta: real)
    ensures var n := ParseFloat(ReplaceFirst(value, ',', '.'));
            if n.Some? && n.value >= 0.0 then meta == n.value else meta == current
    ensures current >= 0.0 ==> meta >= 0.0
  {
    var n := ParseFloat(ReplaceFirst(value, ',', '.'));
    if n.Some? && n.value >= 0.0 then n.value else current
  }

  /** Typing a whole number of reais sets the goal to it. */
  lemma MetaChangeAcceptsNumerals(n: nat, current: real)
    ensures MetaChange(NatToString(n), current) == n as real
  {
    NatRoundTrip(n);
    assert ',' !in NatToString(n);
  }
}

=== FILE: normalize.dfy ===
/**
 * `snakeToCamel`, the normaliser the dashboard and the sales report apply to every deal
 * they receive: each field is read from its snake_case spelling, then from its camelCase
 * spelling, then from a default, always with `||`, so a falsy value (0, "", false) in
 * the first spelling falls through to the next.
 */
module Normalize {
  import opened Wrappers
  import opened Js
  import opened Types
  import Deals

  /** `obj.snake || obj.camel || fallback` */
  function Pick(o: Object, snake: string, camel: string, fallback: Value): (v: Value)
    ensures Truthy(v) <==> Truthy(Get(o, snake)) || Truthy(Get(o, camel)) || Truthy(fallback)
    ensures Truthy(Get(o, snake)) ==> v == Get(o, snake)
    ensures !Truthy(Get(o, snake)) && Truthy(Get(o, camel)) ==> v == Get(o, camel)
  {
    Or(Or(Get(o, snake), Get(o, camel)), fallback)
  }

  /** A field that only has one spelling: `obj.key || fallback`. */
  function PickOne(o: Object, key: string, fallback: Value): (v: Value)
    ensures Truthy(Get(o, key)) ==> v == Get(o, key)
    ensures !Truthy(Get(o, key)) ==> v == fallback
  {
    Or(Get(o, key), fallback)
  }

  /**
   * The deal the typed code sees after `snakeToCamel(obj)`; `now` is
   * `new Date().toISOString()`. `valorManual` is not copied, so it is always absent.
   */
  function SnakeToCamel(o: Object, now: string): (d: Deals.Deal)
    ensures d.valorManual == ""
    ensures !Truthy(Get(o, "created_at")) && !Truthy(Get(o, "createdAt")) ==> d.createdAt == now
    ensures d.plataformaHabilitada <==> Truthy(Get(o, "plataforma_habilitada")) || Truthy(Get(o, "plataformaHabilitada"))
    ensures d.pagamentoConfirmado <==> Truthy(Get(o, "pagamento_confirmado")) || Truthy(Get(o, "pagamentoConfirmado"))
    ensures d.agendaOk <==> Truthy(Get(o, "agenda_ok")) || Truthy(Get(o, "agendaOk"))
    ensures d.qualidadeOK <==> Truthy(Get(o, "qualidade_ok")) || Truthy(Get(o, "qualidadeOK"))
    ensures d.subtotal.Some? <==> Number(PickOne(o, "subtotal", Num(0.0))).Some?
    ensures d.total.Some? <==> Number(PickOne(o, "total", Num(0.0))).Some?
  {
    Deals.Deal(
      AsText(Get(o, "id")),
      AsText(Pick(o, "created_at", "createdAt", Str(now))),
      AsId(Pick(o, "owner_id", "ownerId", Undefined)),
      AsText(Get(o, "owner")),
      AsText(Get(o, "status")),
      AsText(Get(o, "produto")),
      AsText(Get(o, "empresa")),
      AsText(Get(o, "cnpj")),
      AsText(Get(o, "responsavel")),
      AsText(Get(o, "whatsapp")),
      AsText(Get(o, "email")),
      AsText(Pick(o, "forma_pagamento", "formaPagamento", Undefined)),
      NumberOrZero(Pick(o, "qtd_conexoes", "qtdConexoes", Num(0.0))),
      NumberOrZero(Pick(o, "qtd_usuarios", "qtdUsuarios", Num(0.0))),
      Truthy(Pick(o, "plataforma_habilitada", "plataformaHabilitada", Bool(false))),
      NumberOrZero(Pick(o, "qtd_ura_canais", "qtdUraCanais", Num(0.0))),
      NumberOrZero(Pick(o, "qtd_ia_canais", "qtdIaCanais", Num(0.0))),
      NumberOrZero(Pick(o, "qtd_api_oficial", "qtdApiOficial", Num(0.0))),
      NumberOrZero(Pick(o, "leads_valor", "leadsValor", Num(0.0))),
      NumberOrZero(PickOne(o, "desconto", Num(0.0))),
      Number(PickOne(o, "subtotal", Num(0.0))),
      "",
      Number(PickOne(o, "total", Num(0.0))),
      AsText(Pick(o, "treinamento_data", "treinamentoData", Undefined)),
      AsText(Pick(o, "treinamento_hora", "treinamentoHora", Undefined)),
      AsText(Pick(o, "treinamento_status", "treinamentoStatus", Str("pendente"))),
      AsText(Pick(o, "tipo_venda", "tipoVenda", Str("nova"))),
      AsText(PickOne(o, "comprovante", Str(""))),
      Truthy(Pick(o, "pagamento_confirmado", "pagamentoConfirmado", Bool(false))),
      Truthy(Pick(o, "agenda_ok", "agendaOk", Bool(false))),
      Truthy(Pick(o, "qualidade_ok", "qualidadeOK", Bool(false))),
      AsNotes(PickOne(o, "observacoes", Notes([]))))
  }

  /** The deal an object with no fields at all normalises to. */
  function Defaults(now: string): Deals.Deal {
    Deals.Deal("", now, None, "", "", "", "", "", "", "", "", "",
         0.0, 0.0, false, 0.0, 0.0, 0.0, 0.0, 0.0, Some(0.0), "", Some(0.0),
         "", "", "pendente", "nova", "", false, false, false, [])
  }

  /** Every field of an empty object takes its default: 0, false, "pendente", "nova", [], "" and `now`. */
  lemma EmptyObjectDefaults(now: string)
    ensures SnakeToCamel(map[], now) == Defaults(now)
  {
  }

  /** The fields with a single spelling are sent as they are. */
  predicate SentTexts(o: Object, d: Deals.Deal) {
    Get(o, "id") == Str(d.id) && Get(o, "owner") == Str(d.owner)
    && Get(o, "status") == Str(d.status) && Get(o, "produto") == Str(d.produto)
    && Get(o, "empresa") == Str(d.empresa) && Get(o, "cnpj") == Str(d.cnpj)
    && Get(o, "responsavel") == Str(d.responsavel) && Get(o, "whatsapp") == Str(d.whatsapp)
    && Get(o, "email") == Str(d.email) && Get(o, "comprovante") == Str(d.comprovante)
    && Get(o, "observacoes") == Notes(d.observacoes)
  }

  /** The two-word texts are sent under their camelCase names only. */
  predicate SentTwoWordTexts(o: Object, d: Deals.Deal) {
    Get(o, "formaPagamento") == Str(d.formaPagamento) && !Truthy(Get(o, "forma_pagamento"))
    && Get(o, "treinamentoData") == Str(d.treinamentoData) && !Truthy(Get(o, "treinamento_data"))
    && Get(o, "treinamentoHora") == Str(d.treinamentoHora) && !Truthy(Get(o, "treinamento_hora"))
  }

  /** The flags are sent as booleans under their camelCase names only. */
  predicate SentFlags(o: Object, d: Deals.Deal) {
    Get(o, "plataformaHabilitada") == Bool(d.plataformaHabilitada) && !Truthy(Get(o, "plataforma_habilitada"))
    && Get(o, "pagamentoConfirmado") == Bool(d.pagamentoConfirmado) && !Truthy(Get(o, "pagamento_confirmado"))
    && Get(o, "agendaOk") == Bool(d.agendaOk) && !Truthy(Get(o, "agenda_ok"))
    && Get(o, "qualidadeOK") == Bool(d.qualidadeOK) && !Truthy(Get(o, "qualidade_ok"))
  }

  /** The quantities are sent as numbers under their camelCase names only. */
  predicate SentQuantities(o: Object, d: Deals.Deal) {
    Get(o, "qtdConexoes") == Num(d.qtdConexoes) && !Truthy(Get(o, "qtd_conexoes"))
    && Get(o, "qtdUsuarios") == Num(d.qtdUsuarios) && !Truthy(Get(o, "qtd_usuarios"))
    && Get(o, "qtdUraCanais") == Num(d.qtdUraCanais) && !Truthy(Get(o, "qtd_ura_canais"))
    && Get(o, "qtdIaCanais") == Num(d.qtdIaCanais) && !Truthy(Get(o, "qtd_ia_canais"))
    && Get(o, "qtdApiOficial") == Num(d.qtdApiOficial) && !Truthy(Get(o, "qtd_api_oficial"))
  }

  /** The amounts are sent as numbers, an absent subtotal or total left undefined. */
  predicate SentAmounts(o: Object, d: Deals.Deal) {
    Get(o, "leadsValor") == Num(d.leadsValor) && !Truthy(Get(o, "leads_valor"))
    && Get(o, "desconto") == Num(d.desconto)
    && Get(o, "subtotal") == (if d.subtotal.Some? then Num(d.subtotal.value) else Undefined)
    && Get(o, "total") == (if d.total.Some? then Num(d.total.value) else Undefined)
  }

  /** The fields with a default are sent under their camelCase names, the owner id as `owner_id`. */
  predicate SentDefaulted(o: Object, d: Deals.Deal) {
    Get(o, "createdAt") == Str(d.createdAt) && !Truthy(Get(o, "created_at"))
    && Get(o, "owner_id") == FromId(d.ownerId) && Get(o, "ownerId") == Undefined
    && Get(o, "treinamentoStatus") == Str(d.treinamentoStatus) && !Truthy(Get(o, "treinamento_status"))
    && Get(o, "tipoVenda") == Str(d.tipoVenda) && !Truthy(Get(o, "tipo_venda"))
  }

  /** o is a typed deal as the deal listing sends it (camelCase names, owner id as `owner_id`). */
  predicate SentAsCamelCase(o: Object, d: Deals.Deal) {
    SentTexts(o, d) && SentTwoWordTexts(o, d) && SentFlags(o, d) && SentQuantities(o, d)
    && SentAmounts(o, d) && SentDefaulted(o, d)
  }

  /** The fields with a single spelling come back unchanged. */
  lemma ReadBackTexts(o: Object, d: Deals.Deal, now: string)
    requires SentTexts(o, d)
    ensures var r := SnakeToCamel(o, now);
      r.id == d.id && r.owner == d.owner && r.status == d.status && r.produto == d.produto
      && r.empresa == d.empresa && r.cnpj == d.cnpj && r.responsavel == d.responsavel
      && r.whatsapp == d.whatsapp && r.email == d.email && r.comprovante == d.comprovante
      && r.observacoes == d.observacoes
  {
  }

  /** The two-word texts come back unchanged. */
  lemma ReadBackTwoWordTexts(o: Object, d: Deals.Deal, now: string)
    requires SentTwoWordTexts(o, d)
    ensures var r := SnakeToCamel(o, now);
      r.formaPagamento == d.formaPagamento && r.treinamentoData == d.treinamentoData
      && r.treinamentoHora == d.treinamentoHora
  {
  }

  /** The flags come back unchanged. */
  lemma ReadBackFlags(o: Object, d: Deals.Deal, now: string)
    requires SentFlags(o, d)
    ensures var r := SnakeToCamel(o, now);
      r.plataformaHabilitada == d.plataformaHabilitada && r.pagamentoConfirmado == d.pagamentoConfirmado
      && r.agendaOk == d.agendaOk && r.qualidadeOK == d.qualidadeOK
  {
  }

  /** The quantities come back unchanged. */
  lemma ReadBackQuantities(o: Object, d: Deals.Deal, now: string)
    requires SentQuantities(o, d)
    ensures var r := SnakeToCamel(o, now);
      r.qtdConexoes == d.qtdConexoes && r.qtdUsuarios == d.qtdUsuarios
      && r.qtdUraCanais == d.qtdUraCanais && r.qtdIaCanais == d.qtdIaCanais
      && r.qtdApiOficial == d.qtdApiOficial
  {
  }

  /** The amounts come back unchanged; an absent subtotal or total becomes 0. */
  lemma ReadBackAmounts(o: Object, d: Deals.Deal, now: string)
    requires SentAmounts(o, d)
    ensures var r := SnakeToCamel(o, now);
      r.leadsValor == d.leadsValor && r.desconto == d.desconto
      && r.subtotal == Some(d.subtotal.GetOr(0.0)) && r.total == Some(d.total.GetOr(0.0))
  {
  }

  /** Where `||` cannot tell a falsy value from a missing one, the default wins. */
  lemma ReadBackDefaults(o: Object, d: Deals.Deal, now: string)
    requires SentDefaulted(o, d)
    ensures var r := SnakeToCamel(o, now);
      r.createdAt == (if d.createdAt == "" then now else d.createdAt)
      && r.ownerId == (if d.ownerId == Some(0) then None else d.ownerId)
      && r.treinamentoStatus == (if d.treinamentoStatus == "" then "pendente" else d.treinamentoStatus)
      && r.tipoVenda == (if d.tipoVenda == "" then "nova" else d.tipoVenda)
  {
  }

  /**
   * Reading back what the listing sent gives the same deal, except where `||` cannot
   * tell a falsy value from a missing one: owner id 0 is lost, a blank creation date
   * becomes `now`, a blank training status or sale type takes its default, absent
   * amounts become 0, and `valorManual` is dropped.
   */
  lemma ReadBack(o: Object, d: Deals.Deal, now: string)
    requires SentAsCamelCase(o, d)
    ensures var r := SnakeToCamel(o, now);
      Deals.SameExcept(r, d, {Deals.CreatedAt, Deals.OwnerId, Deals.Subtotal, Deals.ValorManual,
                              Deals.Total, Deals.TreinamentoStatus, Deals.TipoVenda})
      && r.createdAt == (if d.createdAt == "" then now else d.createdAt)
      && r.ownerId == (if d.ownerId == Some(0) then None else d.ownerId)
      && r.subtotal == Some(d.subtotal.GetOr(0.0))
      && r.total == Some(d.total.GetOr(0.0))
      && r.treinamentoStatus == (if d.treinamentoStatus == "" then "pendente" else d.treinamentoStatus)
      && r.tipoVenda == (if d.tipoVenda == "" then "nova" else d.tipoVenda)
  {
    ReadBackTexts(o, d, now);
    ReadBackTwoWordTexts(o, d, now);
    ReadBackFlags(o, d, now);
    ReadBackQuantities(o, d, now);
    ReadBackAmounts(o, d, now);
    ReadBackDefaults(o, d, now);
  }
}

=== FILE: numbers.dfy ===
/**
 * The two JavaScript string-to-number conversions the source uses, over decimal
 * literals: `parseFloat` reads the longest numeric prefix, `Number` demands that the
 * whole trimmed text be numeric and reads blank text as 0. A NaN result is `None`.
 */
module Numbers {
  import opened Wrappers
  import opened Text

  /** Length of the run of decimal digits at the start of s. */
  function DigitRun(s: string): (n: nat)
    ensures n <= |s|
    ensures AllDigits(s[..n])
    ensures n < |s| ==> !IsDigit(s[n])
  {
    if |s| > 0 && IsDigit(s[0]) then 1 + DigitRun(s[1..]) else 0
  }

  /** The digit string read in base ten. */
  function DigitsValue(s: string): nat
    requires AllDigits(s)
  {
    if |s| == 0 then 0 else DigitsValue(s[..|s| - 1]) * 10 + DigitValue(s[|s| - 1])
  }

  function Pow10(k: nat): (p: nat)
    ensures p > 0
  {
    if k == 0 then 1 else 10 * Pow10(k - 1)
  }

  /** An unsigned decimal literal: integer digits, then optionally '.' and fraction digits. */
  datatype Literal = Literal(whole: string, hasPoint: bool, fraction: string) {

    predicate WellFormed() {
      AllDigits(whole) && AllDigits(fraction) && (!hasPoint ==> fraction == "")
    }

    /** A literal needs at least one digit: "." alone is not a number. */
    predicate HasDigits() {
      |whole| + |fraction| > 0
    }

    function Length(): nat {
      |whole| + if hasPoint then 1 + |fraction| else 0
    }

    function Value(): (v: real)
      requires WellFormed()
      ensures v >= 0.0
    {
      DigitsValue(whole) as real + DigitsValue(fraction) as real / Pow10(|fraction|) as real
    }
  }

  /** The longest unsigned decimal literal at the start of u. */
  function Scan(u: string): (lit: Literal)
    ensures lit.WellFormed()
    ensures lit.Length() <= |u|
    ensures lit.whole == u[..|lit.whole|]
    ensures lit.HasDigits() <==> StartsNumeric(u)
  {
    var w := DigitRun(u);
    var rest := u[w..];
    if |rest| > 0 && rest[0] == '.' then
      var f := DigitRun(rest[1..]);
      Literal(u[..w], true, rest[1..][..f])
    else
      Literal(u[..w], false, "")
  }

  /** u starts like a number: a digit, or a point followed by a digit. */
  predicate StartsNumeric(u: string) {
    |u| > 0 && (IsDigit(u[0]) || (u[0] == '.' && |u| > 1 && IsDigit(u[1])))
  }

  /** Whether a literal is negative, and the unsigned text after its sign. */
  function SplitSign(t: string): (bool, string) {
    if |t| > 0 && t[0] == '-' then (true, t[1..])
    else if |t| > 0 && t[0] == '+' then (false, t[1..])
    else (false, t)
  }

  function Signed(negative: bool, v: real): real {
    if negative then -v else v
  }

  /** `parseFloat(s)`; `None` stands for NaN. */
  function ParseFloat(s: string): (r: Option<real>)
    ensures r.Some? <==> StartsNumeric(SplitSign(TrimStart(s)).1)
    ensures r.Some? && !SplitSign(TrimStart(s)).0 ==> r.value >= 0.0
  {
    var p := SplitSign(TrimStart(s));
    var lit := Scan(p.1);
    if lit.HasDigits() then Some(Signed(p.0, lit.Value())) else None
  }

  /** `Number(s)` for a string; `None` stands for NaN. */
  function ToNumber(s: string): (r: Option<real>)
    ensures Trim(s) == "" ==> r == Some(0.0)
    ensures r.Some? && Trim(s) != "" ==> StartsNumeric(SplitSign(Trim(s)).1)
  {
    var t := Trim(s);
    if t == "" then Some(0.0)
    else
      var p := SplitSign(t);
      var lit := Scan(p.1);
      if lit.HasDigits() && lit.Length() == |p.1| then Some(Signed(p.0, lit.Value())) else None
  }

  lemma {:induction false} DigitRunAllDigits(s: string)
    requires AllDigits(s)
    ensures DigitRun(s) == |s|
  {
    if |s| > 0 {
      DigitRunAllDigits(s[1..]);
    }
  }

  lemma {:induction false} NatDigitsValue(n: nat)
    ensures DigitsValue(NatToString(n)) == n
  {
    if n >= 10 {
      var s := NatToString(n / 10) + [DigitChar(n % 10)];
      assert s[..|s| - 1] == NatToString(n / 10);
      NatDigitsValue(n / 10);
    }
  }

  /** Printing a natural number and parsing it back gives the number, with either conversion. */
  lemma NatRoundTrip(n: nat)
    ensures ParseFloat(NatToString(n)) == Some(n as real)
    ensures ToNumber(NatToString(n)) == Some(n as real)
  {
    var s := NatToString(n);
    assert !IsSpace(s[0]) && !IsSpace(s[|s| - 1]);
    assert TrimStart(s) == s;
    assert Trim(s) == s;
    assert SplitSign(s) == (false, s);
    DigitRunAllDigits(s);
    assert s[..|s|] == s;
    assert Scan(s) == Literal(s, false, "");
    NatDigitsValue(n);
    assert Literal(s, false, "").Value() == n as real;
  }

  /** A space never continues a literal. */
  lemma {:induction false} DigitRunSpaces(u: string, sp: string)
    requires forall i :: 0 <= i < |sp| ==> IsSpace(sp[i])
    ensures DigitRun(u + sp) == DigitRun(u)
  {
    if |u| == 0 {
      assert u + sp == sp;
      if |sp| > 0 {
        assert !IsDigit(sp[0]);
      }
    } else {
      assert (u + sp)[1..] == u[1..] + sp;
      DigitRunSpaces(u[1..], sp);
    }
  }

  /** A literal that fills u reads the same when white space follows it. */
  lemma ScanSpaces(u: string, sp: string)
    requires Scan(u).Length() == |u|
    requires forall i :: 0 <= i < |sp| ==> IsSpace(sp[i])
    ensures Scan(u + sp) == Scan(u)
  {
    var v := u + sp;
    DigitRunSpaces(u, sp);
    var w := DigitRun(u);
    assert v[..w] == u[..w];
    if w < |u| && u[w] == '.' {
      var tail := u[w + 1..];
      assert v[w + 1..] == tail + sp;
      DigitRunSpaces(tail, sp);
      var f := DigitRun(tail);
      assert (tail + sp)[..f] == tail[..f];
      ScanPoint(u);
      ScanPoint(v);
    } else {
      ScanNoPoint(u);
      assert w == |u|;
      assert |sp| > 0 ==> v[w] == sp[0];
      ScanNoPoint(v);
    }
  }

  /** How `Scan` reads a literal with a decimal point. */
  lemma ScanPoint(u: string)
    requires DigitRun(u) < |u| && u[DigitRun(u)] == '.'
    ensures Scan(u) == Literal(u[..DigitRun(u)], true, u[DigitRun(u) + 1..][..DigitRun(u[DigitRun(u) + 1..])])
  {
    var w := DigitRun(u);
    var rest := u[w..];
    assert |rest| > 0 && rest[0] == '.';
    assert rest[1..] == u[w + 1..];
  }

  /** How `Scan` reads a literal without a decimal point. */
  lemma ScanNoPoint(u: string)
    requires !(DigitRun(u) < |u| && u[DigitRun(u)] == '.')
    ensures Scan(u) == Literal(u[..DigitRun(u)], false, "")
  {
  }

  /**
   * Wherever `Number` reads a value from non-blank text, `parseFloat` reads the same
   * value: `Number` is the stricter of the two conversions.
   */
  lemma ToNumberAgreesWithParseFloat(s: string)
    requires Trim(s) != "" && ToNumber(s).Some?
    ensures ParseFloat(s) == ToNumber(s)
  {
    var t := Trim(s);
    var sp := TrailingSpaces(TrimStart(s));
    SignSpaces(t, sp);
    ScanSpaces(SplitSign(t).1, sp);
  }

  /** What `trimEnd` removes: the white space at the end of the text. */
  function TrailingSpaces(t0: string): (sp: string)
    ensures t0 == TrimEnd(t0) + sp
    ensures forall i :: 0 <= i < |sp| ==> IsSpace(sp[i])
  {
    var n := |TrimEnd(t0)|;
    var sp := t0[n..];
    assert forall i :: 0 <= i < |sp| ==> sp[i] == t0[n + i];
    assert t0 == t0[..n] + sp;
    sp
  }

  /** White space after a literal does not change how its sign is read. */
  lemma SignSpaces(t: string, sp: string)
    requires t != ""
    ensures SplitSign(t + sp) == (SplitSign(t).0, SplitSign(t).1 + sp)
  {
    if t[0] == '-' || t[0] == '+' {
      assert (t + sp)[1..] == t[1..] + sp;
    }
  }
}

=== FILE: qualidade_card.dfy ===
/**
 * The quality check of a sale: three checkboxes, each writing back its own flag, and
 * the approval that sends the deal to training once all three are ticked.
 */
module QualidadeCard {
  import opened Wrappers
  import opened Text
  import opened Types
  import opened Deals
  import WhatsApp

  /** The three checkboxes of the card. */
  datatype Check = DadosVerificados | PagamentoOk | AgendaDisponivel {
    function Field(): Field {
      match this
      case DadosVerificados => QualidadeOK
      case PagamentoOk => PagamentoConfirmado
      case AgendaDisponivel => AgendaOk
    }
  }

  /** `pronto`: data verified, payment confirmed and schedule available, that is, every box of the card ticked. */
  function Pronto(d: Deal): (b: bool)
    ensures b <==> forall c: Check :: Get(d, c.Field()) == Flag(true)
  {
    assert Get(d, DadosVerificados.Field()) == Flag(d.qualidadeOK);
    assert Get(d, PagamentoOk.Field()) == Flag(d.pagamentoConfirmado);
    assert Get(d, AgendaDisponivel.Field()) == Flag(d.agendaOk);
    d.qualidadeOK && d.pagamentoConfirmado && d.agendaOk
  }

  /** The deal the checkbox's `onChange` hands to `onUpdate`. */
  function Toggle(d: Deal, c: Check, checked: bool): (r: Deal)
    ensures Get(r, c.Field()) == Flag(checked)
    ensures SameExcept(r, d, {c.Field()})
  {
    match c
    case DadosVerificados => d.(qualidadeOK := checked)
    case PagamentoOk => d.(pagamentoConfirmado := checked)
    case AgendaDisponivel => d.(agendaOk := checked)
  }

  /** "Aprovar Qualidade": disabled (no update) unless `pronto`; otherwise only the status moves. */
  function Approve(d: Deal): (r: Option<Deal>)
    ensures r.Some? <==> Pronto(d)
    ensures r.Some? ==> r.value.status == TreinamentoPendente.Id() && SameExcept(r.value, d, {Status})
  {
    if Pronto(d) then Some(d.(status := "treinamento_pendente")) else None
  }

  /** Ticking all three boxes enables approval; unticking any one disables it again. */
  lemma {:induction false} ChecksEnableApproval(d: Deal, c: Check)
    ensures Approve(Toggle(Toggle(Toggle(d, DadosVerificados, true), PagamentoOk, true), AgendaDisponivel, true)).Some?
    ensures Pronto(d) ==> Approve(Toggle(d, c, false)).None?
  {
    var d1 := Toggle(d, DadosVerificados, true);
    var d2 := Toggle(d1, PagamentoOk, true);
    var d3 := Toggle(d2, AgendaDisponivel, true);
    assert Get(d3, AgendaOk) == Flag(true);
    assert Get(d3, PagamentoConfirmado) == Get(d2, PagamentoConfirmado) == Flag(true);
    assert Get(d3, QualidadeOK) == Get(d2, QualidadeOK) == Get(d1, QualidadeOK) == Flag(true);
    assert Get(Toggle(d, c, false), c.Field()) == Flag(false);
  }

  /** Approval does not touch the flags, so an approved deal is still `pronto`. */
  lemma ApprovalKeepsPronto(d: Deal)
    requires Approve(d).Some?
    ensures Pronto(Approve(d).value)
  {
    var r := Approve(d).value;
    assert Get(r, QualidadeOK) == Get(d, QualidadeOK);
    assert Get(r, PagamentoConfirmado) == Get(d, PagamentoConfirmado);
    assert Get(r, AgendaOk) == Get(d, AgendaOk);
  }

  /** The number "Verificar no WhatsApp" dials; this card opens it even for an empty number. */
  function WhatsAppNumber(d: Deal): (n: string)
    ensures AllDigits(n) && |n| >= 2 && n[..2] == "55"
    ensures n[2..] == WhatsApp.Format(d.whatsapp)
  {
    "55" + WhatsApp.Format(d.whatsapp)
  }
}

=== FILE: relatorio_treinamento.dfy ===
/**
 * The training report: its seller list, the company search box, the filtered training
 * list ordered newest first, the per-status counters and the filter panel's state.
 */
module RelatorioTreinamento {
  import opened Wrappers
  import opened Text
  import opened Types
  import opened Deals
  import opened Seqs
  import opened Dates
  import opened Metrics
  import App

  /** The four training states a deal can be in. */
  datatype TrainingStatus = Pendente | Agendado | Concluido | Cancelado {
    /** The value stored in `treinamentoStatus`. */
    function Id(): string {
      match this
      case Pendente => "pendente"
      case Agendado => "agendado"
      case Concluido => "concluido"
      case Cancelado => "cancelado"
    }

    /** The label the report prints for it. */
    function Label(): string {
      match this
      case Pendente => "Pendente"
      case Agendado => "Agendado"
      case Concluido => "Concluído"
      case Cancelado => "Cancelado"
    }
  }

  /** The four stored values differ, so each names one state. */
  lemma IdsDistinct()
    ensures forall a: TrainingStatus, b: TrainingStatus :: a.Id() == b.Id() ==> a == b
  {
    assert "pendente"[0] == 'p' && "agendado"[0] == 'a' && "concluido"[0] == 'c' && "cancelado"[0] == 'c';
    assert "concluido"[1] == 'o' && "cancelado"[1] == 'a';
  }

  /** The state a stored value names, if any. */
  function StatusOf(status: string): (r: Option<TrainingStatus>)
    ensures r.Some? <==> exists t: TrainingStatus :: t.Id() == status
    ensures r.Some? ==> r.value.Id() == status
  {
    if status == Pendente.Id() then Some(Pendente)
    else if status == Agendado.Id() then Some(Agendado)
    else if status == Concluido.Id() then Some(Concluido)
    else if status == Cancelado.Id() then Some(Cancelado)
    else None
  }

  /** `getStatusText`: the label of a known status, "Sem status" for anything else. */
  function StatusText(status: string): (r: string)
    ensures forall t: TrainingStatus :: status == t.Id() ==> r == t.Label()
    ensures (forall t: TrainingStatus :: status != t.Id()) ==> r == "Sem status"
  {
    IdsDistinct();
    match StatusOf(status)
    case Some(t) => t.Label()
    case None => "Sem status"
  }

  /** Different states print differently, and none prints as "Sem status". */
  lemma LabelsDistinct(a: TrainingStatus, b: TrainingStatus)
    ensures a.Label() == b.Label() <==> a == b
    ensures StatusText(a.Id()) != "Sem status"
  {
  }

  /** `vendedores`: the four fixed sellers first, then every other named owner, each once. */
  function SellerList(ds: seq<Deal>): (r: seq<string>)
    ensures |r| >= |SellerNames()| && r[..|SellerNames()|] == SellerNames()
    ensures forall s :: s in r <==> s in SellerNames() || (s != "" && exists d :: d in ds && d.owner == s)
    ensures forall i, j :: 0 <= i < j < |r| ==> r[i] != r[j]
  {
    SellersShape();
    DedupKeepsDistinctPrefix(SellerNames(), SellersOf(ds));
    Dedup(SellerNames() + SellersOf(ds))
  }

  /**
   * The search test: the lower-cased company or contact name holds `textTerm`, or the
   * WhatsApp number or a present CNPJ holds `rawTerm`.
   */
  predicate MatchesSearch(d: Deal, textTerm: string, rawTerm: string) {
    Contains(Lower(d.empresa), textTerm) || Contains(Lower(d.responsavel), textTerm)
    || Contains(d.whatsapp, rawTerm) || (d.cnpj != "" && Contains(d.cnpj, rawTerm))
  }

  function Searching(textTerm: string, rawTerm: string): Deal -> bool {
    (d: Deal) => MatchesSearch(d, textTerm, rawTerm)
  }

  /** The drop-down under the search box: its results and whether it is open. */
  datatype SearchBox = SearchBox(resultados: seq<Deal>, mostrar: bool)

  /**
   * `buscarEmpresas`: a blank term closes the drop-down; any other term opens it on the
   * deals that match, names compared in lower case and numbers as typed.
   */
  function BuscarEmpresas(ds: seq<Deal>, termo: string): (r: SearchBox)
    ensures IsBlank(termo) ==> r == SearchBox([], false)
    ensures !IsBlank(termo) ==> r.mostrar && IsSubseq(r.resultados, ds)
    ensures !IsBlank(termo) ==> forall d :: d in r.resultados <==> d in ds && MatchesSearch(d, Lower(termo), termo)
    ensures !IsBlank(termo) ==> forall d :: Occurrences(r.resultados, d) == if MatchesSearch(d, Lower(termo), termo) then Occurrences(ds, d) else 0
  {
    if IsBlank(termo) then SearchBox([], false)
    else SearchBox(Filter(ds, Searching(Lower(termo), termo)), true)
  }

  /** Every text holds itself. */
  lemma ContainsSelf(s: string)
    ensures Contains(s, s)
  {
  }

  /** Searching for a deal's own company name finds that deal. */
  lemma SearchFindsOwnCompany(ds: seq<Deal>, d: Deal)
    requires d in ds && !IsBlank(d.empresa)
    ensures d in BuscarEmpresas(ds, d.empresa).resultados
  {
    ContainsSelf(Lower(d.empresa));
  }

  /** The list's filters: status and seller ("todos" for all) and the search text. */
  predicate KeepTraining(d: Deal, filtroStatus: string, filtroVendedor: string, busca: string) {
    (filtroStatus == "todos" || d.treinamentoStatus == filtroStatus)
    && (filtroVendedor == "todos" || d.owner == filtroVendedor)
    && (busca == "" || MatchesSearch(d, Lower(busca), Lower(busca)))
  }

  function Keeps(filtroStatus: string, filtroVendedor: string, busca: string): Deal -> bool {
    (d: Deal) => KeepTraining(d, filtroStatus, filtroVendedor, busca)
  }

  /** `new Date(createdAt).getTime()` as the sort key; an invalid date has none. */
  function CreatedKey(parse: Parse): Deal -> Option<real> {
    (d: Deal) => match parse(d.createdAt) case Some(t) => Some(t as real) case None => None
  }

  /** `treinamentos`: the deals the filters keep, newest first; deals of the same instant keep their list order. */
  function Treinamentos(ds: seq<Deal>, filtroStatus: string, filtroVendedor: string, busca: string, parse: Parse): (r: seq<Deal>)
    ensures SortedDesc(r, CreatedKey(parse))
    ensures multiset(r) == multiset(Filter(ds, Keeps(filtroStatus, filtroVendedor, busca)))
    ensures forall v :: Filter(r, KeyIs(CreatedKey(parse), v)) == Filter(Filter(ds, Keeps(filtroStatus, filtroVendedor, busca)), KeyIs(CreatedKey(parse), v))
    ensures forall d :: d in r <==> d in ds && KeepTraining(d, filtroStatus, filtroVendedor, busca)
  {
    var kept := Filter(ds, Keeps(filtroStatus, filtroVendedor, busca));
    var r := SortDesc(kept, CreatedKey(parse));
    SameMembers(r, kept);
    r
  }

  /** With every filter off, the list holds every deal, each as often as it occurs. */
  lemma NoFiltersListsAll(ds: seq<Deal>, parse: Parse)
    ensures multiset(Treinamentos(ds, "todos", "todos", "", parse)) == multiset(ds)
  {
    FilterAll(ds, Keeps("todos", "todos", ""));
  }

  /** A status or seller filter only narrows the list the search alone shows. */
  lemma FiltersNarrow(ds: seq<Deal>, filtroStatus: string, filtroVendedor: string, busca: string, parse: Parse, d: Deal)
    requires d in Treinamentos(ds, filtroStatus, filtroVendedor, busca, parse)
    ensures d in Treinamentos(ds, "todos", "todos", busca, parse)
  {
  }

  /** The report's counters. */
  datatype Stats = Stats(total: nat, pendentes: nat, agendados: nat, concluidos: nat, cancelados: nat)

  function HasTrainingStatus(): Deal -> bool {
    (d: Deal) => d.treinamentoStatus != ""
  }

  function InState(t: TrainingStatus): Deal -> bool {
    (d: Deal) => d.treinamentoStatus == t.Id()
  }

  /** In one of the first two, or the first three, or all four states. */
  function UpTo2(): Deal -> bool {
    (d: Deal) => InState(Pendente)(d) || InState(Agendado)(d)
  }

  function UpTo3(): Deal -> bool {
    (d: Deal) => UpTo2()(d) || InState(Concluido)(d)
  }

  function AnyState(): Deal -> bool {
    (d: Deal) => UpTo3()(d) || InState(Cancelado)(d)
  }

  /** The four state counters are the count of deals in any of the four states. */
  lemma {:induction false} StateCountsAdd(ds: seq<Deal>)
    ensures Count(ds, InState(Pendente)) + Count(ds, InState(Agendado))
          + Count(ds, InState(Concluido)) + Count(ds, InState(Cancelado)) == Count(ds, AnyState())
  {
    App.CountUnion(ds, InState(Pendente), InState(Agendado));
    CountAgree(ds, UpTo2(), d => InState(Pendente)(d) || InState(Agendado)(d));
    App.CountUnion(ds, UpTo2(), InState(Concluido));
    CountAgree(ds, UpTo3(), d => UpTo2()(d) || InState(Concluido)(d));
    App.CountUnion(ds, UpTo3(), InState(Cancelado));
    CountAgree(ds, AnyState(), d => UpTo3()(d) || InState(Cancelado)(d));
  }

  /** `estatisticas`: the four state counters never exceed the deals with any training status. */
  function Estatisticas(ds: seq<Deal>): (s: Stats)
    ensures s.total == |Filter(ds, HasTrainingStatus())|
    ensures s.pendentes == |Filter(ds, InState(Pendente))|
    ensures s.agendados == |Filter(ds, InState(Agendado))|
    ensures s.concluidos == |Filter(ds, InState(Concluido))|
    ensures s.cancelados == |Filter(ds, InState(Cancelado))|
    ensures s.pendentes + s.agendados + s.concluidos + s.cancelados <= s.total <= |ds|
  {
    StateCountsAdd(ds);
    CountMono(ds, AnyState(), HasTrainingStatus());
    Stats(Count(ds, HasTrainingStatus()), Count(ds, InState(Pendente)), Count(ds, InState(Agendado)),
          Count(ds, InState(Concluido)), Count(ds, InState(Cancelado)))
  }

  /** When every deal is in one of the four states, the counters add up to the total. */
  lemma CountersAddUpToTotal(ds: seq<Deal>)
    requires forall d :: d in ds ==> exists t: TrainingStatus :: d.treinamentoStatus == t.Id()
    ensures var s := Estatisticas(ds);
      s.pendentes + s.agendados + s.concluidos + s.cancelados == s.total
  {
    StateCountsAdd(ds);
    forall d | d in ds ensures AnyState()(d) == HasTrainingStatus()(d) {
      var t: TrainingStatus :| d.treinamentoStatus == t.Id();
    }
    CountAgree(ds, AnyState(), HasTrainingStatus());
  }

  /** What the filter panel holds. */
  datatype Panel = Panel(filtroStatus: string, filtroVendedor: string, busca: string, box: SearchBox)

  /** The panel as the report opens. */
  function Initial(): Panel {
    Panel("todos", "todos", "", SearchBox([], false))
  }

  /** The "Limpar filtros" button is shown while a filter is on. */
  predicate ShowClear(p: Panel) {
    p.filtroStatus != "todos" || p.filtroVendedor != "todos" || p.busca != ""
  }

  /** Typing in the search box sets the list's search text and refreshes the drop-down. */
  function Type(p: Panel, ds: seq<Deal>, value: string): (r: Panel)
    ensures r.busca == value && r.filtroStatus == p.filtroStatus && r.filtroVendedor == p.filtroVendedor
    ensures r.box.mostrar <==> !IsBlank(value)
  {
    p.(busca := value, box := BuscarEmpresas(ds, value))
  }

  /** Picking a result puts its company name in the search box and closes the drop-down. */
  function Select(p: Panel, d: Deal): (r: Panel)
    ensures r.busca == d.empresa && !r.box.mostrar
    ensures r.filtroStatus == p.filtroStatus && r.filtroVendedor == p.filtroVendedor
  {
    p.(busca := d.empresa, box := p.box.(mostrar := false))
  }

  /** The list the panel's filters show. */
  function Listed(p: Panel, ds: seq<Deal>, parse: Parse): seq<Deal> {
    Treinamentos(ds, p.filtroStatus, p.filtroVendedor, p.busca, parse)
  }

  /** A picked result stays in the list when it passes the status and seller filters. */
  lemma SelectedDealIsListed(p: Panel, ds: seq<Deal>, d: Deal, parse: Parse)
    requires d in ds
    requires p.filtroStatus == "todos" || d.treinamentoStatus == p.filtroStatus
    requires p.filtroVendedor == "todos" || d.owner == p.filtroVendedor
    ensures d in Listed(Select(p, d), ds, parse)
  {
    ContainsSelf(Lower(d.empresa));
  }

  /** "Limpar filtros": back to the opening panel, which hides the button and lists every deal. */
  function Clear(p: Panel): (r: Panel)
    ensures !ShowClear(r) && r.box == SearchBox([], false)
  {
    Initial()
  }

  /** After clearing, the list holds every deal. */
  lemma ClearedListsAll(p: Panel, ds: seq<Deal>, parse: Parse)
    ensures multiset(Listed(Clear(p), ds, parse)) == multiset(ds)
  {
    NoFiltersListsAll(ds, parse);
  }
}

=== FILE: relatorios.dfy ===
/**
 * The sales report. It receives the sales tab's list, normalises every deal with
 * `snakeToCamel`, filters the result a second time by its own seller and date inputs,
 * and shows one table row per remaining deal and two sums, the paid deals and all deals.
 */
module Relatorios {
  import opened Js
  import opened Text
  import opened Deals
  import opened Seqs
  import opened Dates
  import Normalize
  import Metrics
  import App
  import Dashboard

  /** `dealsNormalizados`: each deal through `snakeToCamel`, in order, `now` dating a deal without a date. */
  function Normalizados(objs: seq<Object>, now: string): (r: seq<Deal>)
    ensures |r| == |objs|
    ensures forall i :: 0 <= i < |objs| ==> r[i] == Normalize.SnakeToCamel(objs[i], now)
    ensures forall i :: 0 <= i < |objs| && !Js.Truthy(Js.Get(objs[i], "created_at")) && !Js.Truthy(Js.Get(objs[i], "createdAt")) ==>
      r[i].createdAt == now
  {
    seq(|objs|, i requires 0 <= i < |objs| => Normalize.SnakeToCamel(objs[i], now))
  }

  /**
   * `vendedores`: the non-empty owners of the normalised deals, each once. Unlike the
   * dashboard's list, an owner made only of spaces is kept.
   */
  function Vendedores(objs: seq<Object>, now: string): (r: seq<string>)
    ensures forall s :: s in r <==> s != "" && exists d :: d in Normalizados(objs, now) && d.owner == s
    ensures forall i, j :: 0 <= i < j < |r| ==> r[i] != r[j]
  {
    Metrics.SellersOf(Normalizados(objs, now))
  }

  /**
   * `filtered`: the normalised deals of the chosen seller and period, in order. The test
   * is the sales tab's: an empty input is off, and a date that does not parse passes both
   * bounds.
   */
  function Filtered(objs: seq<Object>, now: string, vendedor: string, dateFrom: string, dateTo: string, parse: Parse): (r: seq<Deal>)
    ensures IsSubseq(r, Normalizados(objs, now))
    ensures forall d :: d in r <==> d in Normalizados(objs, now) && App.KeepInSalesTab(d, vendedor, dateFrom, dateTo, parse)
    ensures forall d :: Occurrences(r, d) == if App.KeepInSalesTab(d, vendedor, dateFrom, dateTo, parse) then Occurrences(Normalizados(objs, now), d) else 0
  {
    var ds := Normalizados(objs, now);
    Filter(ds, App.SalesTab(vendedor, dateFrom, dateTo, parse))
  }

  /** The report's filter is the sales tab's filter applied to the normalised deals. */
  lemma FilteredIsSalesFilter(objs: seq<Object>, now: string, vendedor: string, dateFrom: string, dateTo: string, parse: Parse)
    ensures Filtered(objs, now, vendedor, dateFrom, dateTo, parse) == App.FiltroDeals(Normalizados(objs, now), vendedor, dateFrom, dateTo, parse)
  {
  }

  /** Every seller in the drop-down selects at least one deal of that seller when no date is set. */
  lemma VendedorSelectsDeals(objs: seq<Object>, now: string, s: string, parse: Parse)
    requires s in Vendedores(objs, now)
    ensures exists d :: d in Filtered(objs, now, s, "", "", parse) && d.owner == s
  {
    var d :| d in Normalizados(objs, now) && d.owner == s;
    assert App.KeepInSalesTab(d, s, "", "", parse);
  }

  /** A name of spaces is a seller in the report but not on the dashboard. */
  lemma BlankOwnerListedHereOnly(o: Object, now: string)
    requires Normalize.SnakeToCamel(o, now).owner == " "
    ensures " " in Vendedores([o], now)
    ensures " " !in Dashboard.Vendedores(Normalizados([o], now))
  {
    assert IsBlank(" ") by {
      BlankIffAllSpace(" ");
    }
  }

  /**
   * The report filters after normalising, so a deal sent without a date is judged by
   * `now`: with a start date after `now` the report drops it, while the sales tab, which
   * reads the empty date as an Invalid Date, keeps it.
   */
  lemma BlankDateJudgedByNow(o: Object, d: Deal, dateFrom: string, parse: Parse, now: string)
    requires Normalize.SentDefaulted(o, d) && d.createdAt == "" && parse("").None?
    requires dateFrom != "" && Lt(parse(now), parse(dateFrom))
    ensures App.FiltroDeals([d], "", dateFrom, "", parse) == [d]
    ensures Filtered([o], now, "", dateFrom, "", parse) == []
  {
    SalesTabKeepsUndated(d, dateFrom, parse);
    ReportDropsDatedNow(o, dateFrom, parse, now);
  }

  lemma SalesTabKeepsUndated(d: Deal, dateFrom: string, parse: Parse)
    requires parse(d.createdAt).None?
    ensures App.FiltroDeals([d], "", dateFrom, "", parse) == [d]
  {
    FilterSingle(d, App.SalesTab("", dateFrom, "", parse));
  }

  lemma ReportDropsDatedNow(o: Object, dateFrom: string, parse: Parse, now: string)
    requires !Js.Truthy(Js.Get(o, "created_at")) && !Js.Truthy(Js.Get(o, "createdAt"))
    requires dateFrom != "" && Lt(parse(now), parse(dateFrom))
    ensures Filtered([o], now, "", dateFrom, "", parse) == []
  {
    var n := Normalizados([o], now);
    assert n[0].createdAt == now;
    FilterSingle(n[0], App.SalesTab("", dateFrom, "", parse));
    assert n == [n[0]];
  }

  /** One row of the report table; the date column is left to the browser's locale. */
  datatype ReportRow = ReportRow(
    vendedor: string, empresa: string, cnpj: string, responsavel: string, whatsapp: string,
    email: string, status: string, pagamento: string, total: real)

  /** A deal's row: "-" for a missing seller, the status in capitals, "OK" or "Pendente", the total or 0. */
  function RowOf(d: Deal): (r: ReportRow)
    ensures r.vendedor != ""
    ensures d.owner != "" ==> r.vendedor == d.owner
    ensures d.owner == "" ==> r.vendedor == "-"
    ensures r.empresa == d.empresa && r.cnpj == d.cnpj && r.responsavel == d.responsavel
    ensures r.whatsapp == d.whatsapp && r.email == d.email
    ensures r.status == Upper(d.status) && Upper(r.status) == r.status
    ensures r.pagamento == "OK" <==> d.pagamentoConfirmado
    ensures r.pagamento in {"OK", "Pendente"}
    ensures r.total == TotalOf(d)
  {
    UpperIdempotent(d.status);
    ReportRow(
      if d.owner == "" then "-" else d.owner,
      d.empresa, d.cnpj, d.responsavel, d.whatsapp, d.email,
      Upper(d.status),
      if d.pagamentoConfirmado then "OK" else "Pendente",
      TotalOf(d))
  }

  /** `rows`: one row per deal of `Filtered`, in the same order. */
  function Rows(filtered: seq<Deal>): (r: seq<ReportRow>)
    ensures |r| == |filtered|
    ensures forall i :: 0 <= i < |filtered| ==> r[i] == RowOf(filtered[i])
  {
    seq(|filtered|, i requires 0 <= i < |filtered| => RowOf(filtered[i]))
  }

  /** The table the report renders for its inputs: one row per normalised deal the filter keeps. */
  function Tabela(objs: seq<Object>, now: string, vendedor: string, dateFrom: string, dateTo: string, parse: Parse): (r: seq<ReportRow>)
    ensures |r| == Count(Normalizados(objs, now), App.SalesTab(vendedor, dateFrom, dateTo, parse))
    ensures forall row :: row in r ==> exists d :: d in Normalizados(objs, now) && App.KeepInSalesTab(d, vendedor, dateFrom, dateTo, parse) && row == RowOf(d)
    ensures forall d :: d in Normalizados(objs, now) && App.KeepInSalesTab(d, vendedor, dateFrom, dateTo, parse) ==> RowOf(d) in r
  {
    var f := Filtered(objs, now, vendedor, dateFrom, dateTo, parse);
    RowsFrom(f);
    Rows(f)
  }

  lemma RowsFrom(f: seq<Deal>)
    ensures forall row :: row in Rows(f) ==> exists d :: d in f && row == RowOf(d)
    ensures forall d :: d in f ==> RowOf(d) in Rows(f)
  {
    var r := Rows(f);
    forall d | d in f ensures RowOf(d) in r {
      var i :| 0 <= i < |f| && f[i] == d;
      assert r[i] == RowOf(d);
    }
    forall row | row in r ensures exists d :: d in f && row == RowOf(d) {
      var i :| 0 <= i < |r| && r[i] == row;
      assert f[i] in f;
    }
  }

  /** `totalFaturado`: the paid deals' totals, the sum of the rows marked "OK". */
  function TotalFaturado(filtered: seq<Deal>): (t: real)
    ensures t == SumOf(Filter(Rows(filtered), Paid), RowTotal)
    ensures (forall d :: d in filtered ==> TotalOf(d) >= 0.0) ==> 0.0 <= t <= SumOf(filtered, TotalOf)
  {
    PaidRowsAddUp(filtered);
    Dashboard.FaturadoWithinTotal(filtered);
    SumOf(Filter(filtered, Dashboard.Confirmed), TotalOf)
  }

  /** "Total geral": every filtered deal's total, the sum of the table's total column. */
  function TotalGeral(filtered: seq<Deal>): (t: real)
    ensures t == SumOf(Rows(filtered), RowTotal)
    ensures (forall d :: d in filtered ==> TotalOf(d) >= 0.0) ==> t >= TotalFaturado(filtered)
  {
    RowsAddUp(filtered);
    SumOf(filtered, TotalOf)
  }

  function RowTotal(r: ReportRow): real {
    r.total
  }

  predicate Paid(r: ReportRow) {
    r.pagamento == "OK"
  }

  /** The table's total column adds up to the deals' totals. */
  lemma {:induction false} RowsAddUp(filtered: seq<Deal>)
    ensures SumOf(Rows(filtered), RowTotal) == SumOf(filtered, TotalOf)
  {
    if |filtered| > 0 {
      RowsAddUp(filtered[1..]);
      RowsCons(filtered);
    }
  }

  /** The rows marked "OK" add up to the confirmed deals' totals. */
  lemma {:induction false} PaidRowsAddUp(filtered: seq<Deal>)
    ensures SumOf(Filter(Rows(filtered), Paid), RowTotal) == SumOf(Filter(filtered, Dashboard.Confirmed), TotalOf)
  {
    if |filtered| > 0 {
      PaidRowsAddUp(filtered[1..]);
      RowsCons(filtered);
    }
  }

  lemma RowsCons(filtered: seq<Deal>)
    requires |filtered| > 0
    ensures Rows(filtered) == [RowOf(filtered[0])] + Rows(filtered[1..])
  {
  }
}

=== FILE: seqs.dfy ===
/**
 * The array operations the source applies to its deal lists: `filter`, `reduce` as a
 * sum, `Array.from(new Set(...))` as a first-occurrence de-duplication, and the stable
 * `sort` of ECMAScript 2019.
 */
module Seqs {
  import opened Wrappers

  /** `a` is `b` with some elements left out, order kept. */
  predicate IsSubseq<T(==,!new)>(a: seq<T>, b: seq<T>) {
    if |a| == 0 then true
    else if |b| == 0 then false
    else (a[0] == b[0] && IsSubseq(a[1..], b[1..])) || IsSubseq(a, b[1..])
  }

  lemma {:induction false} SubseqRefl<T(!new)>(s: seq<T>)
    ensures IsSubseq(s, s)
  {
    if |s| > 0 {
      SubseqRefl(s[1..]);
    }
  }

  /** How many times x occurs in s. */
  ghost function Occurrences<T>(s: seq<T>, x: T): nat {
    multiset(s)[x]
  }

  /** `s.filter(p)` */
  function Filter<T(!new)>(s: seq<T>, p: T -> bool): (r: seq<T>)
    ensures |r| <= |s|
    ensures forall x :: x in r <==> x in s && p(x)
    ensures IsSubseq(r, s)
    ensures forall x {:trigger Occurrences(r, x)} :: Occurrences(r, x) == if p(x) then Occurrences(s, x) else 0
  {
    if |s| == 0 then []
    else
      var rest := Filter(s[1..], p);
      OccurrencesCons(s[0], s[1..]);
      assert s == [s[0]] + s[1..];
      if p(s[0]) then OccurrencesCons(s[0], rest); [s[0]] + rest
      else rest
  }

  /** Putting x0 in front adds one occurrence of x0 and none of anything else. */
  lemma OccurrencesCons<T>(x0: T, rest: seq<T>)
    ensures forall x {:trigger Occurrences([x0] + rest, x)} ::
      Occurrences([x0] + rest, x) == (if x == x0 then 1 else 0) + Occurrences(rest, x)
  {
    assert multiset([x0] + rest) == multiset{x0} + multiset(rest);
  }

  /** `s.filter(p).length` */
  function Count<T(!new)>(s: seq<T>, p: T -> bool): nat {
    |Filter(s, p)|
  }

  /** Every element is kept by exactly one of p and q. */
  ghost predicate Complementary<T(!new)>(p: T -> bool, q: T -> bool) {
    forall x :: p(x) <==> !q(x)
  }

  /** A predicate and its complement split a list: their counts add up to its length. */
  lemma {:induction false} CountPartition<T(!new)>(s: seq<T>, p: T -> bool, q: T -> bool)
    requires Complementary(p, q)
    ensures Count(s, p) + Count(s, q) == |s|
  {
    if |s| > 0 {
      CountPartition(s[1..], p, q);
    }
  }

  /** Two predicates that never hold together count at most the whole list. */
  lemma {:induction false} CountDisjoint<T(!new)>(s: seq<T>, p: T -> bool, q: T -> bool)
    requires forall x :: !(p(x) && q(x))
    ensures Count(s, p) + Count(s, q) <= |s|
  {
    if |s| > 0 {
      CountDisjoint(s[1..], p, q);
    }
  }

  /** A predicate implied by another on every element counts at least as many. */
  lemma {:induction false} CountMono<T(!new)>(s: seq<T>, p: T -> bool, q: T -> bool)
    requires forall x :: x in s && p(x) ==> q(x)
    ensures Count(s, p) <= Count(s, q)
  {
    if |s| > 0 {
      assert s[0] in s;
      CountMono(s[1..], p, q);
    }
  }

  /** Predicates that agree on every element count the same. */
  lemma {:induction false} CountAgree<T(!new)>(s: seq<T>, p: T -> bool, q: T -> bool)
    requires forall x :: x in s ==> p(x) == q(x)
    ensures Count(s, p) == Count(s, q)
  {
    if |s| > 0 {
      assert s[0] in s;
      CountAgree(s[1..], p, q);
    }
  }

  /** Replacing the element at k changes the count by what the old and new element contribute. */
  lemma {:induction false} CountUpdate<T(!new)>(s: seq<T>, k: nat, x: T, p: T -> bool)
    requires k < |s|
    ensures Count(s[k := x], p) + (if p(s[k]) then 1 else 0) == Count(s, p) + (if p(x) then 1 else 0)
  {
    if k == 0 {
      assert s[k := x][1..] == s[1..];
    } else {
      assert s[k := x][1..] == s[1..][k - 1 := x];
      CountUpdate(s[1..], k - 1, x, p);
    }
  }

  /** Filtering by a weaker predicate first changes nothing. */
  lemma {:induction false} FilterFilter<T(!new)>(s: seq<T>, p: T -> bool, q: T -> bool)
    requires forall x :: q(x) ==> p(x)
    ensures Filter(Filter(s, p), q) == Filter(s, q)
  {
    if |s| > 0 {
      FilterFilter(s[1..], p, q);
      if p(s[0]) {
        assert Filter(s, p)[1..] == Filter(s[1..], p);
      }
    }
  }

  /** Filtering by p and then by q is filtering by both at once. */
  lemma {:induction false} FilterAnd<T(!new)>(s: seq<T>, p: T -> bool, q: T -> bool, pq: T -> bool)
    requires forall x :: pq(x) == (p(x) && q(x))
    ensures Filter(Filter(s, p), q) == Filter(s, pq)
  {
    if |s| > 0 {
      FilterAnd(s[1..], p, q, pq);
      if p(s[0]) {
        assert Filter(s, p)[1..] == Filter(s[1..], p);
      }
    }
  }

  /** A filter that keeps everything is the identity. */
  lemma {:induction false} FilterAll<T(!new)>(s: seq<T>, p: T -> bool)
    requires forall x :: x in s ==> p(x)
    ensures Filter(s, p) == s
  {
    if |s| > 0 {
      FilterAll(s[1..], p);
    }
  }

  /** `s.reduce((sum, x) => sum + f(x), 0)` */
  function SumOf<T(!new)>(s: seq<T>, f: T -> real): real {
    if |s| == 0 then 0.0 else f(s[0]) + SumOf(s[1..], f)
  }

  lemma {:induction false} SumNonNegative<T(!new)>(s: seq<T>, f: T -> real)
    requires forall x :: x in s ==> f(x) >= 0.0
    ensures SumOf(s, f) >= 0.0
  {
    if |s| > 0 {
      SumNonNegative(s[1..], f);
    }
  }

  /** Adding the same amount once per element. */
  lemma {:induction false} SumConst<T(!new)>(s: seq<T>, f: T -> real, c: real)
    requires forall x :: x in s ==> f(x) == c
    ensures SumOf(s, f) == |s| as real * c
  {
    if |s| > 0 {
      assert s[0] in s;
      SumConst(s[1..], f, c);
    }
  }

  /** A predicate and its complement split a sum. */
  lemma {:induction false} SumPartition<T(!new)>(s: seq<T>, f: T -> real, p: T -> bool, q: T -> bool)
    requires Complementary(p, q)
    ensures SumOf(Filter(s, p), f) + SumOf(Filter(s, q), f) == SumOf(s, f)
  {
    if |s| > 0 {
      SumPartition(s[1..], f, p, q);
    }
  }

  /** With non-negative terms, a filtered sum never exceeds the whole sum. */
  lemma {:induction false} SumFilterBound<T(!new)>(s: seq<T>, f: T -> real, p: T -> bool)
    requires forall x :: x in s ==> f(x) >= 0.0
    ensures SumOf(Filter(s, p), f) <= SumOf(s, f)
  {
    if |s| > 0 {
      SumFilterBound(s[1..], f, p);
    }
  }

  /** `Array.from(new Set(s))`: each value once, at its first occurrence. */
  function Dedup<T(==,!new)>(s: seq<T>): (r: seq<T>)
    ensures forall x :: x in r <==> x in s
    ensures forall i, j :: 0 <= i < j < |r| ==> r[i] != r[j]
    ensures |s| > 0 ==> |r| > 0 && r[0] == s[0]
    decreases |s|
  {
    if |s| == 0 then []
    else
      var rest := Dedup(Filter(s[1..], x => x != s[0]));
      assert s[0] !in rest;
      [s[0]] + rest
  }

  /** Values already distinct come out of `Dedup` in place: `new Set(a ++ b)` starts with a. */
  lemma {:induction false} DedupKeepsDistinctPrefix<T(!new)>(a: seq<T>, b: seq<T>)
    requires forall i, j :: 0 <= i < j < |a| ==> a[i] != a[j]
    ensures |a| <= |Dedup(a + b)| && Dedup(a + b)[..|a|] == a
    decreases |a|
  {
    if |a| > 0 {
      var s := a + b;
      var p := (x: T) => x != s[0];
      assert s[1..] == a[1..] + b;
      FilterConcat(a[1..], b, p);
      FilterAll(a[1..], p);
      DedupKeepsDistinctPrefix(a[1..], Filter(b, p));
    }
  }

  lemma {:induction false} FilterConcat<T(!new)>(a: seq<T>, b: seq<T>, p: T -> bool)
    ensures Filter(a + b, p) == Filter(a, p) + Filter(b, p)
  {
    if |a| > 0 {
      assert (a + b)[1..] == a[1..] + b;
      FilterConcat(a[1..], b, p);
    } else {
      assert a + b == b;
    }
  }

  /** Filtering out the one element that fails the test leaves the elements before and after it. */
  lemma FilterOutOne<T(!new)>(s: seq<T>, k: nat, p: T -> bool)
    requires k < |s| && !p(s[k])
    requires forall i :: 0 <= i < |s| && i != k ==> p(s[i])
    ensures Filter(s, p) == s[..k] + s[k + 1..]
  {
    FilterSplit(s, k, p);
    FilterSingle(s[k], p);
    KeepAllBefore(s, k, p);
    KeepAllAfter(s, k, p);
    assert [] + s[k + 1..] == s[k + 1..];
  }

  /** Filtering distributes over the elements before, at and after a position. */
  lemma FilterSplit<T(!new)>(s: seq<T>, k: nat, p: T -> bool)
    requires k < |s|
    ensures Filter(s, p) == Filter(s[..k], p) + (Filter([s[k]], p) + Filter(s[k + 1..], p))
  {
    SplitAt(s, k);
    FilterConcat(s[..k], [s[k]] + s[k + 1..], p);
    FilterConcat([s[k]], s[k + 1..], p);
  }

  lemma SplitAt<T>(s: seq<T>, k: nat)
    requires k < |s|
    ensures s == s[..k] + ([s[k]] + s[k + 1..])
  {
  }

  /** A one-element list loses its element exactly when the test fails. */
  lemma FilterSingle<T(!new)>(x: T, p: T -> bool)
    ensures Filter([x], p) == if p(x) then [x] else []
  {
    assert [x][1..] == [];
  }

  lemma KeepAllBefore<T(!new)>(s: seq<T>, k: nat, p: T -> bool)
    requires k < |s|
    requires forall i :: 0 <= i < |s| && i != k ==> p(s[i])
    ensures Filter(s[..k], p) == s[..k]
  {
    assert forall x :: x in s[..k] ==> p(x);
    FilterAll(s[..k], p);
  }

  lemma KeepAllAfter<T(!new)>(s: seq<T>, k: nat, p: T -> bool)
    requires k < |s|
    requires forall i :: 0 <= i < |s| && i != k ==> p(s[i])
    ensures Filter(s[k + 1..], p) == s[k + 1..]
  {
    assert forall x :: x in s[k + 1..] ==> p(x);
    FilterAll(s[k + 1..], p);
  }

  /** `key(a) > key(b)` where an absent key (NaN) compares as neither greater nor less. */
  predicate Greater(a: Option<real>, b: Option<real>) {
    a.Some? && b.Some? && a.value > b.value
  }

  /** Ordered by descending key among the elements whose key is present. */
  ghost predicate SortedDesc<T(!new)>(s: seq<T>, key: T -> Option<real>) {
    forall i, j :: 0 <= i < j < |s| && key(s[i]).Some? && key(s[j]).Some? ==>
      key(s[i]).value >= key(s[j]).value
  }

  /** Place x after every element it is not greater than. */
  function Insert<T(!new)>(x: T, s: seq<T>, key: T -> Option<real>): (r: seq<T>)
    ensures multiset(r) == multiset(s) + multiset{x}
    ensures |r| == |s| + 1
  {
    if |s| == 0 then [x]
    else if Greater(key(x), key(s[0])) then [x] + s
    else
      assert s == [s[0]] + s[1..];
      [s[0]] + Insert(x, s[1..], key)
  }

  /** Inserting into a sorted list keeps it sorted. */
  lemma {:induction false} InsertSorted<T(!new)>(x: T, s: seq<T>, key: T -> Option<real>)
    requires SortedDesc(s, key)
    ensures SortedDesc(Insert(x, s, key), key)
  {
    if |s| > 0 && !Greater(key(x), key(s[0])) {
      var t := Insert(x, s[1..], key);
      InsertSorted(x, s[1..], key);
      forall j | 0 <= j < |t| && key(s[0]).Some? && key(t[j]).Some?
        ensures key(s[0]).value >= key(t[j]).value
      {
        assert t[j] in multiset(t);
        if t[j] != x {
          assert t[j] in multiset(s[1..]);
          var k :| 0 <= k < |s[1..]| && s[1..][k] == t[j];
          assert s[k + 1] == t[j];
        }
      }
      var r := [s[0]] + t;
      assert r == Insert(x, s, key);
      forall i, j | 0 <= i < j < |r| && key(r[i]).Some? && key(r[j]).Some?
        ensures key(r[i]).value >= key(r[j]).value
      {
        if i > 0 {
          assert r[i] == t[i - 1] && r[j] == t[j - 1];
        } else {
          assert r[j] == t[j - 1];
        }
      }
    }
  }

  /** Two permutations of each other have the same members. */
  lemma SameMembers<T>(a: seq<T>, b: seq<T>)
    requires multiset(a) == multiset(b)
    ensures forall x :: x in a <==> x in b
  {
    forall x ensures x in a <==> x in b {
      assert x in a <==> x in multiset(a);
      assert x in b <==> x in multiset(b);
    }
  }

  /** The elements whose key is exactly v (`None` for the NaN keys). */
  function KeyIs<T>(key: T -> Option<real>, v: Option<real>): T -> bool {
    (x: T) => key(x) == v
  }

  /** A list with no element passing the test filters to nothing. */
  lemma FilterNone<T(!new)>(s: seq<T>, p: T -> bool)
    requires forall x :: x in s ==> !p(x)
    ensures Filter(s, p) == []
  {
    if Filter(s, p) != [] {
      assert Filter(s, p)[0] in Filter(s, p);
    }
  }

  lemma ConsSplit<T>(s: seq<T>)
    requires |s| > 0
    ensures s == [s[0]] + s[1..]
  {
  }

  lemma AppendEmpty<T>(a: seq<T>)
    ensures a + [] == a && [] + a == a
  {
  }

  lemma AppendAssoc<T>(a: seq<T>, b: seq<T>, c: seq<T>)
    ensures a + (b + c) == (a + b) + c
  {
  }

  /** In a sorted list, nothing after an element has a larger present key than it. */
  lemma SortedTailBelow<T(!new)>(s: seq<T>, key: T -> Option<real>, w: real)
    requires |s| > 0 && SortedDesc(s, key) && key(s[0]).Some? && key(s[0]).value < w
    ensures forall y :: y in s ==> key(y) != Some(w)
  {
    forall y | y in s ensures key(y) != Some(w) {
      var i :| 0 <= i < |s| && s[i] == y;
      if i > 0 && key(y).Some? {
        assert key(s[0]).value >= key(s[i]).value;
      }
    }
  }

  /**
   * Insertion is stable: among the elements with one key, the inserted element comes
   * after those already in the list.
   */
  lemma {:induction false} InsertStable<T(!new)>(x: T, s: seq<T>, key: T -> Option<real>, v: Option<real>)
    requires SortedDesc(s, key)
    ensures Filter(Insert(x, s, key), KeyIs(key, v)) == Filter(s, KeyIs(key, v)) + Filter([x], KeyIs(key, v))
  {
    var p := KeyIs(key, v);
    if |s| == 0 {
      AppendEmpty(Filter([x], p));
    } else if Greater(key(x), key(s[0])) {
      FilterConcat([x], s, p);
      FilterSingle(x, p);
      if key(x) == v {
        SortedTailBelow(s, key, key(x).value);
        FilterNone(s, p);
      }
      AppendEmpty(Filter(s, p));
    } else {
      var rest := s[1..];
      assert SortedDesc(rest, key) by {
        forall i, j | 0 <= i < j < |rest| && key(rest[i]).Some? && key(rest[j]).Some?
          ensures key(rest[i]).value >= key(rest[j]).value
        {
          assert rest[i] == s[i + 1] && rest[j] == s[j + 1];
        }
      }
      InsertStable(x, rest, key, v);
      FilterConcat([s[0]], Insert(x, rest, key), p);
      ConsSplit(s);
      FilterConcat([s[0]], rest, p);
      AppendAssoc(Filter([s[0]], p), Filter(rest, p), Filter([x], p));
    }
  }

  /**
   * `s.sort((a, b) => key(b) - key(a))`: newest or largest first; among equal keys
   * the input order is kept.
   */
  function SortDesc<T(!new)>(s: seq<T>, key: T -> Option<real>): (r: seq<T>)
    ensures SortedDesc(r, key)
    ensures multiset(r) == multiset(s)
    ensures |r| == |s|
    ensures forall v :: Filter(r, KeyIs(key, v)) == Filter(s, KeyIs(key, v))
  {
    if |s| == 0 then []
    else
      var init, last := s[..|s| - 1], s[|s| - 1];
      var sorted := SortDesc(init, key);
      assert s == init + [last];
      InsertSorted(last, sorted, key);
      assert forall v :: Filter(Insert(last, sorted, key), KeyIs(key, v)) == Filter(s, KeyIs(key, v)) by {
        forall v ensures Filter(Insert(last, sorted, key), KeyIs(key, v)) == Filter(s, KeyIs(key, v)) {
          InsertStable(last, sorted, key, v);
          FilterConcat(init, [last], KeyIs(key, v));
        }
      }
      Insert(last, sorted, key)
  }
}

=== FILE: text.dfy ===
/** String helpers mirroring the JavaScript string methods the source relies on. */
module Text {

  predicate IsDigit(c: char) {
    '0' <= c <= '9'
  }

  predicate AllDigits(s: string) {
    forall i :: 0 <= i < |s| ==> IsDigit(s[i])
  }

  function DigitValue(c: char): nat
    requires IsDigit(c)
  {
    c as int - '0' as int
  }

  function DigitChar(d: nat): (c: char)
    requires d < 10
    ensures IsDigit(c) && DigitValue(c) == d
  {
    ('0' as int + d) as char
  }

  /** The white space and line terminators that `String.prototype.trim` removes. */
  predicate IsSpace(c: char) {
    c == ' ' || c == '\t' || c == '\n' || c == '\r' || c == '\U{000B}' || c == '\U{000C}'
    || c == '\U{00A0}' || c == '\U{1680}' || ('\U{2000}' <= c <= '\U{200A}')
    || c == '\U{2028}' || c == '\U{2029}' || c == '\U{202F}' || c == '\U{205F}'
    || c == '\U{3000}' || c == '\U{FEFF}'
  }

  /** `s.trimStart()` */
  function TrimStart(s: string): (r: string)
    ensures |r| <= |s| && r == s[|s| - |r|..]
    ensures |r| > 0 ==> !IsSpace(r[0])
    ensures forall i :: 0 <= i < |s| - |r| ==> IsSpace(s[i])
  {
    if |s| > 0 && IsSpace(s[0]) then TrimStart(s[1..]) else s
  }

  /** `s.trimEnd()` */
  function TrimEnd(s: string): (r: string)
    ensures |r| <= |s| && r == s[..|r|]
    ensures |r| > 0 ==> !IsSpace(r[|r| - 1])
    ensures forall i :: |r| <= i < |s| ==> IsSpace(s[i])
  {
    if |s| > 0 && IsSpace(s[|s| - 1]) then TrimEnd(s[..|s| - 1]) else s
  }

  /** `s.trim()` */
  function Trim(s: string): string {
    TrimEnd(TrimStart(s))
  }

  /** `!s.trim()`: the text is empty or white space only. */
  predicate IsBlank(s: string) {
    Trim(s) == ""
  }

  lemma {:induction false} BlankIffAllSpace(s: string)
    ensures IsBlank(s) <==> forall i :: 0 <= i < |s| ==> IsSpace(s[i])
  {
    var t := TrimStart(s);
    var k := |s| - |t|;
    if |t| > 0 {
      assert t[0] == s[k];
    }
  }

  function UpperChar(c: char): char {
    if 'a' <= c <= 'z' then (c as int - 32) as char else c
  }

  function LowerChar(c: char): char {
    if 'A' <= c <= 'Z' then (c as int + 32) as char else c
  }

  /** `s.toUpperCase()`, for the ASCII letters. */
  function Upper(s: string): (r: string)
    ensures |r| == |s|
    ensures forall i :: 0 <= i < |s| ==> r[i] == UpperChar(s[i])
  {
    if |s| == 0 then [] else [UpperChar(s[0])] + Upper(s[1..])
  }

  /** Upper-casing twice changes nothing more, and leaves no lower-case letter. */
  lemma UpperIdempotent(s: string)
    ensures Upper(Upper(s)) == Upper(s)
    ensures forall i :: 0 <= i < |s| ==> !('a' <= Upper(s)[i] <= 'z')
  {
    assert forall i :: 0 <= i < |s| ==> Upper(Upper(s))[i] == Upper(s)[i];
  }

  /** `s.toLowerCase()`, for the ASCII letters. */
  function Lower(s: string): (r: string)
    ensures |r| == |s|
    ensures forall i :: 0 <= i < |s| ==> r[i] == LowerChar(s[i])
  {
    if |s| == 0 then [] else [LowerChar(s[0])] + Lower(s[1..])
  }

  /** `s.includes(t)`: t occurs in s at some position. */
  predicate Contains(s: string, t: string) {
    t <= s || (|s| > 0 && Contains(s[1..], t))
  }

  lemma {:induction false} ContainsAt(s: string, t: string, k: nat)
    requires k + |t| <= |s| && s[k..k + |t|] == t
    ensures Contains(s, t)
  {
    if k > 0 {
      assert s[1..][k - 1..k - 1 + |t|] == s[k..k + |t|];
      ContainsAt(s[1..], t, k - 1);
    }
  }

  /** `s.substring(0, n)` for n >= 0. */
  function Take(s: string, n: nat): (r: string)
    ensures |r| == if n < |s| then n else |s|
    ensures r <= s
  {
    if n < |s| then s[..n] else s
  }

  /** Decimal text of a natural number, as `String(n)` prints it. */
  function NatToString(n: nat): (r: string)
    ensures |r| > 0 && AllDigits(r)
    ensures n > 0 ==> r[0] != '0'
  {
    if n < 10 then [DigitChar(n)] else NatToString(n / 10) + [DigitChar(n % 10)]
  }

  /** The position of the first c in s, or |s| when there is none. */
  function FirstIndex(s: string, c: char): (k: nat)
    ensures k <= |s| && c !in s[..k]
    ensures k < |s| ==> s[k] == c
    ensures k == |s| <==> c !in s
  {
    if |s| == 0 then 0
    else if s[0] == c then 0
    else
      var k := FirstIndex(s[1..], c);
      assert s[..k + 1] == [s[0]] + s[1..][..k];
      k + 1
  }

  /** `s.split(sep)` for a one-character separator: the pieces between the separators, empty ones included. */
  function Split(s: string, sep: char): (parts: seq<string>)
    ensures |parts| > 0
    ensures forall i :: 0 <= i < |parts| ==> sep !in parts[i]
    ensures forall p :: p in parts ==> sep !in p
    decreases |s|
  {
    var k := FirstIndex(s, sep);
    if k == |s| then [s] else [s[..k]] + Split(s[k + 1..], sep)
  }

  /** `parts.join(sep)` */
  function Join(parts: seq<string>, sep: char): string {
    if |parts| == 0 then ""
    else if |parts| == 1 then parts[0]
    else parts[0] + [sep] + Join(parts[1..], sep)
  }

  /** Joining the pieces back with the separator gives the original text. */
  lemma {:induction false} JoinSplit(s: string, sep: char)
    ensures Join(Split(s, sep), sep) == s
    decreases |s|
  {
    var k := FirstIndex(s, sep);
    if k < |s| {
      JoinSplit(s[k + 1..], sep);
      assert s == s[..k] + [sep] + s[k + 1..];
    }
  }

  /** Splitting a text that is not all separators leaves at least one non-empty piece. */
  lemma {:induction false} SplitHasWord(s: string, sep: char, i: nat)
    requires i < |s| && s[i] != sep
    ensures exists p :: p in Split(s, sep) && p != ""
    decreases |s|
  {
    var k := FirstIndex(s, sep);
    if i < k {
      SplitHead(s, sep);
      assert s[..k][i] == s[i];
    } else {
      var rest := s[k + 1..];
      SplitHasWord(rest, sep, i - k - 1);
      var p :| p in Split(rest, sep) && p != "";
      SplitTail(s, sep, p);
    }
  }

  /** The first piece is the text before the first separator. */
  lemma SplitHead(s: string, sep: char)
    ensures s[..FirstIndex(s, sep)] in Split(s, sep)
  {
    assert s[..|s|] == s;
  }

  /** Every piece of the text after the first separator is a piece of the whole. */
  lemma SplitTail(s: string, sep: char, p: string)
    requires FirstIndex(s, sep) < |s|
    requires p in Split(s[FirstIndex(s, sep) + 1..], sep)
    ensures p in Split(s, sep)
  {
  }
}

=== FILE: treinamento_card.dfy ===
/**
 * The training card: the date and time inputs, saving the schedule (which decides
 * between "scheduled" and "pending"), concluding the training, and the WhatsApp contact.
 */
module TreinamentoCard {
  import opened Wrappers
  import opened Types
  import opened Deals
  import WhatsApp

  /** The card's two inputs. */
  datatype Schedule = Schedule(data: string, hora: string)

  /** The inputs start from the deal's stored date and time (an absent value reads ""). */
  function InitialSchedule(d: Deal): (s: Schedule)
    ensures s.data == d.treinamentoData && s.hora == d.treinamentoHora
  {
    Schedule(d.treinamentoData, d.treinamentoHora)
  }

  /** Both inputs are filled in. */
  predicate Complete(s: Schedule) {
    s.data != "" && s.hora != ""
  }

  /** "Salvar Agendamento" */
  function SaveSchedule(d: Deal, s: Schedule): (r: Deal)
    ensures r.status == TreinamentoAgendado.Id() <==> Complete(s)
    ensures r.status == TreinamentoAgendado.Id() || r.status == TreinamentoPendente.Id()
    ensures r.treinamentoData == s.data && r.treinamentoHora == s.hora
    ensures SameExcept(r, d, {TreinamentoData, TreinamentoHora, Status})
  {
    d.(treinamentoData := s.data,
       treinamentoHora := s.hora,
       status := if s.data != "" && s.hora != "" then "treinamento_agendado" else "treinamento_pendente")
  }

  /** Reopening a card after saving shows what was saved. */
  lemma SavedScheduleReloads(d: Deal, s: Schedule)
    ensures InitialSchedule(SaveSchedule(d, s)) == s
  {
  }

  /** "Concluir": offered only for a scheduled training; it moves the deal to the experience stage. */
  function Conclude(d: Deal): (r: Option<Deal>)
    ensures r.Some? <==> d.status == TreinamentoAgendado.Id()
    ensures r.Some? ==> r.value.status == Experiencia.Id() && SameExcept(r.value, d, {Status})
  {
    if d.status == "treinamento_agendado" then Some(d.(status := "experiencia")) else None
  }

  /** After a save, "Concluir" is offered exactly when both date and time were given. */
  lemma ConcludeAfterSave(d: Deal, s: Schedule)
    ensures Conclude(SaveSchedule(d, s)).Some? <==> Complete(s)
  {
  }

  /** Saving again with the same inputs changes nothing: the save is idempotent. */
  lemma SaveIdempotent(d: Deal, s: Schedule)
    ensures SaveSchedule(SaveSchedule(d, s), s) == SaveSchedule(d, s)
  {
  }

  /** The number the contact button dials; with no usable number the button does nothing. */
  function ContactTarget(d: Deal): (t: Option<string>)
    ensures t.None? <==> !WhatsApp.HasWhatsApp(d.whatsapp)
    ensures t.Some? ==> t == WhatsApp.Target(d.whatsapp)
  {
    WhatsApp.Target(d.whatsapp)
  }
}

=== FILE: types.dfy ===
/**
 * The catalogues of the CRM: pipeline stages, roles, payment methods, products,
 * training statuses, sale types and the fixed sellers, plus the note and user records.
 */
module Types {
  import opened Wrappers

  /** The seven pipeline stages, in pipeline order. */
  datatype Stage =
    | Novo
    | TreinamentoPendente
    | TreinamentoAgendado
    | Experiencia
    | Ativo
    | Inativo
    | Atraso
  {
    /** The id stored in `Deal.status`. */
    function Id(): string {
      match this
      case Novo => "novo"
      case TreinamentoPendente => "treinamento_pendente"
      case TreinamentoAgendado => "treinamento_agendado"
      case Experiencia => "experiencia"
      case Ativo => "ativo"
      case Inativo => "inativo"
      case Atraso => "atraso"
    }

    /** The label shown for the stage. */
    function Name(): string {
      match this
      case Novo => "Cadastro"
      case TreinamentoPendente => "Treinamento Pendente"
      case TreinamentoAgendado => "Treinamento Agendado"
      case Experiencia => "Experi\U{00EA}ncia (30 dias)"
      case Ativo => "Ativo"
      case Inativo => "Inativo"
      case Atraso => "Em Atraso"
    }
  }

  const PIPELINE: seq<Stage> :=
    [Novo, TreinamentoPendente, TreinamentoAgendado, Experiencia, Ativo, Inativo, Atraso]

  /** The ids of `PIPELINE`, in order. */
  function PipelineIds(): (ids: seq<string>)
    ensures |ids| == |PIPELINE|
    ensures forall i :: 0 <= i < |PIPELINE| ==> ids[i] == PIPELINE[i].Id()
  {
    seq(|PIPELINE|, i requires 0 <= i < |PIPELINE| => PIPELINE[i].Id())
  }

  /** Seven distinct ids in the documented order; every stage appears once. */
  lemma PipelineShape()
    ensures PipelineIds() == ["novo", "treinamento_pendente", "treinamento_agendado",
                              "experiencia", "ativo", "inativo", "atraso"]
    ensures forall i, j :: 0 <= i < j < |PIPELINE| ==> PIPELINE[i].Id() != PIPELINE[j].Id()
    ensures forall s: Stage :: s in PIPELINE
  {
    var ids := PipelineIds();
    assert ids[0] == "novo" && ids[1] == "treinamento_pendente" && ids[2] == "treinamento_agendado";
    assert ids[3] == "experiencia" && ids[4] == "ativo" && ids[5] == "inativo" && ids[6] == "atraso";
    forall s: Stage ensures s in PIPELINE {
      match s
      case Novo => assert PIPELINE[0] == s;
      case TreinamentoPendente => assert PIPELINE[1] == s;
      case TreinamentoAgendado => assert PIPELINE[2] == s;
      case Experiencia => assert PIPELINE[3] == s;
      case Ativo => assert PIPELINE[4] == s;
      case Inativo => assert PIPELINE[5] == s;
      case Atraso => assert PIPELINE[6] == s;
    }
  }

  /** The stage whose id is `id`, if any. */
  function StageOf(id: string): (r: Option<Stage>)
    ensures r.Some? ==> r.value.Id() == id
    ensures r.None? ==> forall s: Stage :: s.Id() != id
  {
    if id == "novo" then Some(Novo)
    else if id == "treinamento_pendente" then Some(TreinamentoPendente)
    else if id == "treinamento_agendado" then Some(TreinamentoAgendado)
    else if id == "experiencia" then Some(Experiencia)
    else if id == "ativo" then Some(Ativo)
    else if id == "inativo" then Some(Inativo)
    else if id == "atraso" then Some(Atraso)
    else None
  }

  /** Ids identify stages: `StageOf` inverts `Id`. */
  lemma StageIdRoundTrip(s: Stage)
    ensures StageOf(s.Id()) == Some(s)
  {
  }

  /** The four roles of a user. */
  datatype Role = Vendedor | Suporte | Treinamento | Gerencia {
    function Name(): string {
      match this
      case Vendedor => "Vendedor"
      case Suporte => "Suporte"
      case Treinamento => "Treinamento"
      case Gerencia => "Gerencia"
    }
  }

  const ROLES: seq<Role> := [Vendedor, Suporte, Treinamento, Gerencia]

  /** Exactly four roles, with distinct names. */
  lemma RolesShape()
    ensures |ROLES| == 4
    ensures forall r: Role :: r in ROLES
    ensures forall i, j :: 0 <= i < j < |ROLES| ==> ROLES[i].Name() != ROLES[j].Name()
  {
    forall r: Role ensures r in ROLES {
      match r
      case Vendedor => assert ROLES[0] == r;
      case Suporte => assert ROLES[1] == r;
      case Treinamento => assert ROLES[2] == r;
      case Gerencia => assert ROLES[3] == r;
    }
  }

  const PAYMENT_METHODS: seq<string> := ["Pix", "Credito", "Dinheiro", "Boleto"]

  const PRODUTOS: seq<string> := [
    "VAI Simples",
    "VAI + Canais Sociais",
    "VAI + Canais + IA",
    "VAI + Canais + IA + URA",
    "VAI + Canais + IA + URA + Consultoria"
  ]

  /** The values `Deal.treinamentoStatus` is declared to take. */
  const TRAINING_STATUSES: seq<string> := ["pendente", "agendado", "concluido", "cancelado"]

  /** The values `Deal.tipoVenda` is declared to take. */
  const SALE_TYPES: seq<string> := ["nova", "recorrencia"]

  /** Five distinct products. */
  lemma ProdutosDistinct()
    ensures |PRODUTOS| == 5
    ensures forall i, j :: 0 <= i < j < |PRODUTOS| ==> PRODUTOS[i] != PRODUTOS[j]
  {
  }

  /** A fixed seller of the intake form. */
  datatype Seller = Seller(id: int, name: string, role: Role)

  const VENDEDORES_FIXOS: seq<Seller> := [
    Seller(1, "Elison", Vendedor),
    Seller(2, "Cris", Vendedor),
    Seller(3, "Rodrigo", Vendedor),
    Seller(4, "Parceiros", Vendedor)
  ]

  /** Four sellers numbered 1 to 4 in order, with distinct names, all of role Vendedor. */
  lemma SellersShape()
    ensures |VENDEDORES_FIXOS| == 4
    ensures forall i :: 0 <= i < 4 ==> VENDEDORES_FIXOS[i].id == i + 1
    ensures forall i :: 0 <= i < 4 ==> VENDEDORES_FIXOS[i].role == Vendedor
    ensures forall i, j :: 0 <= i < j < 4 ==> VENDEDORES_FIXOS[i].name != VENDEDORES_FIXOS[j].name
  {
  }

  /** The names of the fixed sellers, in order. */
  function SellerNames(): (names: seq<string>)
    ensures |names| == |VENDEDORES_FIXOS|
    ensures forall i :: 0 <= i < |names| ==> names[i] == VENDEDORES_FIXOS[i].name
  {
    seq(|VENDEDORES_FIXOS|, i requires 0 <= i < |VENDEDORES_FIXOS| => VENDEDORES_FIXOS[i].name)
  }

  /** One entry of `Deal.observacoes`. */
  datatype Note = Note(data: string, nota: string)

  /** A signed-in user; `id` is optional and an absent `email` is "". */
  datatype User = User(id: Option<int>, name: string, email: string, role: Role)
}

=== FILE: whatsapp.dfy ===
/**
 * `formatarWhatsApp`, the phone normalisation shared verbatim by the quality,
 * training and payment-confirmation views: keep the digits, drop one leading 0,
 * and give a 10-digit number the mobile 9 after its two-digit area code.
 */
module WhatsApp {
  import opened Wrappers
  import opened Text
  import Seqs

  /** `s.replace(/\D/g, '')` */
  function Digits(s: string): (r: string)
    ensures AllDigits(r)
    ensures |r| <= |s|
  {
    if |s| == 0 then ""
    else if IsDigit(s[0]) then [s[0]] + Digits(s[1..])
    else Digits(s[1..])
  }

  /** Keeping the digits is filtering the text by `IsDigit`: same digits, same order. */
  lemma {:induction false} DigitsIsFilter(s: string)
    ensures Digits(s) == Seqs.Filter(s, IsDigit)
  {
    if |s| > 0 {
      DigitsIsFilter(s[1..]);
    }
  }

  /** Text that is all digits already is left as it is. */
  lemma {:induction false} DigitsOfDigits(s: string)
    requires AllDigits(s)
    ensures Digits(s) == s
  {
    if |s| > 0 {
      DigitsOfDigits(s[1..]);
    }
  }

  /** `s.replace(/^0/, '')` */
  function DropLeadingZero(s: string): (r: string)
    ensures s == r || s == "0" + r
    ensures |s| > 0 && s[0] == '0' ==> s == "0" + r
  {
    if |s| > 0 && s[0] == '0' then s[1..] else s
  }

  /** The digits without the trunk prefix 0. */
  function Clean(w: string): (c: string)
    ensures AllDigits(c)
  {
    DropLeadingZero(Digits(w))
  }

  /** `formatarWhatsApp(whatsapp)` */
  function Format(w: string): (r: string)
    ensures AllDigits(r)
    ensures |Clean(w)| == 10 ==> |r| == 11 && r[2] == '9' && r[..2] + r[3..] == Clean(w)
    ensures |Clean(w)| != 10 ==> r == Clean(w)
  {
    var c := Clean(w);
    if |c| == 10 then c[..2] + "9" + c[2..] else c
  }

  /** Only one 0 goes: the digits are the result with at most one 0 in front (and the added 9 removed). */
  lemma AtMostOneZeroDropped(w: string)
    ensures Digits(w) == Clean(w) || Digits(w) == "0" + Clean(w)
  {
  }

  /** A number that does not start with 0 is already in final form. */
  lemma FormatIdempotent(w: string)
    requires |Format(w)| == 0 || Format(w)[0] != '0'
    ensures Format(Format(w)) == Format(w)
  {
    var r := Format(w);
    DigitsOfDigits(r);
    assert Clean(r) == r;
  }

  /** `!!(w && w.trim() !== "")`: the number exists and is not only white space. */
  predicate HasWhatsApp(w: string) {
    w != "" && Trim(w) != ""
  }

  /**
   * The number the WhatsApp button dials (`wa.me/55…`), or nothing when the deal has no
   * number and the button is disabled.
   */
  function Target(w: string): (t: Option<string>)
    ensures t.None? <==> IsBlank(w)
    ensures t.Some? ==> t.value == "55" + Format(w) && AllDigits(t.value)
  {
    if HasWhatsApp(w) then Some("55" + Format(w)) else None
  }
}

=== FILE: wrappers.dfy ===
/** Option and Result, the failure-compatible wrappers the rest of the model uses. */
module Wrappers {

  /** A value that may be absent: JavaScript's `undefined`/`null`, or a failed lookup. */
  datatype Option<+T> = None | Some(value: T) {

    /** The wrapped value, or `default` when absent (the `x ?? default` idiom). */
    function GetOr(default: T): T {
      match this
      case Some(v) => v
      case None => default
    }
  }

  /** The outcome of an operation that can fail with an error of type E. */
  datatype Result<+R, +E> = Ok(value: R) | Err(error: E)
}
